=== FILE: README.md ===
# Quarantine file checks, modelled in Dafny

This project models the quarantine vetting pipeline of the files backend. A
user's upload sits in a quarantine bucket. A request names it by URL and
filename. The pipeline then runs these stages:

- It classifies the file by its suffix and picks the checking service for that category.
- It downloads the bytes and applies the size caps.
- It names the content by its SHA-256 digest and marks every file unseen.
- It verifies the magic number against the expected MIME type.
- It asks VirusTotal about the digest.
- It runs the category's own scan: the pixel-flood guard for images, the structural guard for PDFs.
- It promotes the file into the user's bucket and deletes the quarantine copy.

Every foreign call is an input:

- the HTTP fetch, SHA-256, libmagic and the VirusTotal client;
- the facts pikepdf, zipfile, pdfid and PyMuPDF report about a PDF;
- the dimensions PIL decodes, and whether each pooled task times out.

The inputs are bundled in `QuarantineFileCheckPipeline.Effects`. The object store
is a class over a map from bucket to key to bytes (`ObjectStore.Store`).

Modules follow the source files:

- `Settings`: the configuration constants (`config/settings.py`).
- `ServiceFactory`: the batch classifier and the dispatch.
- `QuarantineFileCheck`: the shared per-file decisions, and a class for the service object whose `process_*` methods fill its per-batch fields in order.
- `ImageQuarantineCheck`: the three thresholds, the chain, the scan as a loop over the service, and the summary.
- `PdfQuarantineCheck`: the signature, the short-circuiting chain over structural facts, and the summary.
- `QuarantineFileCheckPipeline`: the request.
- `Variants`: the two readings, as written and as evidently intended, that the PDF service and the request are stated in.

`QuarantineFileCheckPipeline.Run` is the specification of a whole request. `QuarantineFileCheckPipeline.Process` walks
the request step by step over a fresh service object and the store, and is
proved equal to `Run`. Where the code evidently does not do what it means to, both
behaviours are modelled and a `Variant` selects one. `AsWritten` is what the code
does. `Intended` is the evident intent. The lemmas state both, and the differences
are listed under "## Findings".

Where the code does not do what its names and messages announce, the model
follows the code:

- The double-extension rejection can never fire.
- The tabular rename to `.parquet` never fires.
- A VirusTotal API error other than "not found" passes rather than fails.
- Source-code and tabular batches get no service: the request fails with an `AttributeError` rather than a configuration error.
- The dedup lookup is disabled, and every file counts as unseen.
- A flagged PDF batch raises a `TypeError` instead of reporting its reasons.

The image thresholds reject only dimensions that exceed the maximum, so dimensions equal to it pass.

## Model

| member | source | states |
|---|---|---|
| Settings.CategoryExtensionsHaveMimeTypes | config/settings.py:33-102 | every extension of the image, PDF, source-code and tabular lists is a key of `ALLOWED_MIME_TYPES` |
| Settings.CategoriesDisjoint | config/settings.py:33-36 | the four category lists are pairwise disjoint, so a supported suffix has exactly one category |
| Settings.DimensionCeilingMatchesMegapixels | config/settings.py:26-28 | `IMAGE_MAX_WIDTH * IMAGE_MAX_HEIGHT == MAX_MEGAPIXELS * 1_000_000`; `ImageQuarantineCheck.DimensionsImplyMegapixels` rests on it |
| Settings.FileCapWithinUploadCap | config/settings.py:31-32 | both caps are 15 MB, so the per-file cap does not exceed the batch cap; `QuarantineFileCheckPipeline.OneFileSizeCap` rests on it |
| Settings.KnownJpgMimeType | config/settings.py:39 | `jpg` maps to `image/jpeg` in the merged table |
| Settings.KnownJpegMimeType | config/settings.py:40 | `jpeg` maps to `image/jpeg` |
| Settings.KnownPngMimeType | config/settings.py:41 | `png` maps to `image/png` |
| Settings.KnownPdfMimeType | config/settings.py:42 | `pdf` maps to `application/pdf` |
| Settings.ExtensionsUndotted | config/settings.py:33-36 | no entry of the four lists is empty or starts with a dot (the tabular list holds undotted names) |
| ServiceFactory.FileType | services/service_factory.py:21 | the suffix the classifier examines: the text after the last dot, or the whole name without a dot, lower-cased (ASCII letters only); never longer than the name. `FileTypeHasNoDot` proves it holds no dot |
| ServiceFactory.FileTypeHasNoDot | services/service_factory.py:21 | the examined suffix (lower-cased text after the last dot, or the whole name) holds no dot |
| ServiceFactory.CategoryOf | services/service_factory.py:23-35 | a file type has no category exactly when it is in none of the four lists |
| ServiceFactory.Classify | services/service_factory.py:12-49 | the classifier fails exactly on an empty list (indexing `filenames[0]`), with the wrapped exception |
| ServiceFactory.ExtractAttachments | services/service_factory.py:17-47 | the loop that appends each category and returns early computes the classifier's verdict `Classify` |
| ServiceFactory.DistinctKindsAfterAppend | services/service_factory.py:37 | after appending to a list of equal categories, more than one distinct category exists iff the list was non-empty and the new one differs |
| ServiceFactory.ScanFromCompletes | services/service_factory.py:20-40 | the loop runs to its end exactly when every remaining file has the first file's category |
| ServiceFactory.ScanFromStopsAt | services/service_factory.py:20-40 | the loop stops at the first file that is unsupported (`others: True`) or of another category (`validate_lists: False`) |
| ServiceFactory.VerdictAccepts | services/service_factory.py:20-47 | a batch is accepted iff no entry is unsupported or of a category other than the first's |
| ServiceFactory.VerdictRejectsAtFirstDefect | services/service_factory.py:20-40 | the earliest defect decides between the unsupported and the mixed rejection |
| ServiceFactory.Verdict | services/service_factory.py:20-47 | the classifier's answer for a non-empty batch given each file's category: unsupported when the first file has none, otherwise the loop resumed at the second file. `VerdictAccepts` and `VerdictRejectsAtFirstDefect` state when it accepts and which defect rejects |
| ServiceFactory.AcceptedForFlagsCategory | services/service_factory.py:42-47 | a supported suffix sets exactly the flag of its own category |
| ServiceFactory.ClassifyAccepts | services/service_factory.py:20-47 | acceptance iff the batch is non-empty and free of defects; then exactly the first file's category flag is set |
| ServiceFactory.ClassifyRejectsAtFirstDefect | services/service_factory.py:20-40 | on filenames, the first defective file decides the rejection kind |
| ServiceFactory.CreateServiceDispatch | services/service_factory.py:60-69 | image service iff all files are images; PDF service iff all are PDFs; `None` iff all source code or all tabular; an exception iff the list is empty or has a defect |
| ServiceFactory.ServiceForVerdict | services/service_factory.py:61-69 | the dispatch on a classifier verdict, in terms of the batch's categories |
| QuarantineFileCheck.GetFileSize | services/quarantine_file_check_service.py:84-85 | the size in hundredths of a MiB is the length in MiB rounded to two decimals (bounded on both sides) |
| QuarantineFileCheck.GenerateUniqueFilename | services/quarantine_file_check_service.py:88-96 | the name starts with the 64-character hex digest of the bytes |
| QuarantineFileCheck.HashSuffix | services/quarantine_file_check_service.py:90-94 | the suffix appended to the digest: the lower-cased `splitext` extension with its dot, replaced by `.parquet` for a tabular extension. `LoweredExtensionShape` and `TabularRenameNeverFires` show the replacement never applies |
| QuarantineFileCheck.LoweredExtensionShape | services/quarantine_file_check_service.py:90 | the lower-cased `splitext` suffix is empty or starts with its only dot |
| QuarantineFileCheck.TabularRenameNeverFires | services/quarantine_file_check_service.py:90-94 | the `.parquet` substitution never applies: the suffix appended is always the plain lower-cased extension |
| QuarantineFileCheck.HashedNameRoundTrip | services/quarantine_file_check_service.py:136 | splitting a hashed name at its first dot gives back exactly the digest |
| QuarantineFileCheck.HashedNameDeterminesDigestAndSuffix | services/quarantine_file_check_service.py:88-96 | equal hashed names come from equal digests and equal lower-cased suffixes |
| QuarantineFileCheck.CheckFileInRedis | services/quarantine_file_check_service.py:101-111 | never fails; returns the stored collection (or `None`) on a hit and `False` on a miss or an error |
| QuarantineFileCheck.MimeKey | services/quarantine_file_check_service.py:116 | the lookup key: the lower-cased `splitext` extension with leading dots stripped. `MimeKeyHasNoDot` proves it holds no dot |
| QuarantineFileCheck.MimeKeyHasNoDot | services/quarantine_file_check_service.py:116-120 | the stripped lookup key holds no dot, so the double-extension branch is unreachable |
| QuarantineFileCheck.VerifyMagicNumber | services/quarantine_file_check_service.py:113-130 | `True` when the key is in the table and its MIME type equals the detected one; otherwise the double-extension, unsupported-type or mismatch error, in that order. `VerifyMagicNumberDecision` states the equivalences |
| QuarantineFileCheck.VerifyMagicNumberDecision | services/quarantine_file_check_service.py:113-130 | `True` iff the expected MIME type exists and equals the detected one; otherwise a wrapped exception, never the double-extension one |
| QuarantineFileCheck.ScanForMalware | services/quarantine_file_check_service.py:133-158 | the VirusTotal rule: malicious votes or a negative reputation raise, then any sandbox verdict other than `harmless` raises; an unknown hash passes, another API error returns `None`, a client failure raises. `ScanForMalwareVerdict` states both directions |
| QuarantineFileCheck.ScanForMalwareVerdict | services/quarantine_file_check_service.py:133-158 | raises iff the client fails, malicious votes > 0, reputation < 0 or a sandbox verdict is not "harmless"; "NotFoundError" passes; any other API error yields `None` |
| QuarantineFileCheck.ScanQueriesDigest | services/quarantine_file_check_service.py:136 | the scan of a hashed name queries `/files/` followed by the content's digest |
| QuarantineFileCheck.MagicNumberStep | services/quarantine_file_check_service.py:272-308 | the magic-number step: `None` without contents, a raise on a missing seen list, and otherwise a pass exactly when every unseen item neither times out nor fails `VerifyMagicNumber`. `ProcessVerifyMagicNumber` is proved to compute it |
| QuarantineFileCheck.MagicNumberStepSkipsSeen | services/quarantine_file_check_service.py:280-283 | when every item is seen, the magic-number step passes whatever libmagic would say |
| QuarantineFileCheck.MalwareStep | services/quarantine_file_check_service.py:310-317 | the malware step: iterating a missing list raises `TypeError`; otherwise the first unseen item whose scan raises gives the step's error. `MalwareStepFromPasses` states when it passes and `ProcessScanForMalware` is proved to compute it |
| QuarantineFileCheck.MalwareStepFromPasses | services/quarantine_file_check_service.py:310-316 | the malware step passes iff the scan of every unseen item passes |
| QuarantineFileCheck.Promoted | services/quarantine_file_check_service.py:164-171 | promotion creates the user's bucket when missing and loses no bucket |
| QuarantineFileCheck.Unseen | services/quarantine_file_check_service.py:280-283 | the submitted indices are in range and no more than the items |
| QuarantineFileCheck.UnseenMembers | services/quarantine_file_check_service.py:280-283 | exactly the items with a falsy seen status are submitted |
| QuarantineFileCheck.UnseenEmpty | services/quarantine_file_check_service.py:280-283 | nothing is submitted iff every item is seen |
| QuarantineFileCheck.SubmitUnseen | services/quarantine_file_check_service.py:280-283 | the submitting loop yields the unseen indices in order |
| QuarantineFileCheck.CheckUnseen | services/quarantine_file_check_service.py:285-299 | the collecting loop succeeds iff every submitted item passes |
| QuarantineFileCheck.GatherWorkers | services/quarantine_file_check_service.py:230-244 | collecting the workers' answers with `None` for a failure: the batch is kept iff no answer failed, and is then every answer in order |
| QuarantineFileCheck.PromotionKeepsQuarantinedObject | services/quarantine_file_check_service.py:164-171 | after the copy the user's bucket holds the quarantined bytes under the hashed name, and the quarantined object is still there |
| QuarantineFileCheck.NormalizeBucket | services/quarantine_file_check_service.py:168 | the quarantine bucket name as the move and the delete address it: `_` replaced by `-` and lower-cased (ASCII letters only) |
| QuarantineFileCheck.QuarantineFileCheckService.constructor | services/quarantine_file_check_service.py:33-50 | the request fields are stored; the bucket name is normalised; every per-batch field starts as `None` |
| QuarantineFileCheck.QuarantineFileCheckService.ProcessDownloadFile | services/quarantine_file_check_service.py:197-216 | succeeds iff every URL yields bytes, and then stores them in URL order; otherwise raises and stores nothing |
| QuarantineFileCheck.QuarantineFileCheckService.ProcessGetFileSize | services/quarantine_file_check_service.py:256-263 | one rounded size per content; raises when there are no contents |
| QuarantineFileCheck.QuarantineFileCheckService.ProcessFileHashing | services/quarantine_file_check_service.py:218-254 | one timed-out item fails the step and stores nothing; otherwise the hashed names are stored; no contents means no work |
| QuarantineFileCheck.QuarantineFileCheckService.ProcessCheckFileInRedis | services/quarantine_file_check_service.py:265-270 | with any hashed name it raises `TypeError` (three arguments to a two-argument method); with none it stores an empty list; before hashing it raises |
| QuarantineFileCheck.QuarantineFileCheckService.ProcessVerifyMagicNumber | services/quarantine_file_check_service.py:272-308 | the step's answer is the magic-number verdict over the unseen items, one failure or timeout failing all |
| QuarantineFileCheck.QuarantineFileCheckService.ProcessScanForMalware | services/quarantine_file_check_service.py:310-317 | the step's answer is the malware verdict over the unseen items |
| QuarantineFileCheck.QuarantineFileCheckService.MoveFileFromQuarantine | services/quarantine_file_check_service.py:161-180 | as written: the copy happens, then the presign raises on the undefined `userid`, so the move always fails |
| QuarantineFileCheck.QuarantineFileCheckService.MoveFileFromQuarantineIntended | services/quarantine_file_check_service.py:161-180 | succeeds iff the quarantined object exists, returning the presigned link to the user's copy |
| QuarantineFileCheck.QuarantineFileCheckService.DeleteFileFromQuarantine | services/quarantine_file_check_service.py:182-190 | removes `{userid}/{filename}` from the quarantine bucket; raises only when that bucket is missing |
| ObjectStore.Store.MakeBucket | services/quarantine_file_check_service.py:164-165 | adds an empty bucket |
| ObjectStore.Store.CopyObject | services/quarantine_file_check_service.py:166-171 | succeeds iff the source object and the target bucket exist; copies those bytes and changes nothing else |
| ObjectStore.Store.RemoveObject | services/quarantine_file_check_service.py:184-187 | succeeds iff the bucket exists; removes that key only |
| ImageQuarantineCheck.ValidateImageDimensions | services/image_quarantine_check_service.py:40-49 | passes iff width and height are each at most 5000 |
| ImageQuarantineCheck.ValidateMegapixelLimit | services/image_quarantine_check_service.py:51-59 | passes iff `w * h <= 25_000_000` |
| ImageQuarantineCheck.ValidateFileDensity | services/image_quarantine_check_service.py:61-73 | zero pixels fail; otherwise passes iff `20 * size >= w * h` |
| ImageQuarantineCheck.DensityBound | services/image_quarantine_check_service.py:67-68 | `size / pixels < 0.05` iff `20 * size < pixels` |
| ImageQuarantineCheck.DimensionsImplyMegapixels | services/image_quarantine_check_service.py:43-54 | an image passing the dimension check passes the megapixel check, because the dimension ceiling is exactly the megapixel limit |
| ImageQuarantineCheck.RunImageCheckPipeline | services/image_quarantine_check_service.py:75-103 | the chain: an undecodable image fails, then the dimension, megapixel and density checks run in that order and the first failure is the error; a pass reports the name, dimensions and rounded size. `RunImageCheckPipelineVerdict` states when it passes |
| ImageQuarantineCheck.RunImageCheckPipelineVerdict | services/image_quarantine_check_service.py:75-103 | passes iff the image decodes and meets all three thresholds, returning the name, dimensions and rounded size; an undecodable or oversized image names its error |
| ImageQuarantineCheck.PassingImageHasPixels | services/image_quarantine_check_service.py:80-95 | a passing image has non-zero width and height |
| ImageQuarantineCheck.Collect | services/image_quarantine_check_service.py:145-165 | a collected batch has one result per item |
| ImageQuarantineCheck.CollectOk | services/image_quarantine_check_service.py:145-165 | collecting succeeds iff every item succeeded, keeping each item's value at its position |
| ImageQuarantineCheck.CollectErrPrefix | services/image_quarantine_check_service.py:145-165 | a failure decides the outcome of the whole batch |
| ImageQuarantineCheck.DimensionsOfAll | services/image_quarantine_check_service.py:181-183 | the truthiness filter keeps every pair of a batch of passing images |
| ImageQuarantineCheck.MaxPair | services/image_quarantine_check_service.py:181-183 | `max` over pairs is a member that no member exceeds lexicographically |
| ImageQuarantineCheck.GetValidationSummary | services/image_quarantine_check_service.py:172-185 | the summary: `{}` for no results, `ValueError` when no pair of dimensions is truthy, otherwise the count, the pixel and size totals and the largest dimensions. `SummaryOfPassingImages` proves what it reports for passing images |
| ImageQuarantineCheck.SummaryOfPassingImages | services/image_quarantine_check_service.py:172-185 | for passing images: the count, the sum of `w * h`, the sum of sizes and the lexicographic maximum `(w, h)` of one of them |
| ImageQuarantineCheck.ImageScan | services/image_quarantine_check_service.py:115-169 | the scan: no contents raise, a missing seen list makes `zip` raise, otherwise each unseen item is checked (a timeout fails it), the first failure is the error and the passing results are summarised. `ImageScanPasses` and `SummaryOfScannedImages` state its outcomes |
| ImageQuarantineCheck.ScanMultipleFiles | services/image_quarantine_check_service.py:115-169 | the scan over the service's fields equals the specification `ImageScan` |
| ImageQuarantineCheck.ImageScanPasses | services/image_quarantine_check_service.py:140-165 | the scan passes iff every unseen item does not time out and passes the chain |
| ImageQuarantineCheck.SummaryOfScannedImages | services/image_quarantine_check_service.py:140-177 | a passing scan gives `{}` iff nothing was unseen, and otherwise counts the unseen items |
| ImageQuarantineCheck.AllSeenGivesEmptySummary | services/image_quarantine_check_service.py:140-175 | with every item seen nothing is checked and the summary is `{}` |
| PdfQuarantineCheck.IsValidSignature | services/pdf_quarantine_check_service.py:42-43 | a file opens with `%PDF-` and holds `%%EOF` somewhere. The three lemmas below state what that admits |
| PdfQuarantineCheck.SignatureMarkerFollowsHeader | services/pdf_quarantine_check_service.py:42-43 | a valid file is at least ten bytes and holds the marker after the header |
| PdfQuarantineCheck.SignatureAllowsTrailingBytes | services/pdf_quarantine_check_service.py:42-43 | bytes appended to a valid file keep it valid (the marker need not end the file) |
| PdfQuarantineCheck.HeaderThenMarkerIsValid | services/pdf_quarantine_check_service.py:42-43 | `%PDF-%%EOF` alone passes the signature test |
| PdfQuarantineCheck.IsPdfEncrypted | services/pdf_quarantine_check_service.py:45-54 | encrypted iff the open reports it or a password is refused; any other failure raises |
| PdfQuarantineCheck.ListEmbeddedFiles | services/pdf_quarantine_check_service.py:74-79 | the attachment names, or a raise when the file cannot be opened |
| PdfQuarantineCheck.GetInfoSize | services/pdf_quarantine_check_service.py:84 | `getinfo(name).file_size`: a non-zero size is the declared size of an entry with that name (the last such entry, as `zipfile` keeps it) |
| PdfQuarantineCheck.GetInfoSizeOfDistinct | services/pdf_quarantine_check_service.py:84 | when the names are distinct, looking an entry up by its name gives its own declared size |
| PdfQuarantineCheck.DetectZipBomb | services/pdf_quarantine_check_service.py:81-92 | as written: a bomb iff the bytes are a zip and the sizes looked up by each listed name sum above 10 MiB; a non-zip is none; other failures raise |
| PdfQuarantineCheck.DetectZipBombIntended | services/pdf_quarantine_check_service.py:81-92 | as intended: a bomb iff the bytes are a zip whose members' declared sizes sum above 10 MiB; a non-zip is none; other failures raise |
| PdfQuarantineCheck.DistinctNamesAgree | services/pdf_quarantine_check_service.py:84 | on an archive with distinct member names the two totals, and so the two verdicts, agree |
| PdfQuarantineCheck.DuplicateNameHidesBomb | services/pdf_quarantine_check_service.py:84 | an archive listing `a` of 20 MiB and then `a` of 0 bytes is no bomb as written and a bomb as intended |
| PdfQuarantineCheck.ZipBombMonotone | services/pdf_quarantine_check_service.py:84-86 | with the intended total, more entries never turn a bomb harmless |
| PdfQuarantineCheck.OneLargeEntryIsBomb | services/pdf_quarantine_check_service.py:84-86 | one entry above 10 MiB makes a bomb as intended, and as written too when the names are distinct |
| PdfQuarantineCheck.ZipBombCheck | services/pdf_quarantine_check_service.py:81-92 | the zip check of each variant: it raises exactly when the archive cannot be read, with the probe failure |
| PdfQuarantineCheck.HasJavascript | services/pdf_quarantine_check_service.py:56-72 | true iff one of `/JavaScript`, `/AA`, `/OpenAction` is listed; a pdfid failure raises |
| PdfQuarantineCheck.FirstInvisibleFinds | services/pdf_quarantine_check_service.py:96-107 | the early-returning walk finds an invisible span iff one exists |
| PdfQuarantineCheck.HasInvisibleTextIff | services/pdf_quarantine_check_service.py:94-107 | a document is flagged iff some span on some page is smaller than 1 or white |
| PdfQuarantineCheck.RunPdfCheckPipeline | services/pdf_quarantine_check_service.py:110-174 | the chain: signature, encryption, embedded files, zip bomb (the total of the given variant), in that order; the first failure gives a flagged result with its reason, a clean file gets `Passed All tests`, and a probe that raises fails the call. `RunPdfCheckPipelineVerdict`, `FlaggedReasons` and `LaterChecksNotConsulted` state its outcomes |
| PdfQuarantineCheck.RunPdfCheckPipelineVerdict | services/pdf_quarantine_check_service.py:110-174 | clean iff signature, encryption, attachments and zip checks all pass; flagged iff the reason is not "Passed All tests"; a raise only from a probe after a valid signature |
| PdfQuarantineCheck.FlaggedReasons | services/pdf_quarantine_check_service.py:115-158 | a flagged reason is one of the four, the embedded one being "Embedded files detected - n" with the attachment count |
| PdfQuarantineCheck.LaterChecksNotConsulted | services/pdf_quarantine_check_service.py:115-167 | facts for checks after the first failing one, and the JavaScript and text facts, never change the outcome |
| PdfQuarantineCheck.ChainVariantsAgree | services/pdf_quarantine_check_service.py:110-174 | the chains as written and as intended raise on the same files, and give the same result unless the archive repeats a member name |
| PdfQuarantineCheck.MaliciousReasonsComplete | services/pdf_quarantine_check_service.py:198-200 | the reasons list holds exactly the flagged results' reasons, and is non-empty iff one is flagged |
| PdfQuarantineCheck.GetValidationSummary | services/pdf_quarantine_check_service.py:193-211 | the summary as written: `{}` for no results, `TypeError` when any result is flagged, `ValueError` when every size rounds to zero, otherwise the count, the total and the largest size. `GetValidationSummaryAgrees` relates it to the intended one |
| PdfQuarantineCheck.GetValidationSummaryIntended | services/pdf_quarantine_check_service.py:193-211 | the summary as evidently intended: the check exception listing every flagged reason, and a largest size of 0 for an all-zero batch. `GetValidationSummaryIntendedSpec` states its outcomes |
| PdfQuarantineCheck.GetValidationSummaryIntendedSpec | services/pdf_quarantine_check_service.py:193-211 | intended summary: raises with all reasons iff a result is flagged; otherwise the count, the size total and the largest size |
| PdfQuarantineCheck.GetValidationSummaryAgrees | services/pdf_quarantine_check_service.py:193-211 | the summary as written agrees with the intended one whenever it succeeds, and differs only on batches whose sizes all round to zero or that are flagged |
| PdfQuarantineCheck.SmallFileRoundsToZero | services/pdf_quarantine_check_service.py:111 | a file of at most 5242 bytes measures 0.00 MB |
| PdfQuarantineCheck.SmallCleanPdfBreaksSummary | services/pdf_quarantine_check_service.py:204-209 | one small clean PDF makes the summary as written raise `ValueError`; the intended one reports one file of 0.00 MB |
| PdfQuarantineCheck.FlaggedSummaryRaisesTypeError | services/pdf_quarantine_check_service.py:200-201 | a flagged batch raises `TypeError` as written, and the check exception with every reason as intended |
| PdfQuarantineCheck.ValidationSummary | services/pdf_quarantine_check_service.py:193-211 | the summary each variant ends with |
| PdfQuarantineCheck.Gathered | services/pdf_quarantine_check_service.py:186-190 | one gathered outcome per (content, filename) pair, from the given variant's chain |
| PdfQuarantineCheck.GatheredSummary | services/pdf_quarantine_check_service.py:188-190 | the summary of gathered outcomes: an exception object in the list raises `AttributeError` when `malicious` is read off it; otherwise the given variant's summary of the results |
| PdfQuarantineCheck.GatheredSummaryVerdict | services/pdf_quarantine_check_service.py:188-190 | an exception object anywhere makes the summary of either variant fail with `AttributeError`; otherwise the intended summary passes iff no gathered result is flagged |
| PdfQuarantineCheck.ScanWith | services/pdf_quarantine_check_service.py:176-191 | the scan of a given variant (its chain and its summary): no contents raise, one file is checked directly (its filename indexed), a larger batch is gathered in `zip` order |
| PdfQuarantineCheck.ScanMultipleFiles | services/pdf_quarantine_check_service.py:176-191 | `ScanWith` as written: the looked-up zip total and the summary as written |
| PdfQuarantineCheck.ScanMultipleFilesIntended | services/pdf_quarantine_check_service.py:176-191 | `ScanWith` as intended: the declared zip total and the intended summary |
| PdfQuarantineCheck.SingleFileScan | services/pdf_quarantine_check_service.py:176-184 | a one-file scan passes iff the file is clean under that variant's chain, and as written also needs it to measure at least 0.01 MB |
| PdfQuarantineCheck.OneResultSummary | services/pdf_quarantine_check_service.py:193-211 | the summary of one result passes iff it is not flagged, and as written also needs a size of at least 0.01 MB |
| PdfQuarantineCheck.MultiFileScan | services/pdf_quarantine_check_service.py:186-190 | a batch of two or more files fails with `AttributeError` when some file's chain raises, in either variant; the intended scan passes iff every file of the `zip` passes its chain unflagged |
| QuarantineFileCheckPipeline.SeenCollections | services/orchestrators/quarantine_file_check_pipeline.py:56 | `seen_files_collections`: each hashed name with a truthy status mapped to its collection, a later duplicate winning. `SeenPartition` states which names are keys |
| QuarantineFileCheckPipeline.UnseenFilenames | services/orchestrators/quarantine_file_check_pipeline.py:57 | `unseen_filenames`: the filenames with a falsy status, in order, never more than the zipped length. `SeenPartition` states it is exactly the filenames at the unseen indices |
| QuarantineFileCheckPipeline.SeenPartition | services/orchestrators/quarantine_file_check_pipeline.py:56-57 | seen items are exactly the keys of `seen_files_collections`; `unseen_filenames` is exactly the unseen items' filenames in order |
| QuarantineFileCheckPipeline.ForcedSeen | services/orchestrators/quarantine_file_check_pipeline.py:54 | `[None] * n` has n falsy statuses |
| QuarantineFileCheckPipeline.ForcedSeenMeansAllUnseen | services/orchestrators/quarantine_file_check_pipeline.py:54-57 | with forced statuses, nothing is seen and every filename is unseen |
| QuarantineFileCheckPipeline.SizeExceeded | services/orchestrators/quarantine_file_check_pipeline.py:48 | the size cap: some file above `MAX_FILE_SIZE` or the total above `MAX_UPLOAD_SIZE`, both in hundredths of a MB |
| QuarantineFileCheckPipeline.OneFileSizeCap | services/orchestrators/quarantine_file_check_pipeline.py:48 | for the one file of a request, the cap fires iff its size exceeds `MAX_FILE_SIZE` |
| QuarantineFileCheckPipeline.StepsOf | services/orchestrators/quarantine_file_check_pipeline.py:38-69 | each stage's answer for a request's URL and filename, computed from the earlier stages' outputs with the seen list forced to `None`: one hashed name per size, and one file once the download went through |
| QuarantineFileCheckPipeline.TypeScanOf | services/orchestrators/quarantine_file_check_pipeline.py:66-69 | the category scan: as written the image summary is awaited and raises `TypeError`. The source scans images twice; the model scans once, which gives the same outcome because the effects are deterministic; the PDF scan uses the summary as written or as intended. `ImageSummaryAwaited` states the image case |
| QuarantineFileCheckPipeline.Compose | services/orchestrators/quarantine_file_check_pipeline.py:38-83 | a request over the stages' answers: it ends where `HaltOf` says, with the stages reached, or goes on to `Promote` |
| QuarantineFileCheckPipeline.Run | services/orchestrators/quarantine_file_check_pipeline.py:16-83 | a whole request as the composition of `StepsOf` and `Compose`. `HaltEarly`, `HaltChecked`, `StagesInOrder`, `CopyBeforeDelete` and `IntendedPromotes` state its outcomes, and `Process` is proved equal to it |
| QuarantineFileCheckPipeline.HaltOf | services/orchestrators/quarantine_file_check_pipeline.py:38-69 | the checks end at one of the first six stages, or promote with a hashed name |
| QuarantineFileCheckPipeline.AfterService | services/orchestrators/quarantine_file_check_pipeline.py:42-69 | once the service exists, a raise happens at the download or later and promotion keeps the service kind |
| QuarantineFileCheckPipeline.AfterSizing | services/orchestrators/quarantine_file_check_pipeline.py:52-69 | past the size cap, a raise happens at hashing or later and the size cap is no longer an outcome |
| QuarantineFileCheckPipeline.Screening | services/orchestrators/quarantine_file_check_pipeline.py:61-69 | the checks raise at the magic-number, malware or type-scan stage, or promote the first hashed name |
| QuarantineFileCheckPipeline.OneUnseenFile | services/orchestrators/quarantine_file_check_pipeline.py:54-57 | a one-file request records nothing as seen and its filename as unseen |
| QuarantineFileCheckPipeline.HaltEarly | services/orchestrators/quarantine_file_check_pipeline.py:47-61 | the size cap ends a request iff it has a service, downloaded and exceeds a cap, and then reports success, the exceeded flag and no links; "nothing unseen" never happens |
| QuarantineFileCheckPipeline.HaltChecked | services/orchestrators/quarantine_file_check_pipeline.py:52-69 | promotion is reached iff every earlier stage passed, with the one file unseen and the check fields set |
| QuarantineFileCheckPipeline.Promote | services/orchestrators/quarantine_file_check_pipeline.py:71-83 | promotion: as written `copy_object` is missing and raises `AttributeError` before the store changes; as intended the file moves to the user's bucket, leaves quarantine and is linked under its hashed name. `PromoteFacts` states both |
| QuarantineFileCheckPipeline.PromoteFacts | services/orchestrators/quarantine_file_check_pipeline.py:71-83 | as written promotion raises before touching the store; as intended it succeeds iff the quarantined object exists, copying it to the user's bucket, deleting it and linking the copy |
| QuarantineFileCheckPipeline.StagesInOrder | services/orchestrators/quarantine_file_check_pipeline.py:43-83 | the stages run are a prefix of the fixed order; success only after the size stage or after all eight |
| QuarantineFileCheckPipeline.AsWrittenSucceedsOnlyOnSizeCap | services/orchestrators/quarantine_file_check_pipeline.py:47-83 | as written a request succeeds iff the size cap fires, never deletes and never changes the store |
| QuarantineFileCheckPipeline.IntendedPromotes | services/orchestrators/quarantine_file_check_pipeline.py:71-83 | as intended, a success past the size cap runs all stages, links the hashed name to the user's copy (unseen, original filename) and removes the quarantine object |
| QuarantineFileCheckPipeline.CopyBeforeDelete | services/orchestrators/quarantine_file_check_pipeline.py:71-72 | the delete runs only after a copy of an existing object; a request stopped at the copy keeps every quarantined object |
| QuarantineFileCheckPipeline.StepsHashDownload | services/orchestrators/quarantine_file_check_pipeline.py:43-52 | the hashed name is that of the downloaded bytes and the request's filename |
| QuarantineFileCheckPipeline.ImageSummaryAwaited | services/orchestrators/quarantine_file_check_pipeline.py:66-68 | as written the image scan always fails, with `TypeError` when the scan itself passed; as intended its summary is the report |
| QuarantineFileCheckPipeline.RunChecks | services/orchestrators/quarantine_file_check_pipeline.py:42-69 | the staged calls on a fresh service end as `AfterService` says |
| QuarantineFileCheckPipeline.HashAndScreen | services/orchestrators/quarantine_file_check_pipeline.py:52-69 | hashing, forcing the seen list and the checks end as `AfterSizing` says |
| QuarantineFileCheckPipeline.Screen | services/orchestrators/quarantine_file_check_pipeline.py:61-69 | the magic-number, malware and type-scan calls end as `Screening` says |
| QuarantineFileCheckPipeline.Process | services/orchestrators/quarantine_file_check_pipeline.py:16-83 | the answer, the stages run and the store afterwards are those of the specification `Run` |
| QuarantineFileCheckPipeline.Conclude | services/orchestrators/quarantine_file_check_pipeline.py:47-83 | the end of a request, after its checks halted, is `Conclusion` |
| QuarantineFileCheckPipeline.PromoteFile | services/orchestrators/quarantine_file_check_pipeline.py:71-83 | the promotion calls on the service and the store are `Promote` |

## Left out

- QuarantineFileCheckPipeline.TypeScanOf: the image scan runs once where the source runs it twice (once bare, once awaited). The effects are deterministic inputs, so the second scan would give the same outcome; a scan whose outcome differs between calls is not modelled.
- Concurrency: `asyncio.gather`, the thread pools, `as_completed` and the pool shutdowns are modelled as sequential iteration in submission order. A timeout is an input predicate per item. The order in which `as_completed` yields is not modelled.
- The tenacity retry around `download_file` (at most two attempts) is library behaviour. The fetch input gives the final outcome of each download.
- The aiohttp session, HTTP status codes and the client timeout are not modelled. A download either yields bytes or fails.
- ImageQuarantineCheck.GetValidationSummary: the total size is an exact sum of whole hundredths of a MB. Python adds the rounded sizes as binary floats, so a total can differ in its last bits (`0.1 + 0.2` gives `0.30000000000000004`); the same holds for `ImageQuarantineCheck.SummaryOfPassingImages` and the PDF summaries.
- ImageQuarantineCheck.SummaryOfPassingImages: its total is the exact sum of hundredths, not the float sum Python computes.
- PdfQuarantineCheck.GetValidationSummary: the total size is the exact sum of hundredths; Python's float sum can differ in its last bits.
- PdfQuarantineCheck.GetValidationSummaryIntended: the total size is the exact sum of hundredths; Python's float sum can differ in its last bits.
- PdfQuarantineCheck.GetValidationSummaryIntendedSpec: states the total as the exact sum of hundredths, not the float sum Python computes.
- QuarantineFileCheck.GetFileSize: sizes are whole hundredths of a MiB, rounded half up. Python rounds the float quotient, which can differ on an exact half.
- ImageQuarantineCheck.ValidateMegapixelLimit: the comparison is exact over rationals, without IEEE rounding at the boundary. The same holds for `ValidateFileDensity`.
- Environment settings (MinIO and Redis endpoints, keys, the VirusTotal key) are not modelled. The quarantine bucket name is a parameter of a request, with the configured default as a constant.
- The dedup lookup over Redis is represented only by `CheckFileInRedis` and `ProcessCheckFileInRedis`, because the request never calls it. The JSON decoding in the Redis wrapper is not part of this model.
- Presigned URLs are a function of bucket and key. Their expiry and signature are not modelled.
- ObjectStore.Store.CopyObject: fails only when the source object or the target bucket is missing. MinIO's bucket-name validation (a `userid` that is not a valid bucket name) and client transport or permission errors are not modelled, so the copy succeeds whenever both exist. The same holds for `MakeBucket` and `RemoveObject`.
- QuarantineFileCheck.QuarantineFileCheckService.MoveFileFromQuarantine: the copy always happens when the quarantined object exists, because the store cannot raise on an invalid bucket name or a client error; only then does the presign raise.
- QuarantineFileCheck.QuarantineFileCheckService.MoveFileFromQuarantineIntended: succeeds iff the quarantined object exists only because bucket-name validation and client errors are not modelled; with them the move could also fail.
- QuarantineFileCheck.QuarantineFileCheckService.DeleteFileFromQuarantine: fails only when the quarantine bucket is missing; client errors are not modelled.
- QuarantineFileCheckPipeline.PromoteFacts: promotion succeeds iff the variant is `Intended` and the quarantined object exists, because the store has no fault input; an invalid `userid` bucket name or a client error would make it fail. The same holds for `Promote`, `IntendedPromotes` and `PromoteFile`.
- The check at lines 44-45 of the pipeline is not modelled as a separate raise: a successful download always stores at least one content.
- Logging and print output are not modelled.
- The FastAPI routers, the store wrappers and the abstract model classes are not part of this model.
- SHA-256, libmagic, VirusTotal, pikepdf, pdfid, PyMuPDF, zipfile and PIL are inputs. The PDF checks take the facts these report (encryption, attachment names, the names and declared sizes of zip entries, keywords, text spans) rather than parsing bytes.
- In `ProcessFileHashing` an item whose hashing raises is treated like one that times out: both give `None` and fail the step.
- Text.Lower: case folding covers ASCII A-Z only. Python's `str.lower()` follows Unicode, so it folds letters such as U+212A KELVIN SIGN to `k` and `É` to `é`, which the model leaves unchanged. Every member below that lowers a suffix or a name inherits this.
- ServiceFactory.FileType: the suffix is lowered in ASCII only, so `a.\u212Ats` has the suffix `\u212Ats` here and `kts` in Python.
- ServiceFactory.Classify: a suffix that only Unicode folding maps onto a listed extension (U+212A followed by `ts`) is Unsupported here, while Python classifies it as source code.
- ServiceFactory.ExtractAttachments: the loop agrees with `Classify` and shares its ASCII-only folding of suffixes.
- ServiceFactory.CreateServiceDispatch: the equivalences run through the ASCII-only `FileType`, so a batch Python sends to no service because of a Unicode-folded suffix raises the unsupported-type error here.
- QuarantineFileCheck.HashSuffix: the `splitext` suffix is lowered in ASCII only, so `x.É` keeps `.É` where Python gives `.é`.
- QuarantineFileCheck.GenerateUniqueFilename: the name is the digest plus the ASCII-lowered suffix, and differs from Python's on non-ASCII letters in the suffix.
- QuarantineFileCheck.MimeKey: the lookup key is lowered in ASCII only, so a suffix Python folds onto a table key (U+212A followed by `ts`) is not found here.
- QuarantineFileCheck.VerifyMagicNumberDecision: through `MimeKey`, a suffix that only Unicode folding maps onto a table key is "unsupported" here, while Python checks it against that key's MIME types.
- QuarantineFileCheck.NormalizeBucket: the bucket name is lowered in ASCII only.

## Findings

| source | as written | input that shows it | evidently intended | confidence | as-written member | corrected member |
|---|---|---|---|---|---|---|
| services/orchestrators/quarantine_file_check_pipeline.py:66-68 | the image scan returns a dict and is then awaited, which raises `TypeError` | an image request that passes the download, size, hash, magic-number and malware stages and all three thresholds | await only the PDF scan and merge the image summary | not executed | QuarantineFileCheckPipeline.ImageSummaryAwaited | QuarantineFileCheckPipeline.IntendedPromotes |
| services/orchestrators/quarantine_file_check_pipeline.py:71-72 | `copy_object` and `delete_object` do not exist on the service, so promotion raises `AttributeError` | a clean PDF of at least 5243 bytes that passes every earlier stage | promote through `move_file_from_quarantine` and `delete_file_from_quarantine` | not executed | QuarantineFileCheckPipeline.AsWrittenSucceedsOnlyOnSizeCap | QuarantineFileCheckPipeline.IntendedPromotes |
| services/quarantine_file_check_service.py:173-176 | the presign names an undefined `userid`, so the move raises after the copy | any quarantined object | presign the copy in `self.userid`'s bucket | not executed | QuarantineFileCheck.QuarantineFileCheckService.MoveFileFromQuarantine | QuarantineFileCheck.QuarantineFileCheckService.MoveFileFromQuarantineIntended |
| services/pdf_quarantine_check_service.py:204-209 | `max` over the non-zero sizes raises `ValueError` when every size rounds to 0.00 MB | one clean PDF of 5242 bytes or fewer | report a largest size of 0 | not executed | PdfQuarantineCheck.SmallCleanPdfBreaksSummary | PdfQuarantineCheck.GetValidationSummaryIntendedSpec |
| services/pdf_quarantine_check_service.py:84 | the total looks every listed name up with `getinfo`, which returns the last entry of that name, so a repeated name counts the last entry's size once per listing | a zip listing `a` of 20 MiB and then `a` of 0 bytes | sum the declared size of every member | not executed | PdfQuarantineCheck.DuplicateNameHidesBomb | PdfQuarantineCheck.OneLargeEntryIsBomb |
| services/pdf_quarantine_check_service.py:201 | `raise ... from is_malicious` chains a list, which raises `TypeError` and loses the reasons | any PDF flagged "Encrypted" | raise the check exception listing every reason | not executed | PdfQuarantineCheck.FlaggedSummaryRaisesTypeError | PdfQuarantineCheck.GetValidationSummaryIntendedSpec |

=== FILE: errors.dfy ===
/** The exceptions the quarantine code raises, as values. The three custom
    exception classes each get their constructors; the built-in Python errors
    that the code as written runs into are named after the Python class. */
module Errors {

  /** Why a magic-number (declared versus detected MIME type) check failed. */
  datatype MagicFailure =
    | DoubleExtension(filename: string)
    | UnsupportedFileType(detected: string, extension: string)
    | MimeMismatch(expected: string, detected: string)

  /** Why a VirusTotal scan failed. */
  datatype MalwareFinding =
    | FlaggedMalicious
    | SandboxNotHarmless
    | ClientFailure

  /** Why one image failed the pixel-flooding checks. */
  datatype ImageViolation =
    | DimensionsExceeded(width: nat, height: nat)
    | MegapixelsExceeded(pixels: nat)
    | ZeroPixels
    | DensityTooLow(fileSize: nat, pixels: nat)
    | Undecodable
    | CheckTimedOut

  datatype Error =
    // QuarantineFileCheckException
    | ExtractAttachmentsFailed
    | InvalidOrMixedFileType
    | DownloadFailed
    | NoFileContents
    | HashingFailed
    | MagicNumberFailed(cause: MagicFailure)
    | MagicNumberCheckFailed
    | MalwareScanFailed(finding: MalwareFinding)
    | CopyToUserBucketFailed
    | DeleteFromQuarantineFailed
    // PDFFileCHeckException
    | PdfCheckFailed(reasons: seq<string>)
    | PdfProbeFailed(probe: string)
    | NoPdfContents
    // ImageFileCheckException
    | ImageCheckFailed(violation: ImageViolation)
    | NoImageContents
    // built-in Python exceptions reached by the code as written
    | PythonTypeError(what: string)
    | PythonAttributeError(what: string)
    | PythonValueError(what: string)
    | PythonIndexError(what: string)
}

=== FILE: image_quarantine_check_service.dfy ===
/** The image pixel-flooding guard: three threshold checks on the decoded
    width and height and on the encoded size, the chain that applies them to
    one image, the batch scan over the unseen items of a quarantine service,
    and the summary of the batch.

    What PIL reports when it opens an image is the `decode` parameter: the
    pair (width, height), or nothing when the bytes do not open as an
    image. Whether an item's worker runs out of time is the `timesOut`
    parameter. */
module ImageQuarantineCheck {
  import opened Wrappers
  import opened Errors
  import opened Octets
  import opened Sums
  import Settings
  import QuarantineFileCheck

  // ---------------------------------------------------------------------
  // The three checks
  // ---------------------------------------------------------------------

  /** `_validate_image_dimensions`: either side above its maximum fails;
      a side equal to its maximum passes. */
  function ValidateImageDimensions(width: nat, height: nat): (r: Option<ImageViolation>)
    ensures r.None? <==> width <= 5000 && height <= 5000
    ensures r.Some? ==> r.value == DimensionsExceeded(width, height)
  {
    if width > Settings.ImageMaxWidth || height > Settings.ImageMaxHeight
    then Some(DimensionsExceeded(width, height))
    else None
  }

  /** `_validate_megapixel_limit`: the pixel count in millions, compared
      with the limit as a rational number. */
  function ValidateMegapixelLimit(width: nat, height: nat): (r: Option<ImageViolation>)
    ensures r.None? <==> width * height <= 25_000_000
    ensures r.Some? ==> r.value == MegapixelsExceeded(width * height)
  {
    var megapixels := (width * height) as real / 1_000_000.0;
    if megapixels > Settings.MaxMegapixels as real then Some(MegapixelsExceeded(width * height)) else None
  }

  /** `_validate_file_density`: an image without pixels fails; otherwise the
      encoded bytes per pixel must reach the minimum. */
  function ValidateFileDensity(width: nat, height: nat, fileSize: nat): (r: Option<ImageViolation>)
    ensures r.None? <==> width * height > 0 && 20 * fileSize >= width * height
    ensures width * height == 0 ==> r == Some(ZeroPixels)
    ensures width * height > 0 && r.Some? ==> r.value == DensityTooLow(fileSize, width * height)
  {
    var pixelCount := width * height;
    if pixelCount == 0 then Some(ZeroPixels)
    else
      var bpp := fileSize as real / pixelCount as real;
      DensityBound(fileSize, pixelCount);
      if bpp < Settings.BytesPerPixel then Some(DensityTooLow(fileSize, pixelCount)) else None
  }

  /** With 0.05 bytes per pixel, a density below the minimum means fewer
      than one byte per twenty pixels. */
  lemma DensityBound(fileSize: nat, pixels: nat)
    requires pixels > 0
    ensures fileSize as real / pixels as real < 0.05 <==> 20 * fileSize < pixels
  {
    var p := pixels as real;
    var f := fileSize as real;
    var q := f / p;
    assert q * p == f;
    if q < 0.05 {
      ScalingKeepsOrder(q, 0.05, p);
    } else if 20 * fileSize < pixels {
      assert f < 0.05 * p;
      if q > 0.05 {
        ScalingKeepsOrder(0.05, q, p);
      }
    }
  }

  lemma ScalingKeepsOrder(a: real, b: real, c: real)
    requires c > 0.0 && a < b
    ensures a * c < b * c
  {
  }

  /** With the configured limits (5000 by 5000, 25 megapixels) every image
      that passes the dimension check passes the megapixel check. */
  lemma DimensionsImplyMegapixels(width: nat, height: nat)
    requires ValidateImageDimensions(width, height).None?
    ensures ValidateMegapixelLimit(width, height).None?
  {
    Settings.DimensionCeilingMatchesMegapixels();
    assert width * height <= Settings.ImageMaxWidth * height;
    assert Settings.ImageMaxWidth * height <= Settings.ImageMaxWidth * Settings.ImageMaxHeight;
  }

  // ---------------------------------------------------------------------
  // One image
  // ---------------------------------------------------------------------

  /** What a passing image reports: its name, its dimensions and its size
      in hundredths of a MB. */
  datatype ImageCheckResult = ImageCheckResult(filename: string, width: nat, height: nat, fileSize: nat)

  /** `run_image_check_pipeline`: open the image, then the dimension,
      megapixel and density checks in that order; the first failure is the
      error. */
  function RunImageCheckPipeline(decode: Bytes -> Option<(nat, nat)>, content: Bytes, filename: string)
    : Result<ImageCheckResult, Error>
  {
    match decode(content)
    case None => Err(ImageCheckFailed(Undecodable))
    case Some((width, height)) =>
      var dimensions := ValidateImageDimensions(width, height);
      var megapixels := ValidateMegapixelLimit(width, height);
      var density := ValidateFileDensity(width, height, |content|);
      if dimensions.Some? then Err(ImageCheckFailed(dimensions.value))
      else if megapixels.Some? then Err(ImageCheckFailed(megapixels.value))
      else if density.Some? then Err(ImageCheckFailed(density.value))
      else Ok(ImageCheckResult(filename, width, height, QuarantineFileCheck.GetFileSize(content)))
  }

  /** An image passes exactly when it opens, fits 5000 by 5000, has pixels
      and carries at least one byte per twenty pixels; it then reports its
      own dimensions and rounded size. Otherwise the earliest failing check
      names the error. */
  lemma RunImageCheckPipelineVerdict(decode: Bytes -> Option<(nat, nat)>, content: Bytes, filename: string)
    ensures var r := RunImageCheckPipeline(decode, content, filename);
      && (r.Ok? <==> decode(content).Some? &&
                      var (w, h) := decode(content).value;
                      w <= 5000 && h <= 5000 && 0 < w * h <= 20 * |content|)
      && (r.Ok? ==> r.value == ImageCheckResult(filename, decode(content).value.0, decode(content).value.1,
                                                QuarantineFileCheck.GetFileSize(content)))
      && (decode(content).None? ==> r == Err(ImageCheckFailed(Undecodable)))
      && (decode(content).Some? && (decode(content).value.0 > 5000 || decode(content).value.1 > 5000) ==>
            r == Err(ImageCheckFailed(DimensionsExceeded(decode(content).value.0, decode(content).value.1))))
  {
    if decode(content).Some? {
      var (w, h) := decode(content).value;
      if w <= 5000 && h <= 5000 {
        DimensionsImplyMegapixels(w, h);
      }
    }
  }

  /** A passing image has a non-zero width and height. */
  lemma PassingImageHasPixels(decode: Bytes -> Option<(nat, nat)>, content: Bytes, filename: string)
    requires RunImageCheckPipeline(decode, content, filename).Ok?
    ensures var res := RunImageCheckPipeline(decode, content, filename).value;
      res.width > 0 && res.height > 0
  {
  }

  // ---------------------------------------------------------------------
  // Collecting the workers' results
  // ---------------------------------------------------------------------

  /** The results in order, or the error of the first item that failed. */
  function Collect<T>(outcomes: seq<Result<T, Error>>): (r: Result<seq<T>, Error>)
    ensures r.Ok? ==> |r.value| == |outcomes|
  {
    if outcomes == [] then Ok([])
    else
      var init :- Collect(outcomes[..|outcomes| - 1]);
      var last := outcomes[|outcomes| - 1];
      if last.Err? then Err(last.error) else Ok(init + [last.value])
  }

  /** Collecting succeeds exactly when every item succeeded, and then holds
      each item's value at its position. */
  lemma {:induction false} CollectOk<T>(outcomes: seq<Result<T, Error>>)
    ensures Collect(outcomes).Ok? <==> forall i :: 0 <= i < |outcomes| ==> outcomes[i].Ok?
    ensures Collect(outcomes).Ok? ==>
      forall i :: 0 <= i < |outcomes| ==> Collect(outcomes).value[i] == outcomes[i].value
  {
    if outcomes != [] {
      var init := outcomes[..|outcomes| - 1];
      CollectOk(init);
      assert forall i :: 0 <= i < |init| ==> init[i] == outcomes[i];
    }
  }

  /** A failure decides the outcome of every longer batch. */
  lemma {:induction false} CollectErrPrefix<T>(outcomes: seq<Result<T, Error>>, k: nat)
    requires k <= |outcomes|
    requires Collect(outcomes[..k]).Err?
    ensures Collect(outcomes) == Collect(outcomes[..k])
    decreases |outcomes| - k
  {
    if k < |outcomes| {
      var init := outcomes[..|outcomes| - 1];
      assert init[..k] == outcomes[..k];
      CollectErrPrefix(init, k);
    } else {
      assert outcomes[..k] == outcomes;
    }
  }

  // ---------------------------------------------------------------------
  // Summary
  // ---------------------------------------------------------------------

  /** The summary dict: `{}`, or the totals with `is_image` set. */
  datatype ImageSummary =
    | EmptyImageSummary
    | ImageTotals(totalFiles: nat, totalPixels: nat, totalMb: nat, maxDimensions: (nat, nat))

  /** `(w, h)` for every result whose width and height are both truthy. */
  function DimensionsOf(results: seq<ImageCheckResult>): (dims: seq<(nat, nat)>)
    ensures |dims| <= |results|
  {
    if results == [] then []
    else
      var r := results[|results| - 1];
      DimensionsOf(results[..|results| - 1]) + (if r.width != 0 && r.height != 0 then [(r.width, r.height)] else [])
  }

  /** Results with pixels lose nothing to the truthiness filter. */
  lemma {:induction false} DimensionsOfAll(results: seq<ImageCheckResult>)
    requires forall i :: 0 <= i < |results| ==> results[i].width > 0 && results[i].height > 0
    ensures |DimensionsOf(results)| == |results|
    ensures forall i :: 0 <= i < |results| ==> DimensionsOf(results)[i] == (results[i].width, results[i].height)
  {
    if results != [] {
      var init := results[..|results| - 1];
      DimensionsOfAll(init);
    }
  }

  function PixelsOf(dims: seq<(nat, nat)>): (pixels: seq<nat>)
    ensures |pixels| == |dims|
  {
    seq(|dims|, i requires 0 <= i < |dims| => dims[i].0 * dims[i].1)
  }

  /** `w * h` for every result. */
  function PixelCounts(results: seq<ImageCheckResult>): (pixels: seq<nat>)
    ensures |pixels| == |results|
  {
    seq(|results|, i requires 0 <= i < |results| => results[i].width * results[i].height)
  }

  function FileSizesOf(results: seq<ImageCheckResult>): (sizes: seq<nat>)
    ensures |sizes| == |results|
    ensures forall i :: 0 <= i < |results| ==> sizes[i] == results[i].fileSize
  {
    seq(|results|, i requires 0 <= i < |results| => results[i].fileSize)
  }

  /** Python's ordering of pairs: by the first component, then the second. */
  predicate PairLe(a: (nat, nat), b: (nat, nat)) {
    a.0 < b.0 || (a.0 == b.0 && a.1 <= b.1)
  }

  /** `max` over pairs: a member of the list that no member exceeds. */
  function MaxPair(dims: seq<(nat, nat)>): (m: (nat, nat))
    requires |dims| > 0
    ensures m in dims
    ensures forall i :: 0 <= i < |dims| ==> PairLe(dims[i], m)
  {
    if |dims| == 1 then dims[0]
    else
      var m := MaxPair(dims[..|dims| - 1]);
      assert forall i :: 0 <= i < |dims| - 1 ==> dims[i] == dims[..|dims| - 1][i];
      if PairLe(m, dims[|dims| - 1]) then dims[|dims| - 1] else m
  }

  /** `get_validation_summary` as written: `{}` for no results; `max` over
      no truthy dimensions raises `ValueError`. */
  function GetValidationSummary(results: seq<ImageCheckResult>): Result<ImageSummary, Error> {
    if results == [] then Ok(EmptyImageSummary)
    else
      var dims := DimensionsOf(results);
      if dims == [] then Err(PythonValueError("max() arg is an empty sequence"))
      else Ok(ImageTotals(|results|, Sum(PixelsOf(dims)), Sum(NonZero(FileSizesOf(results))), MaxPair(dims)))
  }

  /** For results of images that passed, the summary always exists: it
      counts them, adds up their pixels and sizes, and reports the largest
      dimensions, which belong to one of them. */
  lemma SummaryOfPassingImages(results: seq<ImageCheckResult>)
    requires |results| > 0
    requires forall i :: 0 <= i < |results| ==> results[i].width > 0 && results[i].height > 0
    ensures GetValidationSummary(results).Ok?
    ensures var s := GetValidationSummary(results).value;
      && s.ImageTotals?
      && s.totalFiles == |results|
      && s.totalPixels == Sum(PixelCounts(results))
      && s.totalMb == Sum(FileSizesOf(results))
      && (exists i :: 0 <= i < |results| && s.maxDimensions == (results[i].width, results[i].height))
      && forall i :: 0 <= i < |results| ==> PairLe((results[i].width, results[i].height), s.maxDimensions)
  {
    DimensionsOfAll(results);
    var dims := DimensionsOf(results);
    NonZeroSum(FileSizesOf(results));
    assert PixelsOf(dims) == PixelCounts(results);
    var m := MaxPair(dims);
    var k :| 0 <= k < |dims| && dims[k] == m;
    assert m == (results[k].width, results[k].height);
  }

  // ---------------------------------------------------------------------
  // The batch
  // ---------------------------------------------------------------------

  /** One submitted item: a timeout fails it, otherwise the image chain
      decides. */
  function CheckItem(decode: Bytes -> Option<(nat, nat)>, timesOut: nat -> bool,
                     contents: seq<Bytes>, filenames: seq<string>, i: nat): Result<ImageCheckResult, Error>
    requires i < |contents| && i < |filenames|
  {
    if timesOut(i) then Err(ImageCheckFailed(CheckTimedOut))
    else RunImageCheckPipeline(decode, contents[i], filenames[i])
  }

  /** The outcomes of the submitted (unseen) items, in order. */
  function Outcomes(decode: Bytes -> Option<(nat, nat)>, timesOut: nat -> bool,
                    contents: seq<Bytes>, filenames: seq<string>, seen: seq<QuarantineFileCheck.SeenStatus>)
    : (outcomes: seq<Result<ImageCheckResult, Error>>)
  {
    var n := QuarantineFileCheck.Min(QuarantineFileCheck.Min(|contents|, |filenames|), |seen|);
    var submitted := QuarantineFileCheck.Unseen(n, seen);
    seq(|submitted|, k requires 0 <= k < |submitted| => CheckItem(decode, timesOut, contents, filenames, submitted[k]))
  }

  /** Specification of `scan_multiple_files`: no contents raises; a missing
      seen list makes `zip` raise; otherwise every unseen item is checked,
      the first failure is the error, and the passing results are
      summarised. */
  function ImageScan(decode: Bytes -> Option<(nat, nat)>, timesOut: nat -> bool, contents: Option<seq<Bytes>>,
                     filenames: seq<string>, seen: Option<seq<QuarantineFileCheck.SeenStatus>>)
    : Result<ImageSummary, Error>
  {
    if !QuarantineFileCheck.NonEmpty(contents) then Err(NoImageContents)
    else if seen.None? then Err(PythonTypeError("'NoneType' object is not iterable"))
    else
      var results :- Collect(Outcomes(decode, timesOut, contents.value, filenames, seen.value));
      GetValidationSummary(results)
  }

  /** `scan_multiple_files` on the service's downloaded contents, its
      filenames and its seen list: submit the unseen items, collect their
      results, summarise. */
  method ScanMultipleFiles(service: QuarantineFileCheck.QuarantineFileCheckService,
                           decode: Bytes -> Option<(nat, nat)>, timesOut: nat -> bool)
    returns (r: Result<ImageSummary, Error>)
    ensures r == ImageScan(decode, timesOut, service.fileContents, service.filenames, service.seenStatus)
  {
    if !(service.fileContents.Some? && |service.fileContents.value| > 0) {
      return Err(NoImageContents);
    }
    if service.seenStatus.None? {
      return Err(PythonTypeError("'NoneType' object is not iterable"));
    }
    var contents, filenames, seen := service.fileContents.value, service.filenames, service.seenStatus.value;
    var n := QuarantineFileCheck.Min(QuarantineFileCheck.Min(|contents|, |filenames|), |seen|);
    var submitted := QuarantineFileCheck.SubmitUnseen(n, seen);
    ghost var outcomes := Outcomes(decode, timesOut, contents, filenames, seen);
    var results: seq<ImageCheckResult> := [];
    var k := 0;
    while k < |submitted|
      invariant 0 <= k <= |submitted|
      invariant Collect(outcomes[..k]) == Ok(results)
    {
      var outcome := CheckItem(decode, timesOut, contents, filenames, submitted[k]);
      assert outcomes[..k + 1] == outcomes[..k] + [outcome];
      if outcome.Err? {
        CollectErrPrefix(outcomes, k + 1);
        return Err(outcome.error);
      }
      results := results + [outcome.value];
      k := k + 1;
    }
    assert outcomes[..k] == outcomes;
    return GetValidationSummary(results);
  }

  /** The scan passes exactly when every unseen item opens, passes all three
      checks and does not time out. */
  lemma ImageScanPasses(decode: Bytes -> Option<(nat, nat)>, timesOut: nat -> bool, contents: seq<Bytes>,
                        filenames: seq<string>, seen: seq<QuarantineFileCheck.SeenStatus>)
    requires |contents| > 0
    ensures var n := QuarantineFileCheck.Min(QuarantineFileCheck.Min(|contents|, |filenames|), |seen|);
      ImageScan(decode, timesOut, Some(contents), filenames, Some(seen)).Ok? <==>
      forall i :: 0 <= i < n && !seen[i].Truthy() ==>
        !timesOut(i) && RunImageCheckPipeline(decode, contents[i], filenames[i]).Ok?
  {
    var n := QuarantineFileCheck.Min(QuarantineFileCheck.Min(|contents|, |filenames|), |seen|);
    var submitted := QuarantineFileCheck.Unseen(n, seen);
    var outcomes := Outcomes(decode, timesOut, contents, filenames, seen);
    QuarantineFileCheck.UnseenMembers(n, seen);
    CollectOk(outcomes);
    if Collect(outcomes).Ok? {
      SummaryOfScannedImages(decode, timesOut, contents, filenames, seen);
      forall i | 0 <= i < n && !seen[i].Truthy()
        ensures !timesOut(i) && RunImageCheckPipeline(decode, contents[i], filenames[i]).Ok?
      {
        var k :| 0 <= k < |submitted| && submitted[k] == i;
        assert outcomes[k].Ok?;
      }
    } else {
      var k :| 0 <= k < |outcomes| && outcomes[k].Err?;
      var i := submitted[k];
      assert i < n && !seen[i].Truthy();
    }
  }

  /** When the unseen items all pass, the summary is `{}` exactly when there
      were none, and otherwise counts one entry per unseen item; the empty
      `max` is never reached. */
  lemma SummaryOfScannedImages(decode: Bytes -> Option<(nat, nat)>, timesOut: nat -> bool, contents: seq<Bytes>,
                               filenames: seq<string>, seen: seq<QuarantineFileCheck.SeenStatus>)
    requires |contents| > 0
    requires Collect(Outcomes(decode, timesOut, contents, filenames, seen)).Ok?
    ensures var n := QuarantineFileCheck.Min(QuarantineFileCheck.Min(|contents|, |filenames|), |seen|);
      var r := ImageScan(decode, timesOut, Some(contents), filenames, Some(seen));
      && r.Ok?
      && (r.value == EmptyImageSummary <==> QuarantineFileCheck.Unseen(n, seen) == [])
      && (r.value.ImageTotals? ==> r.value.totalFiles == |QuarantineFileCheck.Unseen(n, seen)|)
  {
    var n := QuarantineFileCheck.Min(QuarantineFileCheck.Min(|contents|, |filenames|), |seen|);
    var submitted := QuarantineFileCheck.Unseen(n, seen);
    var outcomes := Outcomes(decode, timesOut, contents, filenames, seen);
    CollectOk(outcomes);
    var results := Collect(outcomes).value;
    forall i | 0 <= i < |results|
      ensures results[i].width > 0 && results[i].height > 0
    {
      assert outcomes[i].Ok?;
      PassingImageHasPixels(decode, contents[submitted[i]], filenames[submitted[i]]);
    }
    if results != [] {
      SummaryOfPassingImages(results);
    }
  }

  /** When every item has been seen before, no image is checked and the
      summary is `{}`, whatever the images hold. */
  lemma AllSeenGivesEmptySummary(decode: Bytes -> Option<(nat, nat)>, timesOut: nat -> bool, contents: seq<Bytes>,
                                 filenames: seq<string>, seen: seq<QuarantineFileCheck.SeenStatus>)
    requires |contents| > 0
    requires forall i :: 0 <= i < |seen| ==> seen[i].Truthy()
    ensures ImageScan(decode, timesOut, Some(contents), filenames, Some(seen)) == Ok(EmptyImageSummary)
  {
    var n := QuarantineFileCheck.Min(QuarantineFileCheck.Min(|contents|, |filenames|), |seen|);
    QuarantineFileCheck.UnseenEmpty(n, seen);
    assert Outcomes(decode, timesOut, contents, filenames, seen) == [];
  }
}

=== FILE: object_store.dfy ===
/** The MinIO object store as the quarantine code uses it: named buckets,
    each a map from object key to contents. An operation fails only when
    the bucket or object it needs is missing: the client's bucket-name
    validation, transport and permission errors, credentials and
    presigned-URL signing are not part of this model. */
module ObjectStore {
  import opened Octets

  /** A presigned download link, identified by the object it points at. */
  datatype Url = PresignedGet(bucket: string, key: string)

  class Store {
    var buckets: map<string, map<string, Bytes>>

    constructor(initial: map<string, map<string, Bytes>>)
      ensures buckets == initial
    {
      buckets := initial;
    }

    predicate BucketExists(bucket: string)
      reads this
    {
      bucket in buckets
    }

    /** Whether `key` names an object of `bucket`. */
    predicate HasObject(bucket: string, key: string)
      reads this
    {
      bucket in buckets && key in buckets[bucket]
    }

    /** `make_bucket`: an empty bucket under a new name. */
    method MakeBucket(bucket: string)
      requires bucket !in buckets
      modifies this
      ensures buckets == old(buckets)[bucket := map[]]
    {
      buckets := buckets[bucket := map[]];
    }

    /** `copy_object`: fails when the source object or the destination
        bucket does not exist; otherwise the destination key receives the
        source contents and nothing else changes. */
    method CopyObject(dstBucket: string, dstKey: string, srcBucket: string, srcKey: string)
      returns (ok: bool)
      modifies this
      ensures ok <==> old(HasObject(srcBucket, srcKey)) && old(BucketExists(dstBucket))
      ensures ok ==>
        buckets == old(buckets[dstBucket := buckets[dstBucket][dstKey := buckets[srcBucket][srcKey]]])
      ensures !ok ==> buckets == old(buckets)
    {
      if srcBucket in buckets && srcKey in buckets[srcBucket] && dstBucket in buckets {
        var content := buckets[srcBucket][srcKey];
        buckets := buckets[dstBucket := buckets[dstBucket][dstKey := content]];
        ok := true;
      } else {
        ok := false;
      }
    }

    /** `remove_object`: fails only when the bucket does not exist; removing
        an absent key succeeds and changes nothing. */
    method RemoveObject(bucket: string, key: string) returns (ok: bool)
      modifies this
      ensures ok <==> old(BucketExists(bucket))
      ensures ok ==> buckets == old(buckets[bucket := buckets[bucket] - {key}])
      ensures !ok ==> buckets == old(buckets)
    {
      if bucket in buckets {
        buckets := buckets[bucket := buckets[bucket] - {key}];
        ok := true;
      } else {
        ok := false;
      }
    }
  }
}

=== FILE: octets.dfy ===
/** Raw file contents. */
module Octets {
  newtype byte = x: int | 0 <= x < 256

  type Bytes = seq<byte>
}

=== FILE: pdf_quarantine_check_service.dfy ===
/** The PDF structural guard: byte-level and structural predicates, the
    short-circuiting chain over them, the batch scan and its summary.

    What pikepdf, pdfid, PyMuPDF and zipfile report about a file is given
    as `PdfFacts`: how opening it for encryption went, its attachment names
    (or a failure), how it reads as a zip archive, its pdfid keywords (or a
    failure) and its text spans. */
module PdfQuarantineCheck {
  import opened Wrappers
  import opened Errors
  import opened Text
  import opened Octets
  import opened Sums
  import opened Variants
  import QuarantineFileCheck

  // ---------------------------------------------------------------------
  // Signature
  // ---------------------------------------------------------------------

  /** "%PDF-" */
  const PdfHeader: Bytes := [37, 80, 68, 70, 45]
  /** "%%EOF" */
  const EofMarker: Bytes := [37, 37, 69, 79, 70]

  /** `is_valid_signature`: the header opens the file and the end-of-file
      marker occurs somewhere in it, not necessarily at the end. */
  predicate IsValidSignature(content: Bytes) {
    StartsWith(content, PdfHeader) && Contains(content, EofMarker)
  }

  /** The marker can only occur after the header, so a valid file has at
      least ten bytes. */
  lemma SignatureMarkerFollowsHeader(content: Bytes)
    requires IsValidSignature(content)
    ensures |content| >= |PdfHeader| + |EofMarker|
    ensures exists i :: |PdfHeader| <= i <= |content| - |EofMarker| && OccursAt(content, EofMarker, i)
  {
    var i :| 0 <= i <= |content| - |EofMarker| && OccursAt(content, EofMarker, i);
    assert content[..5] == PdfHeader;
    assert content[i..i + 5] == EofMarker;
    assert content[i] == content[i..i + 5][0] && content[i + 1] == content[i..i + 5][1];
    assert i >= 5 by {
      assert content[0] == 37 && content[1] == 80 && content[2] == 68 && content[3] == 70 && content[4] == 45;
    }
  }

  /** Anything may follow the marker: appending bytes to a valid file keeps
      it valid. */
  lemma SignatureAllowsTrailingBytes(content: Bytes, tail: Bytes)
    requires IsValidSignature(content)
    ensures IsValidSignature(content + tail)
  {
    var i :| 0 <= i <= |content| - |EofMarker| && OccursAt(content, EofMarker, i);
    assert (content + tail)[..|PdfHeader|] == content[..|PdfHeader|];
    assert (content + tail)[i..i + |EofMarker|] == content[i..i + |EofMarker|];
    assert OccursAt(content + tail, EofMarker, i);
  }

  /** The header directly followed by the marker is already valid. */
  lemma HeaderThenMarkerIsValid()
    ensures IsValidSignature(PdfHeader + EofMarker)
  {
    var c := PdfHeader + EofMarker;
    assert c[5..10] == EofMarker;
    assert OccursAt(c, EofMarker, 5);
  }

  // ---------------------------------------------------------------------
  // Encryption, attachments, zip bomb
  // ---------------------------------------------------------------------

  /** How pikepdf opening the file went: opened (with its encrypted flag),
      refused for lack of a password, or failed otherwise. */
  datatype Encryption = Opened(isEncrypted: bool) | PasswordError | OpenFailed

  /** `is_pdf_encrypted`: a password refusal counts as encrypted; any other
      failure raises. */
  function IsPdfEncrypted(e: Encryption): (r: Result<bool, Error>)
    ensures r.Err? <==> e.OpenFailed?
    ensures r == Ok(true) <==> e == Opened(true) || e.PasswordError?
  {
    match e
    case Opened(isEncrypted) => Ok(isEncrypted)
    case PasswordError => Ok(true)
    case OpenFailed => Err(PdfProbeFailed("Failed to check if PDF is encrypted"))
  }

  /** `list_embedded_files`: the attachment names, or a raise when the file
      cannot be opened. */
  function ListEmbeddedFiles(attachments: Option<seq<string>>): (r: Result<seq<string>, Error>)
    ensures r.Ok? <==> attachments.Some?
    ensures r.Ok? ==> r.value == attachments.value
  {
    if attachments.Some? then Ok(attachments.value)
    else Err(PdfProbeFailed("Failed to list embedded files"))
  }

  /** One member of an archive as zipfile lists it: its name and the
      uncompressed size its directory entry declares. */
  datatype ZipInfo = ZipInfo(name: string, fileSize: nat)

  /** How zipfile reads the bytes: not a zip archive, an archive with its
      members in directory order, or another failure. */
  datatype ZipProbe = NotAZip | ZipEntries(members: seq<ZipInfo>) | ZipFailed

  const ZipBombThreshold: nat := 10 * 1024 * 1024

  /** `getinfo(name).file_size`: zipfile indexes members by name, and a
      later member under a repeated name replaces the earlier one. */
  function GetInfoSize(members: seq<ZipInfo>, name: string): (size: nat)
    ensures size > 0 ==> exists i :: 0 <= i < |members| && members[i].name == name && members[i].fileSize == size
  {
    if members == [] then 0
    else if members[|members| - 1].name == name then members[|members| - 1].fileSize
    else GetInfoSize(members[..|members| - 1], name)
  }

  /** `[content.getinfo(f).file_size for f in content.namelist()]`: one size
      per listed name, each looked up by name. */
  function LookedUpSizes(members: seq<ZipInfo>): (sizes: seq<nat>)
    ensures |sizes| == |members|
  {
    seq(|members|, i requires 0 <= i < |members| => GetInfoSize(members, members[i].name))
  }

  /** The size each member declares, in directory order. */
  function DeclaredSizes(members: seq<ZipInfo>): (sizes: seq<nat>)
    ensures |sizes| == |members|
  {
    seq(|members|, i requires 0 <= i < |members| => members[i].fileSize)
  }

  /** `detect_zip_bomb` as written: the sizes looked up by name for every
      listed name add up to more than 10 MiB; a non-zip is no bomb; other
      failures raise. */
  function DetectZipBomb(zip: ZipProbe): (r: Result<bool, Error>)
    ensures r.Err? <==> zip.ZipFailed?
    ensures r == Ok(true) <==> zip.ZipEntries? && Sum(LookedUpSizes(zip.members)) > ZipBombThreshold
  {
    match zip
    case NotAZip => Ok(false)
    case ZipEntries(members) => Ok(Sum(LookedUpSizes(members)) > ZipBombThreshold)
    case ZipFailed => Err(PdfProbeFailed("Failed to detect zip bomb"))
  }

  /** `detect_zip_bomb` as evidently intended: the sizes every member
      declares add up to more than 10 MiB. */
  function DetectZipBombIntended(zip: ZipProbe): (r: Result<bool, Error>)
    ensures r.Err? <==> zip.ZipFailed?
    ensures r == Ok(true) <==> zip.ZipEntries? && Sum(DeclaredSizes(zip.members)) > ZipBombThreshold
  {
    match zip
    case NotAZip => Ok(false)
    case ZipEntries(members) => Ok(Sum(DeclaredSizes(members)) > ZipBombThreshold)
    case ZipFailed => Err(PdfProbeFailed("Failed to detect zip bomb"))
  }

  /** A 20 MiB member followed by an empty member under the same name: the
      lookup finds the empty one twice, so the code as written sees no
      bomb, while the declared sizes exceed the threshold. */
  lemma DuplicateNameHidesBomb()
    ensures var members := [ZipInfo("a", 20 * 1024 * 1024), ZipInfo("a", 0)];
      DetectZipBomb(ZipEntries(members)) == Ok(false) && DetectZipBombIntended(ZipEntries(members)) == Ok(true)
  {
    var members := [ZipInfo("a", 20 * 1024 * 1024), ZipInfo("a", 0)];
    assert LookedUpSizes(members) == [0, 0];
    assert DeclaredSizes(members) == [20 * 1024 * 1024, 0];
    assert Sum([0, 0]) == 0 && Sum([20 * 1024 * 1024, 0]) == 20 * 1024 * 1024 by {
      assert [0, 0][..1] == [0] && [20 * 1024 * 1024, 0][..1] == [20 * 1024 * 1024];
      assert [0][..0] == [] && [20 * 1024 * 1024][..0] == [];
    }
  }

  predicate DistinctNames(members: seq<ZipInfo>) {
    forall i, j :: 0 <= i < j < |members| ==> members[i].name != members[j].name
  }

  /** With distinct names, the lookup finds each member's own size. */
  lemma {:induction false} GetInfoSizeOfDistinct(members: seq<ZipInfo>, i: nat)
    requires DistinctNames(members) && i < |members|
    ensures GetInfoSize(members, members[i].name) == members[i].fileSize
  {
    if i < |members| - 1 {
      var init := members[..|members| - 1];
      assert members[|members| - 1].name != members[i].name;
      assert DistinctNames(init) by {
        forall k, l | 0 <= k < l < |init|
          ensures init[k].name != init[l].name
        {
          assert init[k] == members[k] && init[l] == members[l];
        }
      }
      GetInfoSizeOfDistinct(init, i);
      assert init[i] == members[i];
    }
  }

  /** On an archive whose names are distinct, the check as written and the
      intended one agree. */
  lemma DistinctNamesAgree(members: seq<ZipInfo>)
    requires DistinctNames(members)
    ensures DetectZipBomb(ZipEntries(members)) == DetectZipBombIntended(ZipEntries(members))
  {
    forall i | 0 <= i < |members|
      ensures LookedUpSizes(members)[i] == DeclaredSizes(members)[i]
    {
      GetInfoSizeOfDistinct(members, i);
    }
    assert LookedUpSizes(members) == DeclaredSizes(members);
  }

  /** As intended, more members never turn a bomb into a harmless
      archive. */
  lemma ZipBombMonotone(members: seq<ZipInfo>, more: seq<ZipInfo>)
    requires DetectZipBombIntended(ZipEntries(members)) == Ok(true)
    ensures DetectZipBombIntended(ZipEntries(members + more)) == Ok(true)
  {
    assert DeclaredSizes(members + more) == DeclaredSizes(members) + DeclaredSizes(more);
    SumAppend(DeclaredSizes(members), DeclaredSizes(more));
  }

  /** As intended, a single member declaring more than 10 MiB is a bomb on
      its own; as written this holds when the names are distinct. */
  lemma OneLargeEntryIsBomb(members: seq<ZipInfo>, i: nat)
    requires i < |members| && members[i].fileSize > ZipBombThreshold
    ensures DetectZipBombIntended(ZipEntries(members)) == Ok(true)
    ensures DistinctNames(members) ==> DetectZipBomb(ZipEntries(members)) == Ok(true)
  {
    SumBoundsElements(DeclaredSizes(members));
    assert DeclaredSizes(members)[i] == members[i].fileSize;
    if DistinctNames(members) {
      DistinctNamesAgree(members);
    }
  }

  // ---------------------------------------------------------------------
  // JavaScript and invisible text (defined, not part of the chain)
  // ---------------------------------------------------------------------

  const JavascriptKeywords: seq<string> := ["/JavaScript", "/AA", "/OpenAction"]

  /** `has_javascript`: pdfid lists one of the three action keywords; a
      pdfid failure raises. */
  function HasJavascript(keywords: Option<seq<string>>): (r: Result<bool, Error>)
    ensures r.Err? <==> keywords.None?
    ensures r.Ok? ==> (r.value <==> exists w :: w in JavascriptKeywords && w in keywords.value)
  {
    if keywords.None? then Err(PdfProbeFailed("Failed to check for JavaScript"))
    else
      var k := keywords.value;
      Ok("/JavaScript" in k || "/AA" in k || "/OpenAction" in k)
  }

  /** A text span as PyMuPDF reports it; either field may be missing, and
      the code reads a missing one as 0. */
  datatype Span = Span(size: Option<real>, color: Option<int>)
  /** A line holds spans, a block lines (none when the block has no
      "lines"), a page blocks. */
  type Line = seq<Span>
  type Block = seq<Line>
  type Page = seq<Block>

  /** Text smaller than one point or pure white. */
  predicate InvisibleSpan(s: Span) {
    (if s.size.Some? then s.size.value else 0.0) < 1.0
    || (if s.color.Some? then s.color.value else 0) == 0xFFFFFF
  }

  function Flatten<T>(xss: seq<seq<T>>): seq<T> {
    if xss == [] then [] else xss[0] + Flatten(xss[1..])
  }

  lemma {:induction false} FlattenMember<T>(xss: seq<seq<T>>, x: T)
    ensures x in Flatten(xss) <==> exists i :: 0 <= i < |xss| && x in xss[i]
  {
    if xss != [] {
      FlattenMember(xss[1..], x);
      assert Flatten(xss) == xss[0] + Flatten(xss[1..]);
      if x in Flatten(xss[1..]) {
        var i :| 0 <= i < |xss[1..]| && x in xss[1..][i];
        assert x in xss[i + 1];
      }
      if exists i :: 0 <= i < |xss| && x in xss[i] {
        var i :| 0 <= i < |xss| && x in xss[i];
        if i > 0 {
          assert x in xss[1..][i - 1];
        }
      }
    }
  }

  /** Every span of the document in reading order. */
  function DocumentSpans(document: seq<Page>): seq<Span> {
    Flatten(seq(|document|, p requires 0 <= p < |document| => Flatten(Flatten(document[p]))))
  }

  /** The walk over spans that returns at the first invisible one. */
  function FirstInvisible(spans: seq<Span>): bool {
    if spans == [] then false
    else if InvisibleSpan(spans[0]) then true
    else FirstInvisible(spans[1..])
  }

  /** `has_invisible_text` */
  predicate HasInvisibleText(document: seq<Page>) {
    FirstInvisible(DocumentSpans(document))
  }

  lemma {:induction false} FirstInvisibleFinds(spans: seq<Span>)
    ensures FirstInvisible(spans) <==> exists s :: s in spans && InvisibleSpan(s)
  {
    if spans != [] {
      FirstInvisibleFinds(spans[1..]);
      assert forall s :: s in spans <==> s == spans[0] || s in spans[1..];
    }
  }

  /** The document is flagged exactly when some span on some page is
      invisible. */
  lemma HasInvisibleTextIff(document: seq<Page>)
    ensures HasInvisibleText(document) <==>
      exists p, b, l, k :: 0 <= p < |document| && 0 <= b < |document[p]| && 0 <= l < |document[p][b]|
        && 0 <= k < |document[p][b][l]| && InvisibleSpan(document[p][b][l][k])
  {
    var pages := seq(|document|, p requires 0 <= p < |document| => Flatten(Flatten(document[p])));
    assert DocumentSpans(document) == Flatten(pages);
    FirstInvisibleFinds(DocumentSpans(document));
    if HasInvisibleText(document) {
      var s :| s in DocumentSpans(document) && InvisibleSpan(s);
      FlattenMember(pages, s);
      var p :| 0 <= p < |pages| && s in pages[p];
      var lines := Flatten(document[p]);
      FlattenMember(lines, s);
      var j :| 0 <= j < |lines| && s in lines[j];
      var line := lines[j];
      assert line in lines;
      FlattenMember(document[p], line);
      var b :| 0 <= b < |document[p]| && line in document[p][b];
      var l :| 0 <= l < |document[p][b]| && document[p][b][l] == line;
      var k :| 0 <= k < |line| && line[k] == s;
      assert InvisibleSpan(document[p][b][l][k]);
    }
    if exists p, b, l, k :: 0 <= p < |document| && 0 <= b < |document[p]| && 0 <= l < |document[p][b]|
        && 0 <= k < |document[p][b][l]| && InvisibleSpan(document[p][b][l][k]) {
      var p, b, l, k :| 0 <= p < |document| && 0 <= b < |document[p]| && 0 <= l < |document[p][b]|
        && 0 <= k < |document[p][b][l]| && InvisibleSpan(document[p][b][l][k]);
      var line := document[p][b][l];
      var s := line[k];
      assert line in document[p][b];
      FlattenMember(document[p], line);
      var lines := Flatten(document[p]);
      var j :| 0 <= j < |lines| && lines[j] == line;
      FlattenMember(lines, s);
      assert s in pages[p];
      FlattenMember(pages, s);
    }
  }

  // ---------------------------------------------------------------------
  // The chain
  // ---------------------------------------------------------------------

  /** What the libraries report about one file. */
  datatype PdfFacts = PdfFacts(
    encryption: Encryption,
    attachments: Option<seq<string>>,
    zip: ZipProbe,
    keywords: Option<seq<string>>,
    document: seq<Page>)

  /** `PDFCheckResult`, with the size in hundredths of a MB. */
  datatype PdfCheckResult = PdfCheckResult(filename: string, fileSize: nat, malicious: bool, reason: string)

  const PassedReason: string := "Passed All tests"
  const EmbeddedPrefix: string := "Embedded files detected - "

  /** The zip-bomb check each variant runs. */
  function ZipBombCheck(v: Variant, zip: ZipProbe): (r: Result<bool, Error>)
    ensures r.Err? <==> zip.ZipFailed?
    ensures r.Err? ==> r.error.PdfProbeFailed?
  {
    if v == AsWritten then DetectZipBomb(zip) else DetectZipBombIntended(zip)
  }

  /** `run_pdf_check_pipeline`: signature, encryption, embedded files and
      zip bomb, in that order; the first check that fails decides the
      reason. The JavaScript and invisible-text checks are commented out
      in the chain. The variant selects the zip-bomb total. */
  function RunPdfCheckPipeline(v: Variant, facts: PdfFacts, content: Bytes, filename: string): Result<PdfCheckResult, Error> {
    var size := QuarantineFileCheck.GetFileSize(content);
    if !IsValidSignature(content) then Ok(PdfCheckResult(filename, size, true, "Invalid signature"))
    else
      var encrypted :- IsPdfEncrypted(facts.encryption);
      if encrypted then Ok(PdfCheckResult(filename, size, true, "Encrypted"))
      else
        var embedded :- ListEmbeddedFiles(facts.attachments);
        if |embedded| > 0 then Ok(PdfCheckResult(filename, size, true, EmbeddedPrefix + NatToString(|embedded|)))
        else
          var bomb :- ZipBombCheck(v, facts.zip);
          if bomb then Ok(PdfCheckResult(filename, size, true, "Zip bomb detected"))
          else Ok(PdfCheckResult(filename, size, false, PassedReason))
  }

  /** A file passes exactly when all four checks pass; the result always
      names the file and its size, and only a probe that fails after a
      valid signature raises. */
  lemma RunPdfCheckPipelineVerdict(v: Variant, facts: PdfFacts, content: Bytes, filename: string)
    ensures var r := RunPdfCheckPipeline(v, facts, content, filename);
      r.Ok? ==> r.value.filename == filename && r.value.fileSize == QuarantineFileCheck.GetFileSize(content)
    ensures var r := RunPdfCheckPipeline(v, facts, content, filename);
      (r.Ok? && !r.value.malicious) <==>
        (IsValidSignature(content) && IsPdfEncrypted(facts.encryption) == Ok(false)
         && ListEmbeddedFiles(facts.attachments) == Ok([]) && ZipBombCheck(v, facts.zip) == Ok(false))
    ensures var r := RunPdfCheckPipeline(v, facts, content, filename);
      r.Ok? ==> (r.value.malicious <==> r.value.reason != PassedReason)
    ensures var r := RunPdfCheckPipeline(v, facts, content, filename);
      r.Err? ==> IsValidSignature(content) && r.error.PdfProbeFailed?
  {
    var r := RunPdfCheckPipeline(v, facts, content, filename);
    if r.Ok? && r.value.malicious && IsValidSignature(content) && facts.encryption == Opened(false)
       && facts.attachments.Some? && |facts.attachments.value| > 0 {
      assert r.value.reason == EmbeddedPrefix + NatToString(|facts.attachments.value|);
      assert r.value.reason[0] == 'E';
    }
  }

  /** The reason of a flagged file is one of the four, the embedded-files
      one carrying the attachment count in decimal. */
  lemma FlaggedReasons(v: Variant, facts: PdfFacts, content: Bytes, filename: string)
    ensures var r := RunPdfCheckPipeline(v, facts, content, filename);
      r.Ok? && r.value.malicious ==>
        r.value.reason in ["Invalid signature", "Encrypted", "Zip bomb detected"]
        || (EmbeddedPrefix < r.value.reason
            && forall i :: |EmbeddedPrefix| <= i < |r.value.reason| ==> '0' <= r.value.reason[i] <= '9')
    ensures var r := RunPdfCheckPipeline(v, facts, content, filename);
      (IsValidSignature(content) && IsPdfEncrypted(facts.encryption) == Ok(false)
       && facts.attachments.Some? && |facts.attachments.value| > 0) ==>
        r.Ok? && r.value.reason == EmbeddedPrefix + NatToString(|facts.attachments.value|)
  {
    if facts.attachments.Some? {
      var n := |facts.attachments.value|;
      NatToStringDigits(n);
      var reason := EmbeddedPrefix + NatToString(n);
      assert forall i :: |EmbeddedPrefix| <= i < |reason| ==> reason[i] == NatToString(n)[i - |EmbeddedPrefix|];
    }
  }

  /** Checks after the first failing one are not consulted, and the
      JavaScript keywords and text spans never are. */
  lemma LaterChecksNotConsulted(v: Variant, f1: PdfFacts, f2: PdfFacts, content: Bytes, filename: string)
    ensures !IsValidSignature(content) ==>
      RunPdfCheckPipeline(v, f1, content, filename) == RunPdfCheckPipeline(v, f2, content, filename)
    ensures f1.encryption == f2.encryption && IsPdfEncrypted(f1.encryption) != Ok(false) ==>
      RunPdfCheckPipeline(v, f1, content, filename) == RunPdfCheckPipeline(v, f2, content, filename)
    ensures (f1.encryption == f2.encryption && f1.attachments == f2.attachments
             && ListEmbeddedFiles(f1.attachments) != Ok([])) ==>
      RunPdfCheckPipeline(v, f1, content, filename) == RunPdfCheckPipeline(v, f2, content, filename)
    ensures f1.encryption == f2.encryption && f1.attachments == f2.attachments && f1.zip == f2.zip ==>
      RunPdfCheckPipeline(v, f1, content, filename) == RunPdfCheckPipeline(v, f2, content, filename)
  {
  }

  /** The two chains raise on the same files, and they agree on every file
      that is not an archive with a repeated member name. */
  lemma ChainVariantsAgree(facts: PdfFacts, content: Bytes, filename: string)
    ensures RunPdfCheckPipeline(AsWritten, facts, content, filename).Err?
        <==> RunPdfCheckPipeline(Intended, facts, content, filename).Err?
    ensures (facts.zip.ZipEntries? ==> DistinctNames(facts.zip.members)) ==>
      RunPdfCheckPipeline(AsWritten, facts, content, filename) == RunPdfCheckPipeline(Intended, facts, content, filename)
  {
    if facts.zip.ZipEntries? && DistinctNames(facts.zip.members) {
      DistinctNamesAgree(facts.zip.members);
    }
  }

  // ---------------------------------------------------------------------
  // Summary and batch scan
  // ---------------------------------------------------------------------

  /** The summary dict: `{}`, or the totals (with "is_pdf" always true). */
  datatype PdfSummary = EmptySummary | PdfTotals(totalFiles: nat, totalMb: nat, maxFileSize: nat)

  /** `[r.reason for r in results if r.malicious]` */
  function MaliciousReasons(results: seq<PdfCheckResult>): (reasons: seq<string>)
    ensures |reasons| <= |results|
  {
    if results == [] then []
    else
      var rest := MaliciousReasons(results[..|results| - 1]);
      var last := results[|results| - 1];
      if last.malicious then rest + [last.reason] else rest
  }

  /** The reasons listed are those of the flagged results, and there is one
      exactly when some result is flagged. */
  lemma {:induction false} MaliciousReasonsComplete(results: seq<PdfCheckResult>)
    ensures MaliciousReasons(results) != [] <==> exists i :: 0 <= i < |results| && results[i].malicious
    ensures forall i :: 0 <= i < |results| && results[i].malicious ==> results[i].reason in MaliciousReasons(results)
    ensures forall x :: x in MaliciousReasons(results) ==>
      exists i :: 0 <= i < |results| && results[i].malicious && results[i].reason == x
  {
    if results != [] {
      var init := results[..|results| - 1];
      MaliciousReasonsComplete(init);
      assert forall i :: 0 <= i < |init| ==> init[i] == results[i];
    }
  }

  function SizesOf(results: seq<PdfCheckResult>): (sizes: seq<nat>)
    ensures |sizes| == |results|
  {
    seq(|results|, i requires 0 <= i < |results| => results[i].fileSize)
  }

  /** `get_validation_summary` as written: the flagged case raises with a
      list as the cause, which Python refuses with `TypeError`; and `max`
      of the non-zero sizes raises `ValueError` when every size rounds to
      0.00 MB. */
  function GetValidationSummary(results: seq<PdfCheckResult>): Result<PdfSummary, Error> {
    if |results| == 0 then Ok(EmptySummary)
    else if MaliciousReasons(results) != [] then Err(PythonTypeError("exception causes must derive from BaseException"))
    else
      var sizes := NonZero(SizesOf(results));
      if sizes == [] then Err(PythonValueError("max() arg is an empty sequence"))
      else Ok(PdfTotals(|results|, Sum(sizes), Max(sizes)))
  }

  /** `get_validation_summary` as evidently intended: the flagged case
      raises the check exception listing every reason, and the largest size
      of an all-zero batch is 0. */
  function GetValidationSummaryIntended(results: seq<PdfCheckResult>): Result<PdfSummary, Error> {
    if |results| == 0 then Ok(EmptySummary)
    else
      var reasons := MaliciousReasons(results);
      if reasons != [] then Err(PdfCheckFailed(reasons))
      else
        var sizes := NonZero(SizesOf(results));
        Ok(PdfTotals(|results|, Sum(sizes), if sizes == [] then 0 else Max(sizes)))
  }

  /** The intended summary fails exactly on a flagged file, listing all the
      flagged reasons; otherwise it counts every file, totals every size
      and reports the largest one. */
  lemma GetValidationSummaryIntendedSpec(results: seq<PdfCheckResult>)
    requires |results| > 0
    ensures var r := GetValidationSummaryIntended(results);
      r.Err? <==> exists i :: 0 <= i < |results| && results[i].malicious
    ensures var r := GetValidationSummaryIntended(results);
      r.Err? ==> r.error == PdfCheckFailed(MaliciousReasons(results))
    ensures var r := GetValidationSummaryIntended(results);
      r.Ok? ==>
        && r.value.PdfTotals?
        && r.value.totalFiles == |results|
        && r.value.totalMb == Sum(SizesOf(results))
        && (forall i :: 0 <= i < |results| ==> results[i].fileSize <= r.value.maxFileSize)
        && (r.value.maxFileSize == 0 || exists i :: 0 <= i < |results| && results[i].fileSize == r.value.maxFileSize)
  {
    MaliciousReasonsComplete(results);
    var all := SizesOf(results);
    var sizes := NonZero(all);
    NonZeroSum(all);
    NonZeroKeeps(all);
    if sizes != [] {
      var m := Max(sizes);
      forall i | 0 <= i < |results|
        ensures results[i].fileSize <= m
      {
        if all[i] != 0 {
          assert all[i] in sizes;
        }
      }
      assert m in all;
    } else {
      forall i | 0 <= i < |results|
        ensures results[i].fileSize == 0
      {
        assert all[i] in all;
      }
    }
  }

  /** Where the as-written summary succeeds it agrees with the intended
      one; it fails where the intended one does, and also on a clean batch
      whose sizes all round to zero. */
  lemma GetValidationSummaryAgrees(results: seq<PdfCheckResult>)
    ensures GetValidationSummary(results).Ok? ==> GetValidationSummary(results) == GetValidationSummaryIntended(results)
    ensures GetValidationSummaryIntended(results).Err? ==> GetValidationSummary(results).Err?
    ensures GetValidationSummary(results).Err? && GetValidationSummaryIntended(results).Ok? ==>
      forall i :: 0 <= i < |results| ==> results[i].fileSize == 0
  {
    var all := SizesOf(results);
    NonZeroKeeps(all);
    forall i | 0 <= i < |results| && NonZero(all) == []
      ensures results[i].fileSize == 0
    {
      assert all[i] in all;
    }
  }

  /** A file under 5243 bytes measures 0.00 MB. */
  lemma SmallFileRoundsToZero(content: Bytes)
    requires |content| <= 5242
    ensures QuarantineFileCheck.GetFileSize(content) == 0
  {
  }

  /** A single clean PDF of at most 5242 bytes: the summary as written
      raises `ValueError`, the intended one reports one file of 0.00 MB. */
  lemma SmallCleanPdfBreaksSummary(filename: string, content: Bytes)
    requires |content| <= 5242
    ensures var results := [PdfCheckResult(filename, QuarantineFileCheck.GetFileSize(content), false, PassedReason)];
      GetValidationSummary(results) == Err(PythonValueError("max() arg is an empty sequence"))
      && GetValidationSummaryIntended(results) == Ok(PdfTotals(1, 0, 0))
  {
    var results := [PdfCheckResult(filename, QuarantineFileCheck.GetFileSize(content), false, PassedReason)];
    assert SizesOf(results) == [0];
    assert NonZero([0]) == [];
  }

  /** A flagged file: the summary as written raises `TypeError` instead of
      the check exception with the reasons. */
  lemma FlaggedSummaryRaisesTypeError(results: seq<PdfCheckResult>, i: nat)
    requires i < |results| && results[i].malicious
    ensures GetValidationSummary(results) == Err(PythonTypeError("exception causes must derive from BaseException"))
    ensures GetValidationSummaryIntended(results) == Err(PdfCheckFailed(MaliciousReasons(results)))
    ensures results[i].reason in MaliciousReasons(results)
  {
    MaliciousReasonsComplete(results);
  }

  /** The summary each variant ends with. */
  function ValidationSummary(v: Variant, results: seq<PdfCheckResult>): Result<PdfSummary, Error> {
    if v == AsWritten then GetValidationSummary(results) else GetValidationSummaryIntended(results)
  }

  /** The gathered outcomes of a multi-file scan, in `zip` order; a raise
      stays in the list as the exception object. */
  function Gathered(v: Variant, facts: Bytes -> PdfFacts, contents: seq<Bytes>, filenames: seq<string>)
    : (results: seq<Result<PdfCheckResult, Error>>)
    ensures |results| == QuarantineFileCheck.Min(|contents|, |filenames|)
  {
    seq(QuarantineFileCheck.Min(|contents|, |filenames|), i requires 0 <= i < QuarantineFileCheck.Min(|contents|, |filenames|) =>
      RunPdfCheckPipeline(v, facts(contents[i]), contents[i], filenames[i]))
  }

  /** The summary of gathered outcomes: reading `malicious` off an
      exception object raises `AttributeError`. */
  function GatheredSummary(v: Variant, results: seq<Result<PdfCheckResult, Error>>): Result<PdfSummary, Error> {
    if |results| == 0 then Ok(EmptySummary)
    else if exists i :: 0 <= i < |results| && results[i].Err? then
      Err(PythonAttributeError("exception object has no attribute 'malicious'"))
    else ValidationSummary(v, seq(|results|, i requires 0 <= i < |results| => results[i].value))
  }

  /** `scan_multiple_files` in the given variant. It raises without
      contents, checks a single file directly, and gathers a larger batch;
      the seen statuses are not consulted. */
  function ScanWith(v: Variant, facts: Bytes -> PdfFacts, contents: Option<seq<Bytes>>, filenames: seq<string>)
    : Result<PdfSummary, Error>
  {
    if !QuarantineFileCheck.NonEmpty(contents) then Err(NoPdfContents)
    else if |contents.value| == 1 then
      if |filenames| == 0 then Err(PythonIndexError("list index out of range"))
      else
        var result :- RunPdfCheckPipeline(v, facts(contents.value[0]), contents.value[0], filenames[0]);
        ValidationSummary(v, [result])
    else GatheredSummary(v, Gathered(v, facts, contents.value, filenames))
  }

  /** `scan_multiple_files` as written. */
  function ScanMultipleFiles(facts: Bytes -> PdfFacts, contents: Option<seq<Bytes>>, filenames: seq<string>)
    : Result<PdfSummary, Error>
  {
    ScanWith(AsWritten, facts, contents, filenames)
  }

  /** `scan_multiple_files` as evidently intended: the corrected zip-bomb
      total and the intended summary. */
  function ScanMultipleFilesIntended(facts: Bytes -> PdfFacts, contents: Option<seq<Bytes>>, filenames: seq<string>)
    : Result<PdfSummary, Error>
  {
    ScanWith(Intended, facts, contents, filenames)
  }

  /** The summary of one result: the intended one passes exactly when the
      result is not flagged; the one as written also needs a size of at
      least 0.01 MB. */
  lemma OneResultSummary(r: PdfCheckResult)
    ensures GetValidationSummaryIntended([r]).Ok? <==> !r.malicious
    ensures GetValidationSummary([r]).Ok? <==> !r.malicious && r.fileSize > 0
  {
    MaliciousReasonsComplete([r]);
    assert SizesOf([r]) == [r.fileSize];
    if r.fileSize == 0 {
      assert NonZero([0]) == [];
    } else {
      assert NonZero([r.fileSize]) == [r.fileSize];
    }
  }

  /** A one-file batch (the only kind a request makes) passes the intended
      scan exactly when the file passes the intended chain; as written it
      needs the file to pass the chain as written and to measure at least
      0.01 MB. */
  lemma SingleFileScan(facts: Bytes -> PdfFacts, content: Bytes, filename: string, rest: seq<string>)
    ensures var r := RunPdfCheckPipeline(Intended, facts(content), content, filename);
      ScanMultipleFilesIntended(facts, Some([content]), [filename] + rest).Ok? <==> (r.Ok? && !r.value.malicious)
    ensures var r := RunPdfCheckPipeline(AsWritten, facts(content), content, filename);
      ScanMultipleFiles(facts, Some([content]), [filename] + rest).Ok? <==>
        (r.Ok? && !r.value.malicious && QuarantineFileCheck.GetFileSize(content) > 0)
  {
    var intended := RunPdfCheckPipeline(Intended, facts(content), content, filename);
    var written := RunPdfCheckPipeline(AsWritten, facts(content), content, filename);
    RunPdfCheckPipelineVerdict(AsWritten, facts(content), content, filename);
    if intended.Ok? {
      OneResultSummary(intended.value);
    }
    if written.Ok? {
      OneResultSummary(written.value);
    }
  }

  /** The gathered outcomes summarised: an exception object anywhere in the
      list makes the summary fail with `AttributeError` in either variant;
      otherwise the intended summary passes exactly when no gathered result
      is flagged. */
  lemma GatheredSummaryVerdict(v: Variant, results: seq<Result<PdfCheckResult, Error>>)
    ensures (exists i :: 0 <= i < |results| && results[i].Err?) ==>
      GatheredSummary(v, results) == Err(PythonAttributeError("exception object has no attribute 'malicious'"))
    ensures GatheredSummary(Intended, results).Ok? <==>
      forall i :: 0 <= i < |results| ==> results[i].Ok? && !results[i].value.malicious
  {
    if |results| > 0 && forall i :: 0 <= i < |results| ==> results[i].Ok? {
      var values := seq(|results|, i requires 0 <= i < |results| => results[i].value);
      assert GatheredSummary(Intended, results) == GetValidationSummaryIntended(values);
      GetValidationSummaryIntendedSpec(values);
      assert forall i :: 0 <= i < |results| ==> values[i] == results[i].value;
    }
  }

  /** A batch of two or more files is gathered in `zip` order: a file whose
      chain raises makes the scan of that variant fail with
      `AttributeError`, and otherwise the intended scan passes exactly when
      no file is flagged by the intended chain. */
  lemma MultiFileScan(v: Variant, facts: Bytes -> PdfFacts, contents: seq<Bytes>, filenames: seq<string>)
    requires |contents| >= 2
    ensures var n := QuarantineFileCheck.Min(|contents|, |filenames|);
      (exists i :: 0 <= i < n && RunPdfCheckPipeline(v, facts(contents[i]), contents[i], filenames[i]).Err?) ==>
        ScanWith(v, facts, Some(contents), filenames) == Err(PythonAttributeError("exception object has no attribute 'malicious'"))
    ensures var n := QuarantineFileCheck.Min(|contents|, |filenames|);
      ScanMultipleFilesIntended(facts, Some(contents), filenames).Ok? <==>
        forall i :: 0 <= i < n ==>
          var r := RunPdfCheckPipeline(Intended, facts(contents[i]), contents[i], filenames[i]); r.Ok? && !r.value.malicious
  {
    var n := QuarantineFileCheck.Min(|contents|, |filenames|);
    var gathered := Gathered(v, facts, contents, filenames);
    var intended := Gathered(Intended, facts, contents, filenames);
    assert ScanWith(v, facts, Some(contents), filenames) == GatheredSummary(v, gathered);
    assert ScanMultipleFilesIntended(facts, Some(contents), filenames) == GatheredSummary(Intended, intended);
    assert forall i :: 0 <= i < n ==> gathered[i] == RunPdfCheckPipeline(v, facts(contents[i]), contents[i], filenames[i]);
    assert forall i :: 0 <= i < n ==> intended[i] == RunPdfCheckPipeline(Intended, facts(contents[i]), contents[i], filenames[i]);
    GatheredSummaryVerdict(v, gathered);
    GatheredSummaryVerdict(Intended, intended);
  }
}

=== FILE: quarantine_file_check_pipeline.dfy ===
/** The orchestration of one quarantine request: pick the service for the
    file's category, download, cap the size, hash, mark every item unseen,
    check magic numbers and malware, run the category's own scan, promote
    the file to the user's bucket and delete it from quarantine.

    `Run` is the specification of a whole request, as a function of the
    request, the external facts it meets (`Effects`) and the store's
    buckets; it also exists in the variant the code evidently intends.
    `Process` is the request as written, step by step, over a service
    object and the store, and is proved to behave as `Run`. */
module QuarantineFileCheckPipeline {
  import opened Wrappers
  import opened Errors
  import opened Octets
  import opened Sums
  import opened Variants
  import opened ObjectStore
  import Settings
  import ServiceFactory
  import QuarantineFileCheck
  import ImageQuarantineCheck
  import PdfQuarantineCheck

  type Buckets = map<string, map<string, Bytes>>

  /** What the world answers during one request. */
  datatype Effects = Effects(
    fetch: (string, string) -> QuarantineFileCheck.Fetch,
    sha256: Bytes -> QuarantineFileCheck.HexDigest,
    hashTimesOut: nat -> bool,
    detectMime: Bytes -> string,
    magicTimesOut: nat -> bool,
    virusTotal: string -> QuarantineFileCheck.VtReply,
    decodeImage: Bytes -> Option<(nat, nat)>,
    imageTimesOut: nat -> bool,
    pdfFacts: Bytes -> PdfQuarantineCheck.PdfFacts)

  /** The stages of a request, in the order they run. */
  datatype Stage = Download | Size | Hash | MagicNumber | Malware | TypeScan | Copy | Delete

  const AllStages: seq<Stage> := [Download, Size, Hash, MagicNumber, Malware, TypeScan, Copy, Delete]

  /** The category scan's summary, merged into the result. */
  datatype TypeCheck = ImageReport(image: ImageQuarantineCheck.ImageSummary) | PdfReport(pdf: PdfQuarantineCheck.PdfSummary)

  /** One entry of `presigned_urls`. */
  datatype Link = Link(url: Url, seen: bool, filename: string)

  /** The result dictionary. */
  datatype PipelineResult = PipelineResult(
    success: bool,
    query: Option<string>,
    userid: string,
    filenames: seq<string>,
    fileSizeExceeds: Option<bool>,
    magicNumbers: Option<bool>,
    malware: Option<bool>,
    sensitiveInfo: Option<bool>,
    seenFilesCollections: map<string, string>,
    unseenFilenames: seq<string>,
    presignedUrls: map<string, Link>,
    collection: Option<string>,
    anonymizedContent: Option<string>,
    typeCheck: Option<TypeCheck>)

  /** The result dictionary before any step. */
  const InitialResult: PipelineResult :=
    PipelineResult(false, None, "", [], None, None, None, None, map[], [], map[], None, None, None)

  /** What a whole request produces: the answer, the stages it ran and the
      store's buckets afterwards. */
  datatype Outcome = Outcome(result: Result<PipelineResult, Error>, stages: seq<Stage>, buckets: Buckets)

  // ---------------------------------------------------------------------
  // Seen and unseen
  // ---------------------------------------------------------------------

  /** `seen_files_collections`: each hashed name whose status is truthy,
      mapped to its collection; a later duplicate name wins. */
  function SeenCollections(hashed: seq<string>, seen: seq<QuarantineFileCheck.SeenStatus>): map<string, string> {
    var n := QuarantineFileCheck.Min(|hashed|, |seen|);
    if n == 0 then map[]
    else
      var init := SeenCollections(hashed[..n - 1], seen[..n - 1]);
      if seen[n - 1].Truthy() then init[hashed[n - 1] := seen[n - 1].name] else init
  }

  /** `unseen_filenames`: the filenames whose status is falsy, in order. */
  function UnseenFilenames(filenames: seq<string>, seen: seq<QuarantineFileCheck.SeenStatus>): (r: seq<string>)
    ensures |r| <= QuarantineFileCheck.Min(|filenames|, |seen|)
  {
    var n := QuarantineFileCheck.Min(|filenames|, |seen|);
    if n == 0 then []
    else
      var init := UnseenFilenames(filenames[..n - 1], seen[..n - 1]);
      if seen[n - 1].Truthy() then init else init + [filenames[n - 1]]
  }

  /** The two lists partition the batch: an item with a truthy status is a
      key of `seen_files_collections`, one with a falsy status is listed in
      `unseen_filenames`, and the unseen list is exactly the filenames at
      the unseen indices, in order. */
  lemma {:induction false} SeenPartition(hashed: seq<string>, filenames: seq<string>,
                                         seen: seq<QuarantineFileCheck.SeenStatus>)
    requires |hashed| == |filenames| == |seen|
    ensures forall i :: 0 <= i < |seen| && seen[i].Truthy() ==> hashed[i] in SeenCollections(hashed, seen)
    ensures forall h :: h in SeenCollections(hashed, seen) ==>
      exists i :: 0 <= i < |seen| && seen[i].Truthy() && hashed[i] == h
    ensures var idx := QuarantineFileCheck.Unseen(|seen|, seen);
      UnseenFilenames(filenames, seen) == seq(|idx|, k requires 0 <= k < |idx| => filenames[idx[k]])
  {
    var n := |seen|;
    if n > 0 {
      var h, f, s := hashed[..n - 1], filenames[..n - 1], seen[..n - 1];
      SeenPartition(h, f, s);
      UnseenPrefix(seen, n - 1);
    }
  }

  /** Only the first `n` statuses matter to `Unseen(n, _)`. */
  lemma {:induction false} UnseenPrefix(seen: seq<QuarantineFileCheck.SeenStatus>, n: nat)
    requires n <= |seen|
    ensures QuarantineFileCheck.Unseen(n, seen[..n]) == QuarantineFileCheck.Unseen(n, seen)
    decreases n
  {
    if n > 0 {
      var prefix := seen[..n];
      assert prefix[..n - 1] == seen[..n - 1] && prefix[n - 1] == seen[n - 1];
      UnseenPrefix(prefix, n - 1);
      UnseenPrefix(seen, n - 1);
      assert QuarantineFileCheck.Unseen(n - 1, prefix) == QuarantineFileCheck.Unseen(n - 1, seen);
    }
  }

  /** The statuses the request forces: `[None] * n`. */
  function ForcedSeen(n: nat): (seen: seq<QuarantineFileCheck.SeenStatus>)
    ensures |seen| == n && forall i :: 0 <= i < n ==> !seen[i].Truthy()
  {
    seq(n, _ => QuarantineFileCheck.NoneStatus)
  }

  /** With every status forced to `None`, nothing counts as seen and every
      filename is unseen. */
  lemma {:induction false} ForcedSeenMeansAllUnseen(hashed: seq<string>, filenames: seq<string>, n: nat)
    requires |hashed| == |filenames| == n
    ensures SeenCollections(hashed, ForcedSeen(n)) == map[]
    ensures UnseenFilenames(filenames, ForcedSeen(n)) == filenames
  {
    if n > 0 {
      var seen := ForcedSeen(n);
      assert seen[..n - 1] == ForcedSeen(n - 1);
      assert !seen[n - 1].Truthy();
      ForcedSeenMeansAllUnseen(hashed[..n - 1], filenames[..n - 1], n - 1);
      assert SeenCollections(hashed, seen) == SeenCollections(hashed[..n - 1], seen[..n - 1]);
      assert UnseenFilenames(filenames, seen) == UnseenFilenames(filenames[..n - 1], seen[..n - 1]) + [filenames[n - 1]];
      assert filenames[..n - 1] + [filenames[n - 1]] == filenames;
    }
  }

  // ---------------------------------------------------------------------
  // The request
  // ---------------------------------------------------------------------

  /** The size cap: one file above `MAX_FILE_SIZE` or all of them above
      `MAX_UPLOAD_SIZE`, in hundredths of a MB. */
  predicate SizeExceeded(sizes: seq<nat>) {
    (exists i :: 0 <= i < |sizes| && sizes[i] > QuarantineFileCheck.CentiMB(Settings.MaxFileSize))
    || Sum(sizes) > QuarantineFileCheck.CentiMB(Settings.MaxUploadSize)
  }

  /** A request carries one file, so its size cap is the per-file cap
      alone: the total is that file's size, and the batch cap is no smaller
      than the per-file cap. */
  lemma OneFileSizeCap(size: nat)
    ensures SizeExceeded([size]) <==> size > QuarantineFileCheck.CentiMB(Settings.MaxFileSize)
  {
    Settings.FileCapWithinUploadCap();
    assert Sum([size]) == size by {
      assert [size][..0] == [];
    }
  }

  /** What each stage of a request answers, gathered apart from the control
      flow that decides which of them the request reaches. */
  datatype Steps = Steps(
    created: Result<Option<ServiceFactory.ServiceKind>, Error>,
    fetched: bool,
    sizes: seq<nat>,
    hashFails: bool,
    hashed: seq<string>,
    magic: Result<Option<bool>, Error>,
    malware: Result<bool, Error>,
    imageScan: Result<TypeCheck, Error>,
    pdfScan: Result<TypeCheck, Error>)

  /** One hashed name per size, and one file once the download went
      through. */
  predicate WellShaped(st: Steps) {
    |st.hashed| == |st.sizes| && (st.fetched ==> |st.sizes| == 1)
  }

  /** The batch's contents: the one download, when it gave bytes. */
  function Contents(url: string, filename: string, fx: Effects): (contents: seq<Bytes>)
    ensures |contents| <= 1
    ensures QuarantineFileCheck.AllFetched(fx.fetch, [url], [filename]) ==> |contents| == 1
  {
    if QuarantineFileCheck.AllFetched(fx.fetch, [url], [filename])
    then QuarantineFileCheck.Downloads(fx.fetch, [url], [filename])
    else []
  }

  /** The answers of the stages for a request with the given URL and
      filename, each computed from the outputs of the stages before it. */
  function StepsOf(v: Variant, url: string, filename: string, fx: Effects): (st: Steps)
    ensures WellShaped(st)
  {
    var contents := Contents(url, filename, fx);
    var hashed := QuarantineFileCheck.HashedNames(fx.sha256, contents, [filename]);
    var seen := ForcedSeen(|contents|);
    Steps(ServiceFactory.CreateService([filename]),
          QuarantineFileCheck.AllFetched(fx.fetch, [url], [filename]),
          QuarantineFileCheck.Sizes(contents),
          exists i :: 0 <= i < |contents| && fx.hashTimesOut(i),
          hashed,
          QuarantineFileCheck.MagicNumberStep(Settings.AllowedMimeTypes, Some(contents), [filename], Some(seen),
                                              fx.detectMime, fx.magicTimesOut),
          QuarantineFileCheck.MalwareStep(Some(hashed), Some(seen), fx.virusTotal),
          TypeScanOf(v, ServiceFactory.ImageQuarantineCheckService, fx, contents, filename, seen),
          TypeScanOf(v, ServiceFactory.PdfQuarantineCheckService, fx, contents, filename, seen))
  }

  /** A request: the URL and the filename arrive as single values and the
      batch is the one-element list of each. */
  function Run(v: Variant, query: string, url: string, filename: string, userid: string, bucketName: string,
               fx: Effects, buckets: Buckets): Outcome
  {
    Compose(v, query, filename, userid, bucketName, buckets, StepsOf(v, url, filename, fx))
  }

  /** Where a request ends before promotion, or the record it promotes
      with and the hashed name of its file. */
  datatype Halt =
    | Raise(error: Error, reached: nat)
    | SizeCapped(result: PipelineResult)
    | NothingUnseen(result: PipelineResult)
    | Checked(kind: ServiceFactory.ServiceKind, result: PipelineResult, hashedName: string)

  /** The category scan a request of the given kind runs. */
  function ScanOf(st: Steps, kind: ServiceFactory.ServiceKind): Result<TypeCheck, Error> {
    if kind == ServiceFactory.ImageQuarantineCheckService then st.imageScan else st.pdfScan
  }

  /** The control flow of a request up to promotion, over the stages'
      answers: the first stage that raises ends it, the size cap ends it
      successfully, and only a request with an unseen file reaches the
      checks. */
  function HaltOf(query: string, filename: string, userid: string, st: Steps): (h: Halt)
    requires |st.hashed| == |st.sizes|
    ensures h.Raise? ==> h.reached <= 6
    ensures h.Checked? ==> |st.hashed| > 0
  {
    match st.created
    case Err(e) => Raise(e, 0)
    case Ok(None) => Raise(PythonAttributeError("'NoneType' object has no attribute 'process_download_file'"), 0)
    case Ok(Some(kind)) => AfterService(kind, query, filename, userid, st)
  }

  /** The control flow once the service exists. */
  function AfterService(kind: ServiceFactory.ServiceKind, query: string, filename: string, userid: string, st: Steps): (h: Halt)
    requires |st.hashed| == |st.sizes|
    ensures h.Raise? ==> 1 <= h.reached <= 6
    ensures h.Checked? ==> |st.hashed| > 0 && h.kind == kind
  {
    var result := InitialResult.(query := Some(query), userid := userid, filenames := [filename], sensitiveInfo := Some(false));
    if !st.fetched then Raise(DownloadFailed, 1)
    else if SizeExceeded(st.sizes) then SizeCapped(result.(success := true, fileSizeExceeds := Some(true)))
    else AfterSizing(kind, filename, st, result)
  }

  /** The control flow once the sizes are within the caps: hashing, the
      seen record, and the checks when a file is unseen. */
  function AfterSizing(kind: ServiceFactory.ServiceKind, filename: string, st: Steps, result: PipelineResult): (h: Halt)
    requires |st.hashed| == |st.sizes|
    ensures h.Raise? ==> 3 <= h.reached <= 6
    ensures h.Checked? ==> |st.hashed| > 0 && h.kind == kind
    ensures !h.SizeCapped?
  {
    if st.hashFails then Raise(HashingFailed, 3)
    else
      var seen := ForcedSeen(|st.sizes|);
      var result := result.(seenFilesCollections := SeenCollections(st.hashed, seen),
                            unseenFilenames := UnseenFilenames([filename], seen));
      if result.unseenFilenames == [] then NothingUnseen(result.(success := true))
      else Screening(kind, st, result)
  }

  /** The checks on the unseen file: magic number, malware, then the
      category's scan; the record promotes only when all three pass. */
  function Screening(kind: ServiceFactory.ServiceKind, st: Steps, result: PipelineResult): (h: Halt)
    requires |st.hashed| > 0
    ensures h.Raise? ==> 4 <= h.reached <= 6
    ensures h.Checked? ==> h.kind == kind && h.hashedName == st.hashed[0]
    ensures !h.SizeCapped? && !h.NothingUnseen?
  {
    if st.magic.Err? then Raise(st.magic.error, 4)
    else if st.malware.Err? then Raise(st.malware.error, 5)
    else if ScanOf(st, kind).Err? then Raise(ScanOf(st, kind).error, 6)
    else Checked(kind, result.(magicNumbers := Some(false), malware := Some(false), typeCheck := Some(ScanOf(st, kind).value)),
                 st.hashed[0])
  }

  /** How a request ends once its checks have halted: a raise after the
      stages it reached, a success without promotion, or the promotion of
      the file under its hashed name. */
  function Conclusion(v: Variant, filename: string, userid: string, bucketName: string, buckets: Buckets, h: Halt): Outcome
    requires h.Raise? ==> h.reached <= |AllStages|
  {
    match h
    case Raise(e, k) => Outcome(Err(e), AllStages[..k], buckets)
    case SizeCapped(result) => Outcome(Ok(result), AllStages[..2], buckets)
    case NothingUnseen(result) => Outcome(Ok(result), AllStages[..3], buckets)
    case Checked(kind, result, hashedName) => Promote(v, kind, filename, userid, bucketName, buckets, hashedName, result)
  }

  /** A request over the stages' answers: it ends where `HaltOf` says. */
  function Compose(v: Variant, query: string, filename: string, userid: string, bucketName: string,
                   buckets: Buckets, st: Steps): Outcome
    requires |st.hashed| == |st.sizes|
  {
    Conclusion(v, filename, userid, bucketName, buckets, HaltOf(query, filename, userid, st))
  }

  /** The category's own scan. As written, the image scan runs a second time
      and its summary is awaited, which raises `TypeError`; the effects are
      deterministic, so the second scan repeats the first one's outcome and
      one scan stands for both. */
  function TypeScanOf(v: Variant, kind: ServiceFactory.ServiceKind, fx: Effects, contents: seq<Bytes>, filename: string,
                      seen: seq<QuarantineFileCheck.SeenStatus>): Result<TypeCheck, Error>
  {
    match kind
    case ImageQuarantineCheckService =>
      var summary :- ImageQuarantineCheck.ImageScan(fx.decodeImage, fx.imageTimesOut, Some(contents), [filename], Some(seen));
      if v == AsWritten then Err(PythonTypeError("object dict can't be used in 'await' expression"))
      else Ok(ImageReport(summary))
    case PdfQuarantineCheckService =>
      var summary :- if v == AsWritten then PdfQuarantineCheck.ScanMultipleFiles(fx.pdfFacts, Some(contents), [filename])
                     else PdfQuarantineCheck.ScanMultipleFilesIntended(fx.pdfFacts, Some(contents), [filename]);
      Ok(PdfReport(summary))
  }

  /** The name Python reports for the service's class. */
  function ServiceClassName(kind: ServiceFactory.ServiceKind): string {
    match kind
    case ImageQuarantineCheckService => "ImageQuarantineCheckService"
    case PdfQuarantineCheckService => "PDFQuarantineCheckService"
  }

  /** Promotion. As written it calls `copy_object`, which the service does
      not define, and raises before touching the store. As intended it moves
      the file to the user's bucket, then deletes it from quarantine, then
      links the copy. */
  function Promote(v: Variant, kind: ServiceFactory.ServiceKind, filename: string, userid: string, bucketName: string,
                   buckets: Buckets, hashedName: string, result: PipelineResult): Outcome
  {
    if v == AsWritten then
      Outcome(Err(PythonAttributeError("'" + ServiceClassName(kind) + "' object has no attribute 'copy_object'")),
              AllStages[..7], buckets)
    else
      var quarantine := QuarantineFileCheck.NormalizeBucket(bucketName);
      var key := QuarantineFileCheck.QuarantineKey(userid, filename);
      var copied := QuarantineFileCheck.Promoted(buckets, quarantine, userid, filename, hashedName);
      if !(quarantine in buckets && key in buckets[quarantine]) then
        Outcome(Err(CopyToUserBucketFailed), AllStages[..7], copied)
      else if quarantine !in copied then Outcome(Err(DeleteFromQuarantineFailed), AllStages, copied)
      else
        var deleted := copied[quarantine := copied[quarantine] - {key}];
        var link := Link(PresignedGet(userid, hashedName), false, filename);
        Outcome(Ok(result.(presignedUrls := map[hashedName := link], success := true)), AllStages, deleted)
  }

  // ---------------------------------------------------------------------
  // Properties of a request
  // ---------------------------------------------------------------------

  /** Past the hashing stage the batch holds one file, and it is unseen. */
  lemma OneUnseenFile(filename: string, st: Steps)
    requires WellShaped(st) && st.fetched
    ensures SeenCollections(st.hashed, ForcedSeen(|st.sizes|)) == map[]
    ensures UnseenFilenames([filename], ForcedSeen(|st.sizes|)) == [filename]
  {
    ForcedSeenMeansAllUnseen(st.hashed, [filename], 1);
  }

  /** Every stage before promotion passed. */
  predicate ReachesPromotion(st: Steps) {
    && st.created.Ok? && st.created.value.Some?
    && st.fetched && !SizeExceeded(st.sizes) && !st.hashFails
    && st.magic.Ok? && st.malware.Ok? && ScanOf(st, st.created.value.value).Ok?
  }

  /** Before promotion a request either raises, or stops successfully on
      the size cap (with nothing promoted), or reaches promotion: every
      request past the hashing stage has an unseen file. */
  lemma HaltEarly(query: string, filename: string, userid: string, st: Steps)
    requires WellShaped(st)
    ensures var h := HaltOf(query, filename, userid, st);
      && !h.NothingUnseen?
      && (h.SizeCapped? <==> st.created.Ok? && st.created.value.Some? && st.fetched && SizeExceeded(st.sizes))
      && (h.SizeCapped? ==>
            && h.result.success && h.result.fileSizeExceeds == Some(true)
            && h.result.filenames == [filename] && h.result.presignedUrls == map[])
  {
    match st.created
    case Err(_) =>
    case Ok(None) =>
    case Ok(Some(kind)) =>
      if st.fetched && !SizeExceeded(st.sizes) && !st.hashFails {
        OneUnseenFile(filename, st);
      }
  }

  /** A request reaches promotion exactly when every stage passed, and it
      promotes its one file, recorded as unseen and passing every check. */
  lemma HaltChecked(query: string, filename: string, userid: string, st: Steps)
    requires WellShaped(st)
    ensures var h := HaltOf(query, filename, userid, st);
      && (h.Checked? <==> ReachesPromotion(st))
      && (h.Checked? ==>
            && h.kind == st.created.value.value && |st.hashed| == 1 && h.hashedName == st.hashed[0]
            && h.result.seenFilesCollections == map[] && h.result.unseenFilenames == [filename]
            && h.result.magicNumbers == Some(false) && h.result.malware == Some(false)
            && h.result.typeCheck == Some(ScanOf(st, h.kind).value))
  {
    match st.created
    case Err(_) =>
    case Ok(None) =>
    case Ok(Some(kind)) =>
      if st.fetched && !SizeExceeded(st.sizes) && !st.hashFails {
        OneUnseenFile(filename, st);
        var recorded := InitialResult.(query := Some(query), userid := userid, filenames := [filename],
                                       sensitiveInfo := Some(false), seenFilesCollections := map[],
                                       unseenFilenames := [filename]);
        assert HaltOf(query, filename, userid, st) == Screening(kind, st, recorded);
      }
  }

  /** Promotion: as written it raises at the copy and leaves the store as
      it was; as intended it succeeds exactly when the quarantined object
      exists, and then the user's bucket holds its bytes under the hashed
      name, the quarantine object is gone and the result links the copy,
      marked unseen, with the original filename. A failed copy removes
      nothing from quarantine. */
  lemma PromoteFacts(v: Variant, kind: ServiceFactory.ServiceKind, filename: string, userid: string, bucketName: string,
                     buckets: Buckets, h: string, result: PipelineResult)
    ensures var o := Promote(v, kind, filename, userid, bucketName, buckets, h, result);
      var quarantine := QuarantineFileCheck.NormalizeBucket(bucketName);
      var key := QuarantineFileCheck.QuarantineKey(userid, filename);
      && (o.stages == AllStages[..7] || o.stages == AllStages)
      && (v == AsWritten ==> o.stages == AllStages[..7] && o.buckets == buckets && o.result.Err?)
      && (o.result.Ok? <==> v == Intended && quarantine in buckets && key in buckets[quarantine])
      && (o.stages == AllStages ==> o.result.Ok?)
      && (o.result.Ok? ==>
            && o.result.value == result.(presignedUrls := map[h := Link(PresignedGet(userid, h), false, filename)], success := true)
            && quarantine in o.buckets && key !in o.buckets[quarantine]
            && (userid != quarantine ==> userid in o.buckets && h in o.buckets[userid] && o.buckets[userid][h] == buckets[quarantine][key]))
      && (o.result.Err? && quarantine in buckets ==>
            quarantine in o.buckets && forall k :: k in buckets[quarantine] ==> k in o.buckets[quarantine])
  {
    var quarantine := QuarantineFileCheck.NormalizeBucket(bucketName);
    var key := QuarantineFileCheck.QuarantineKey(userid, filename);
    if v == Intended && quarantine in buckets && key in buckets[quarantine] {
      QuarantineFileCheck.PromotionKeepsQuarantinedObject(buckets, quarantine, userid, filename, h);
    }
  }

  /** The stages that ran are a prefix of the fixed order: a failing stage
      is the last one, and no later stage runs. A request succeeds only on
      the size cap or after all eight stages. */
  lemma StagesInOrder(v: Variant, query: string, filename: string, userid: string, bucketName: string,
                      buckets: Buckets, st: Steps)
    requires WellShaped(st)
    ensures var o := Compose(v, query, filename, userid, bucketName, buckets, st);
      && o.stages <= AllStages
      && (o.result.Ok? ==> o.stages == AllStages[..2] || o.stages == AllStages)
  {
    HaltEarly(query, filename, userid, st);
    var h := HaltOf(query, filename, userid, st);
    if h.Checked? {
      PromoteFacts(v, h.kind, filename, userid, bucketName, buckets, h.hashedName, h.result);
    }
  }

  /** As written, a request succeeds exactly on the size cap, and it never
      changes the store: the image summary is awaited and raises, and the
      PDF path raises at `copy_object` before any copy. */
  lemma AsWrittenSucceedsOnlyOnSizeCap(query: string, filename: string, userid: string, bucketName: string,
                                       buckets: Buckets, st: Steps)
    requires WellShaped(st)
    ensures var o := Compose(AsWritten, query, filename, userid, bucketName, buckets, st);
      o.result.Ok? <==> st.created.Ok? && st.created.value.Some? && st.fetched && SizeExceeded(st.sizes)
    ensures var o := Compose(AsWritten, query, filename, userid, bucketName, buckets, st);
      && o.buckets == buckets
      && Delete !in o.stages
      && (o.result.Ok? ==>
            && o.stages == AllStages[..2]
            && o.result.value.success && o.result.value.fileSizeExceeds == Some(true)
            && o.result.value.filenames == [filename] && o.result.value.presignedUrls == map[])
  {
    HaltEarly(query, filename, userid, st);
    HaltChecked(query, filename, userid, st);
    var h := HaltOf(query, filename, userid, st);
    if h.Checked? {
      PromoteFacts(AsWritten, h.kind, filename, userid, bucketName, buckets, h.hashedName, h.result);
    }
  }

  /** In the intended variant a request that passes every check promotes
      the file: the user's bucket holds the quarantined bytes under the
      hashed name, the quarantine object is gone, and the result links the
      hashed name to the user's copy, marked unseen, with the original
      filename. */
  lemma IntendedPromotes(query: string, filename: string, userid: string, bucketName: string,
                         buckets: Buckets, st: Steps)
    requires WellShaped(st)
    requires Compose(Intended, query, filename, userid, bucketName, buckets, st).result.Ok?
    requires Compose(Intended, query, filename, userid, bucketName, buckets, st).stages != AllStages[..2]
    ensures st.fetched && |st.hashed| == 1
    ensures var o := Compose(Intended, query, filename, userid, bucketName, buckets, st);
      var h := st.hashed[0];
      var quarantine := QuarantineFileCheck.NormalizeBucket(bucketName);
      var key := QuarantineFileCheck.QuarantineKey(userid, filename);
      && o.stages == AllStages
      && o.result.value.success
      && o.result.value.presignedUrls == map[h := Link(PresignedGet(userid, h), false, filename)]
      && quarantine in buckets && key in buckets[quarantine]
      && quarantine in o.buckets && key !in o.buckets[quarantine]
      && (userid != quarantine ==> userid in o.buckets && h in o.buckets[userid] && o.buckets[userid][h] == buckets[quarantine][key])
  {
    HaltEarly(query, filename, userid, st);
    HaltChecked(query, filename, userid, st);
    var h := HaltOf(query, filename, userid, st);
    PromoteFacts(Intended, h.kind, filename, userid, bucketName, buckets, h.hashedName, h.result);
  }

  /** The quarantine object is deleted only after it was copied: a request
      that reaches the delete stage ran the copy just before, on an object
      that existed, and a request that stops at the copy still holds
      whatever the quarantine bucket held. */
  lemma CopyBeforeDelete(v: Variant, query: string, filename: string, userid: string, bucketName: string,
                         buckets: Buckets, st: Steps)
    requires WellShaped(st)
    ensures var o := Compose(v, query, filename, userid, bucketName, buckets, st);
      var quarantine := QuarantineFileCheck.NormalizeBucket(bucketName);
      var key := QuarantineFileCheck.QuarantineKey(userid, filename);
      && (Delete in o.stages ==> v == Intended && o.stages == AllStages
                                 && quarantine in buckets && key in buckets[quarantine])
      && (o.stages == AllStages[..7] && quarantine in buckets ==>
            && quarantine in o.buckets
            && forall k :: k in buckets[quarantine] ==> k in o.buckets[quarantine])
  {
    var h := HaltOf(query, filename, userid, st);
    if h.Checked? {
      PromoteFacts(v, h.kind, filename, userid, bucketName, buckets, h.hashedName, h.result);
    }
  }

  /** The stages gathered for a request hash exactly the downloaded bytes:
      the name a promoted request links is the file's digest with its
      lower-cased extension. */
  lemma StepsHashDownload(v: Variant, url: string, filename: string, fx: Effects)
    ensures var st := StepsOf(v, url, filename, fx);
      st.fetched ==> st.hashed == [QuarantineFileCheck.GenerateUniqueFilename(
        fx.sha256, QuarantineFileCheck.Downloads(fx.fetch, [url], [filename])[0], filename)]
    ensures var st := StepsOf(v, url, filename, fx);
      st.fetched <==> QuarantineFileCheck.AllFetched(fx.fetch, [url], [filename])
  {
  }

  /** As written the image scan's summary is awaited, which raises even when
      the scan passes; as intended that summary is the report. */
  lemma ImageSummaryAwaited(fx: Effects, contents: seq<Bytes>, filename: string,
                            seen: seq<QuarantineFileCheck.SeenStatus>)
    ensures TypeScanOf(AsWritten, ServiceFactory.ImageQuarantineCheckService, fx, contents, filename, seen).Err?
    ensures var s := ImageQuarantineCheck.ImageScan(fx.decodeImage, fx.imageTimesOut, Some(contents), [filename], Some(seen));
      && (s.Ok? ==> TypeScanOf(AsWritten, ServiceFactory.ImageQuarantineCheckService, fx, contents, filename, seen)
                    == Err(PythonTypeError("object dict can't be used in 'await' expression")))
      && (s.Ok? <==> TypeScanOf(Intended, ServiceFactory.ImageQuarantineCheckService, fx, contents, filename, seen).Ok?)
      && (s.Ok? ==> TypeScanOf(Intended, ServiceFactory.ImageQuarantineCheckService, fx, contents, filename, seen)
                    == Ok(ImageReport(s.value)))
  {
  }

  // ---------------------------------------------------------------------
  // The request, step by step
  // ---------------------------------------------------------------------

  /** The stages from the download to the category scan, run on a fresh
      service for one file: each stage raises or lets the next one run, and
      the seen list is forced to `[None] * n` after hashing. */
  method RunChecks(v: Variant, kind: ServiceFactory.ServiceKind, service: QuarantineFileCheck.QuarantineFileCheckService,
                   fx: Effects)
    returns (h: Halt)
    requires |service.urls| == 1 && |service.filenames| == 1
    requires service.fileContents.None? && service.fileSizes.None? && service.hashedFilenames.None? && service.seenStatus.None?
    requires service.mimeTypes == Settings.AllowedMimeTypes
    modifies service
    ensures h == AfterService(kind, service.query, service.filenames[0], service.userid,
                              StepsOf(v, service.urls[0], service.filenames[0], fx))
  {
    var url, filename := service.urls[0], service.filenames[0];
    assert service.urls == [url] && service.filenames == [filename];
    var result := InitialResult.(query := Some(service.query), userid := service.userid, filenames := [filename],
                                 sensitiveInfo := Some(false));

    var downloaded := service.ProcessDownloadFile(fx.fetch);
    if downloaded.Err? {
      return Raise(downloaded.error, 1);
    }
    assert service.fileContents == Some(Contents(url, filename, fx));

    var sized := service.ProcessGetFileSize();
    var sizes := service.fileSizes.value;
    if SizeExceeded(sizes) {
      return SizeCapped(result.(success := true, fileSizeExceeds := Some(true)));
    }

    h := HashAndScreen(v, kind, service, fx, result);
  }

  /** The hashing stage of `process`, the seen record it builds, and the
      checks when the file is unseen. */
  method HashAndScreen(v: Variant, kind: ServiceFactory.ServiceKind, service: QuarantineFileCheck.QuarantineFileCheckService,
                       fx: Effects, result: PipelineResult)
    returns (h: Halt)
    requires |service.urls| == 1 && |service.filenames| == 1 && service.mimeTypes == Settings.AllowedMimeTypes
    requires var contents := Contents(service.urls[0], service.filenames[0], fx);
      |contents| > 0 && service.fileContents == Some(contents)
    modifies service
    ensures h == AfterSizing(kind, service.filenames[0], StepsOf(v, service.urls[0], service.filenames[0], fx), result)
  {
    var url, filename := service.urls[0], service.filenames[0];
    assert service.urls == [url] && service.filenames == [filename];
    var contents := service.fileContents.value;
    var hashing := service.ProcessFileHashing(fx.sha256, fx.hashTimesOut);
    if hashing.Err? {
      return Raise(hashing.error, 3);
    }
    service.seenStatus := Some(ForcedSeen(|contents|));
    var hashed, seen := service.hashedFilenames.value, service.seenStatus.value;
    var recorded := result.(seenFilesCollections := SeenCollections(hashed, seen),
                            unseenFilenames := UnseenFilenames([filename], seen));
    if recorded.unseenFilenames == [] {
      return NothingUnseen(recorded.(success := true));
    }

    h := Screen(v, kind, service, fx, recorded);
  }

  /** The checks of `process` once the file is known to be unseen: the
      service's magic-number and malware steps, then its category's scan.
      As written the image scan's summary is awaited, which raises. */
  method Screen(v: Variant, kind: ServiceFactory.ServiceKind, service: QuarantineFileCheck.QuarantineFileCheckService,
                fx: Effects, result: PipelineResult)
    returns (h: Halt)
    requires |service.urls| == 1 && |service.filenames| == 1 && service.mimeTypes == Settings.AllowedMimeTypes
    requires var contents := Contents(service.urls[0], service.filenames[0], fx);
      && |contents| > 0
      && service.fileContents == Some(contents)
      && service.hashedFilenames == Some(QuarantineFileCheck.HashedNames(fx.sha256, contents, service.filenames))
      && service.seenStatus == Some(ForcedSeen(|contents|))
    ensures h == Screening(kind, StepsOf(v, service.urls[0], service.filenames[0], fx), result)
  {
    ghost var st := StepsOf(v, service.urls[0], service.filenames[0], fx);
    assert service.filenames == [service.filenames[0]];
    var hashed := service.hashedFilenames.value;
    assert hashed == st.hashed;
    var magic := service.ProcessVerifyMagicNumber(fx.detectMime, fx.magicTimesOut);
    if magic.Err? {
      return Raise(magic.error, 4);
    }
    var malware := service.ProcessScanForMalware(fx.virusTotal);
    if malware.Err? {
      return Raise(malware.error, 5);
    }
    var passed := result.(magicNumbers := Some(false), malware := Some(false));

    var summary: TypeCheck;
    if kind == ServiceFactory.ImageQuarantineCheckService {
      var scanned := ImageQuarantineCheck.ScanMultipleFiles(service, fx.decodeImage, fx.imageTimesOut);
      if scanned.Err? {
        return Raise(scanned.error, 6);
      }
      if v == AsWritten {
        // the source scans a second time and awaits the summary dict; with
        // the effects deterministic the second scan repeats this outcome,
        // so one scan stands for both
        return Raise(PythonTypeError("object dict can't be used in 'await' expression"), 6);
      }
      summary := ImageReport(scanned.value);
    } else {
      var scanned := if v == AsWritten
        then PdfQuarantineCheck.ScanMultipleFiles(fx.pdfFacts, service.fileContents, service.filenames)
        else PdfQuarantineCheck.ScanMultipleFilesIntended(fx.pdfFacts, service.fileContents, service.filenames);
      if scanned.Err? {
        return Raise(scanned.error, 6);
      }
      summary := PdfReport(scanned.value);
    }
    return Checked(kind, passed.(typeCheck := Some(summary)), hashed[0]);
  }

  /** `QuarantineFileCheckPipeline.process`, as written or as intended:
      create the service, run the checks on it, then promote through the
      store. Only the promotion changes the store. */
  method Process(v: Variant, query: string, url: string, filename: string, userid: string, bucketName: string,
                 fx: Effects, store: Store)
    returns (r: Result<PipelineResult, Error>, stages: seq<Stage>)
    modifies store
    ensures Outcome(r, stages, store.buckets) == Run(v, query, url, filename, userid, bucketName, fx, old(store.buckets))
  {
    var created := ServiceFactory.CreateService([filename]);
    if created.Err? {
      return Err(created.error), [];
    }
    if created.value.None? {
      return Err(PythonAttributeError("'NoneType' object has no attribute 'process_download_file'")), [];
    }
    var kind := created.value.value;
    var service := new QuarantineFileCheck.QuarantineFileCheckService(query, [url], [filename], userid, bucketName);
    var h := RunChecks(v, kind, service, fx);
    r, stages := Conclude(v, service, store, h);
  }

  /** The end of a request once its checks have halted: only a request
      that passed every check touches the store. */
  method Conclude(v: Variant, service: QuarantineFileCheck.QuarantineFileCheckService, store: Store, h: Halt)
    returns (r: Result<PipelineResult, Error>, stages: seq<Stage>)
    requires |service.filenames| == 1 && service.quarantine == QuarantineFileCheck.NormalizeBucket(service.bucketName)
    requires h.Raise? ==> h.reached <= |AllStages|
    modifies store
    ensures Outcome(r, stages, store.buckets)
         == Conclusion(v, service.filenames[0], service.userid, service.bucketName, old(store.buckets), h)
  {
    match h {
      case Raise(e, k) =>
        return Err(e), AllStages[..k];
      case SizeCapped(result) =>
        return Ok(result), AllStages[..2];
      case NothingUnseen(result) =>
        return Ok(result), AllStages[..3];
      case Checked(kind, result, hashedName) =>
        r, stages := PromoteFile(v, kind, service, store, hashedName, result);
    }
  }

  /** Promotion on the store: as written the call to `copy_object` raises;
      as intended the service moves the file out of quarantine, then
      deletes the quarantined object, and the result links the copy. */
  method PromoteFile(v: Variant, kind: ServiceFactory.ServiceKind, service: QuarantineFileCheck.QuarantineFileCheckService,
                     store: Store, hashedName: string, result: PipelineResult)
    returns (r: Result<PipelineResult, Error>, stages: seq<Stage>)
    requires |service.filenames| == 1 && service.quarantine == QuarantineFileCheck.NormalizeBucket(service.bucketName)
    modifies store
    ensures Outcome(r, stages, store.buckets)
         == Promote(v, kind, service.filenames[0], service.userid, service.bucketName, old(store.buckets), hashedName, result)
  {
    var filename := service.filenames[0];
    stages := AllStages[..7];
    if v == AsWritten {
      return Err(PythonAttributeError("'" + ServiceClassName(kind) + "' object has no attribute 'copy_object'")), stages;
    }
    var link := service.MoveFileFromQuarantineIntended(store, filename, hashedName);
    if link.Err? {
      return Err(link.error), stages;
    }
    stages := AllStages;
    var deleted := service.DeleteFileFromQuarantine(store, filename);
    // the copy found the quarantine bucket, so the delete cannot fail
    assert deleted.Ok?;
    return Ok(result.(presignedUrls := map[hashedName := Link(link.value, false, filename)], success := true)), stages;
  }
}

=== FILE: quarantine_file_check_service.dfy ===
/** The checks every quarantine service shares: per-file decisions (the
    content-addressed name, the dedup lookup, the declared-versus-detected
    MIME decision, the VirusTotal verdict) as functions, and the batch steps
    that fill the service's per-batch fields as methods of a class.

    Foreign calls are inputs: `fetch` (the HTTP download, after at most two
    attempts), `sha256` (FIPS 180-4 digest as hex), `redis` (the hash lookup
    after JSON decoding), `detectMime` (libmagic), `vt` (the VirusTotal
    object endpoint) and `timesOut` (whether the worker for item `i` missed
    its deadline). Thread pools and `asyncio.gather` become a sequential
    walk over the batch in list order. */
module QuarantineFileCheck {
  import opened Wrappers
  import opened Errors
  import opened Text
  import opened Octets
  import opened ObjectStore
  import Settings

  predicate IsHexDigit(c: char) {
    '0' <= c <= '9' || 'a' <= c <= 'f'
  }

  /** What `hexdigest()` of a SHA-256 hasher returns: 64 lower-case hex digits. */
  type HexDigest = s: string | |s| == 64 && forall i :: 0 <= i < |s| ==> IsHexDigit(s[i])
    witness seq(64, i => '0')

  function Min(a: nat, b: nat): nat {
    if a <= b then a else b
  }

  // ---------------------------------------------------------------------
  // Sizes
  // ---------------------------------------------------------------------

  const MiB: nat := 1024 * 1024

  /** `get_file_size`: the size in MB (2^20 bytes) rounded to two decimals,
      as a whole number of hundredths of a MB. */
  function GetFileSize(content: Bytes): (centi: nat)
    ensures centi * MiB <= 100 * |content| + MiB / 2 < (centi + 1) * MiB
  {
    (100 * |content| + MiB / 2) / MiB
  }

  /** A size cap in MB as a number of hundredths, for comparison with
      `GetFileSize`. */
  function CentiMB(mb: nat): nat {
    100 * mb
  }

  // ---------------------------------------------------------------------
  // The content-addressed name
  // ---------------------------------------------------------------------

  /** The suffix `generate_unique_filename` appends: the lower-cased
      `splitext` extension (dot included), replaced by `.parquet` when it is
      one of the tabular extensions. */
  function HashSuffix(filename: string): string {
    var ext := Lower(SplitExt(filename));
    if Member(ext, Settings.TabularExtensions) then ".parquet" else ext
  }

  /** `generate_unique_filename`: hex digest of the bytes, then the suffix. */
  function GenerateUniqueFilename(sha256: Bytes -> HexDigest, content: Bytes, filename: string): (name: string)
    ensures |name| >= 64 && name[..64] == sha256(content)
  {
    sha256(content) + HashSuffix(filename)
  }

  /** The lower-cased extension is empty or starts with its one dot. */
  lemma LoweredExtensionShape(filename: string)
    ensures var ext := Lower(SplitExt(filename));
      (ext == "" || ext[0] == '.') && (ext != "" ==> '.' !in ext[1..])
  {
    var raw := SplitExt(filename);
    SplitExtShape(filename);
    var ext := Lower(raw);
    if ext != "" {
      forall i | 1 <= i < |ext|
        ensures ext[i] != '.'
      {
        assert raw[1..][i - 1] == raw[i];
      }
    }
  }

  /** The tabular rename never fires: the suffix keeps its dot while the
      tabular list holds undotted names, so the name always ends with the
      plain lower-cased extension. */
  lemma TabularRenameNeverFires(filename: string)
    ensures HashSuffix(filename) == Lower(SplitExt(filename))
  {
    var ext := Lower(SplitExt(filename));
    LoweredExtensionShape(filename);
    Settings.ExtensionsUndotted();
    MemberIsIn(ext, Settings.TabularExtensions);
  }

  /** A hex digest holds no dot. */
  lemma DigestHasNoDot(d: HexDigest)
    ensures '.' !in d
  {
    forall i | 0 <= i < |d|
      ensures d[i] != '.'
    {
      assert IsHexDigit(d[i]);
    }
  }

  /** Splitting the name at its first dot recovers exactly the digest,
      which is what the malware scan queries. */
  lemma HashedNameRoundTrip(sha256: Bytes -> HexDigest, content: Bytes, filename: string)
    ensures BeforeFirstDot(GenerateUniqueFilename(sha256, content, filename)) == sha256(content)
  {
    var d := sha256(content);
    var suffix := HashSuffix(filename);
    var name: string := d + suffix;
    TabularRenameNeverFires(filename);
    LoweredExtensionShape(filename);
    DigestHasNoDot(d);
    FindIsFirst(name, '.');
    var k := Find(name, '.');
    assert forall j :: 0 <= j < |d| ==> name[j] == d[j] && name[j] != '.';
    if suffix == "" {
      assert name == d;
      assert k == -1;
    } else {
      assert name[|d|] == '.';
      assert k == |d|;
      assert name[..k] == d;
    }
  }

  /** Two equal names come from equal digests and equal suffixes: the name
      is the digest followed by the suffix and nothing else. */
  lemma HashedNameDeterminesDigestAndSuffix(sha256: Bytes -> HexDigest,
                                            c1: Bytes, f1: string, c2: Bytes, f2: string)
    requires GenerateUniqueFilename(sha256, c1, f1) == GenerateUniqueFilename(sha256, c2, f2)
    ensures sha256(c1) == sha256(c2)
    ensures Lower(SplitExt(f1)) == Lower(SplitExt(f2))
  {
    var n1 := GenerateUniqueFilename(sha256, c1, f1);
    TabularRenameNeverFires(f1);
    TabularRenameNeverFires(f2);
    assert n1[64..] == HashSuffix(f1);
    assert GenerateUniqueFilename(sha256, c2, f2)[64..] == HashSuffix(f2);
  }

  // ---------------------------------------------------------------------
  // The dedup lookup
  // ---------------------------------------------------------------------

  /** One decoded entry of a cached file reference: a JSON object whose
      "collection" field may be absent, or some other JSON value. */
  datatype StoredEntry = Record(collection: Option<string>) | NotARecord

  /** What the Redis hash lookup yields: `False` (key or field missing, or a
      Redis error), an exception on the way (a decoding error), a decoded
      JSON list, or some other decoded JSON value. */
  datatype RedisReply = NoValue | Raised | EntryList(entries: seq<StoredEntry>) | OtherValue

  /** A seen status as Python holds it: `None`, `False` or a collection
      name. Only a non-empty name is truthy. */
  datatype SeenStatus = NoneStatus | FalseStatus | CollectionName(name: string) {
    predicate Truthy() {
      CollectionName? && name != ""
    }
  }

  function RedisKey(userid: string): string {
    "file-references:" + userid + ":summaries"
  }

  /** `check_file_in_redis`: never raises. A non-empty cached list yields
      the "collection" of its first entry (`None` when that entry lacks it);
      a miss, an empty or non-list value, a first entry that is not an
      object, and any error yield `False`. */
  function CheckFileInRedis(redis: (string, string) -> RedisReply, userid: string, hash: string): (r: SeenStatus)
    ensures var reply := redis(RedisKey(userid), hash);
      r != FalseStatus <==> (reply.EntryList? && |reply.entries| > 0 && reply.entries[0].Record?)
    ensures var reply := redis(RedisKey(userid), hash);
      r != FalseStatus ==>
        r == if reply.entries[0].collection.Some? then CollectionName(reply.entries[0].collection.value)
             else NoneStatus
  {
    match redis(RedisKey(userid), hash)
    case EntryList(entries) =>
      if |entries| == 0 then FalseStatus
      else (match entries[0]
        case Record(collection) => if collection.Some? then CollectionName(collection.value) else NoneStatus
        case NotARecord => FalseStatus)
    case _ => FalseStatus
  }

  // ---------------------------------------------------------------------
  // Declared versus detected MIME type
  // ---------------------------------------------------------------------

  /** The key `verify_magic_number` looks up: the lower-cased `splitext`
      extension with leading dots stripped. */
  function MimeKey(filename: string): string {
    LStripDots(Lower(SplitExt(filename)))
  }

  /** `verify_magic_number` against the table `mimeTypes` (the configured
      `ALLOWED_MIME_TYPES`), given the MIME type libmagic detects. */
  function VerifyMagicNumber(mimeTypes: map<string, string>, detectedMime: string, filename: string): Result<bool, Error> {
    var ext := MimeKey(filename);
    var expected := if ext in mimeTypes then Some(mimeTypes[ext]) else None;
    if '.' in ext then Err(MagicNumberFailed(DoubleExtension(filename)))
    else if expected.None? then Err(MagicNumberFailed(UnsupportedFileType(detectedMime, ext)))
    else if expected.value != detectedMime then Err(MagicNumberFailed(MimeMismatch(expected.value, detectedMime)))
    else Ok(true)
  }

  /** The lookup key holds no dot, so the double-extension branch can never
      be taken. */
  lemma MimeKeyHasNoDot(filename: string)
    ensures '.' !in MimeKey(filename)
  {
    var ext := Lower(SplitExt(filename));
    LoweredExtensionShape(filename);
    var key := MimeKey(filename);
    LStripDotsStripsDots(ext);
    if ext != "" {
      assert LStripDots(ext) == LStripDots(ext[1..]);
      assert ext[1..] == [] || ext[1..][0] != '.';
      assert key == ext[1..];
    }
  }

  /** The file passes exactly when its extension has an expected MIME type
      equal to the detected one; every failure is an unsupported type or a
      mismatch, never a double extension. */
  lemma VerifyMagicNumberDecision(mimeTypes: map<string, string>, detectedMime: string, filename: string)
    ensures var key := MimeKey(filename);
      VerifyMagicNumber(mimeTypes, detectedMime, filename) == Ok(true) <==>
      (key in mimeTypes && mimeTypes[key] == detectedMime)
    ensures var r := VerifyMagicNumber(mimeTypes, detectedMime, filename);
      r.Ok? ==> r.value
    ensures var r := VerifyMagicNumber(mimeTypes, detectedMime, filename);
      r.Err? ==> r.error.MagicNumberFailed? && !r.error.cause.DoubleExtension?
  {
    MimeKeyHasNoDot(filename);
  }

  // ---------------------------------------------------------------------
  // The VirusTotal verdict
  // ---------------------------------------------------------------------

  /** The VirusTotal file object as the rule reads it: the "category" of
      each sandbox verdict, the malicious vote count and the reputation
      (absent fields are None); or the error the client raised. */
  datatype VtReply =
    | VtObject(sandboxCategories: seq<Option<string>>, maliciousVotes: Option<int>, reputation: Option<int>)
    | VtApiError(code: string)
    | VtFailure

  function GetOr(x: Option<int>, default: int): int {
    if x.Some? then x.value else default
  }

  predicate AllHarmless(categories: seq<Option<string>>) {
    forall i :: 0 <= i < |categories| ==> categories[i] == Some("harmless")
  }

  /** The object path queried for a hashed name. */
  function VtPath(hashedFilename: string): string {
    "/files/" + BeforeFirstDot(hashedFilename)
  }

  /** `scan_for_malware`: votes and reputation first, then the sandbox
      verdicts. A hash VirusTotal does not know passes; any other API error
      falls out of the handler and yields `None`. */
  function ScanForMalware(vt: string -> VtReply, hashedFilename: string): Result<Option<bool>, Error> {
    match vt(VtPath(hashedFilename))
    case VtObject(categories, votes, reputation) =>
      if GetOr(votes, 0) > 0 || GetOr(reputation, 0) < 0 then Err(MalwareScanFailed(FlaggedMalicious))
      else if !AllHarmless(categories) then Err(MalwareScanFailed(SandboxNotHarmless))
      else Ok(Some(true))
    case VtApiError(code) => if code == "NotFoundError" then Ok(Some(true)) else Ok(None)
    case VtFailure => Err(MalwareScanFailed(ClientFailure))
  }

  /** The scan raises exactly when VirusTotal reports malicious votes, a
      negative reputation or a verdict other than "harmless", or the client
      fails; an unknown hash passes; another API error returns `None`. */
  lemma ScanForMalwareVerdict(vt: string -> VtReply, hashedFilename: string)
    ensures var reply, r := vt(VtPath(hashedFilename)), ScanForMalware(vt, hashedFilename);
      r.Err? <==>
        (reply.VtFailure? ||
         (reply.VtObject? && (GetOr(reply.maliciousVotes, 0) > 0 || GetOr(reply.reputation, 0) < 0
                              || exists i :: 0 <= i < |reply.sandboxCategories| && reply.sandboxCategories[i] != Some("harmless"))))
    ensures var reply, r := vt(VtPath(hashedFilename)), ScanForMalware(vt, hashedFilename);
      r == Ok(None) <==> (reply.VtApiError? && reply.code != "NotFoundError")
    ensures var reply, r := vt(VtPath(hashedFilename)), ScanForMalware(vt, hashedFilename);
      reply == VtApiError("NotFoundError") ==> r == Ok(Some(true))
  {
  }

  /** The scan of a content-addressed name queries the content's digest. */
  lemma ScanQueriesDigest(sha256: Bytes -> HexDigest, content: Bytes, filename: string)
    ensures VtPath(GenerateUniqueFilename(sha256, content, filename)) == "/files/" + sha256(content)
  {
    HashedNameRoundTrip(sha256, content, filename);
  }

  // ---------------------------------------------------------------------
  // Specifications of the batch steps
  // ---------------------------------------------------------------------

  /** One download: the bytes read, or an exception / non-bytes result. */
  datatype Fetch = Fetched(content: Bytes) | FetchFailed

  /** Every URL, paired with its filename, downloads to bytes. */
  predicate AllFetched(fetch: (string, string) -> Fetch, urls: seq<string>, filenames: seq<string>) {
    forall i :: 0 <= i < Min(|urls|, |filenames|) ==> fetch(urls[i], filenames[i]).Fetched?
  }

  /** The downloaded contents in URL order. */
  function Downloads(fetch: (string, string) -> Fetch, urls: seq<string>, filenames: seq<string>): (contents: seq<Bytes>)
    requires AllFetched(fetch, urls, filenames)
    ensures |contents| == Min(|urls|, |filenames|)
  {
    seq(Min(|urls|, |filenames|), i requires 0 <= i < Min(|urls|, |filenames|) => fetch(urls[i], filenames[i]).content)
  }

  function Sizes(contents: seq<Bytes>): (sizes: seq<nat>)
    ensures |sizes| == |contents|
  {
    seq(|contents|, i requires 0 <= i < |contents| => GetFileSize(contents[i]))
  }

  /** The names the hashing step stores, one per (content, filename) pair. */
  function HashedNames(sha256: Bytes -> HexDigest, contents: seq<Bytes>, filenames: seq<string>): (names: seq<string>)
    ensures |names| == Min(|contents|, |filenames|)
  {
    seq(Min(|contents|, |filenames|), i requires 0 <= i < Min(|contents|, |filenames|) =>
      GenerateUniqueFilename(sha256, contents[i], filenames[i]))
  }

  /** Python truthiness of an optional list. */
  predicate NonEmpty<T>(xs: Option<seq<T>>) {
    xs.Some? && |xs.value| > 0
  }

  /** Every unseen item among the first `n` passes the magic-number check
      in time. */
  predicate MagicChecksPass(mimeTypes: map<string, string>, contents: seq<Bytes>, filenames: seq<string>,
                            seen: seq<SeenStatus>, detectMime: Bytes -> string, timesOut: nat -> bool)
  {
    forall i :: 0 <= i < |contents| && i < |filenames| && i < |seen| && !seen[i].Truthy() ==>
      MagicItemPasses(mimeTypes, contents, filenames, detectMime, timesOut, i)
  }

  /** Item `i` exists and passes the magic-number check in time. */
  predicate MagicItemPasses(mimeTypes: map<string, string>, contents: seq<Bytes>, filenames: seq<string>,
                            detectMime: Bytes -> string, timesOut: nat -> bool, i: nat)
  {
    i < |contents| && i < |filenames| && !timesOut(i) &&
    VerifyMagicNumber(mimeTypes, detectMime(contents[i]), filenames[i]).Ok?
  }

  /** Specification of `process_verify_magic_number`: nothing to check
      without contents; a missing seen list makes `zip` raise; otherwise the
      step fails as soon as one unseen item fails or times out. */
  function MagicNumberStep(mimeTypes: map<string, string>, contents: Option<seq<Bytes>>, filenames: seq<string>,
                           seen: Option<seq<SeenStatus>>, detectMime: Bytes -> string, timesOut: nat -> bool)
    : Result<Option<bool>, Error>
  {
    if !NonEmpty(contents) then Ok(None)
    else if seen.None? then Err(MagicNumberCheckFailed)
    else if MagicChecksPass(mimeTypes, contents.value, filenames, seen.value, detectMime, timesOut) then Ok(Some(true))
    else Err(MagicNumberCheckFailed)
  }

  /** When every item is already seen, no file is checked and the step
      passes whatever libmagic would say. */
  lemma MagicNumberStepSkipsSeen(mimeTypes: map<string, string>, contents: seq<Bytes>, filenames: seq<string>,
                                 seen: seq<SeenStatus>, detectMime: Bytes -> string, timesOut: nat -> bool)
    requires |contents| > 0
    requires forall i :: 0 <= i < |seen| ==> seen[i].Truthy()
    ensures MagicNumberStep(mimeTypes, Some(contents), filenames, Some(seen), detectMime, timesOut) == Ok(Some(true))
  {
  }

  /** The malware step from item `i` on: the first unseen item whose scan
      raises decides the error. */
  function MalwareStepFrom(hashed: seq<string>, seen: seq<SeenStatus>, vt: string -> VtReply, i: nat): Result<bool, Error>
    requires i <= Min(|hashed|, |seen|)
    decreases Min(|hashed|, |seen|) - i
  {
    if i == Min(|hashed|, |seen|) then Ok(true)
    else if !seen[i].Truthy() && ScanForMalware(vt, hashed[i]).Err? then Err(ScanForMalware(vt, hashed[i]).error)
    else MalwareStepFrom(hashed, seen, vt, i + 1)
  }

  /** Specification of `process_scan_for_malware`: iterating a missing list
      raises `TypeError`. */
  function MalwareStep(hashed: Option<seq<string>>, seen: Option<seq<SeenStatus>>, vt: string -> VtReply): Result<bool, Error> {
    if hashed.None? || seen.None? then Err(PythonTypeError("'NoneType' object is not iterable"))
    else MalwareStepFrom(hashed.value, seen.value, vt, 0)
  }

  /** The malware step passes exactly when the scan of every unseen item
      passes; an API error other than "not found" counts as a pass. */
  lemma {:induction false} MalwareStepFromPasses(hashed: seq<string>, seen: seq<SeenStatus>, vt: string -> VtReply, i: nat)
    requires i <= Min(|hashed|, |seen|)
    ensures MalwareStepFrom(hashed, seen, vt, i).Ok? <==>
      forall j :: i <= j < Min(|hashed|, |seen|) && !seen[j].Truthy() ==> ScanForMalware(vt, hashed[j]).Ok?
    ensures MalwareStepFrom(hashed, seen, vt, i).Ok? ==> MalwareStepFrom(hashed, seen, vt, i).value
    decreases Min(|hashed|, |seen|) - i
  {
    if i < Min(|hashed|, |seen|) {
      MalwareStepFromPasses(hashed, seen, vt, i + 1);
    }
  }

  // ---------------------------------------------------------------------
  // The object keys of promotion
  // ---------------------------------------------------------------------

  /** A bucket name as the code normalises it: lower-cased, with `_`
      replaced by `-`. */
  function NormalizeBucket(name: string): string {
    Lower(ReplaceChar(name, '_', '-'))
  }

  /** Where an upload of `filename` by `userid` sits in quarantine. */
  function QuarantineKey(userid: string, filename: string): string {
    userid + "/" + filename
  }

  /** The store after `move_file_from_quarantine`'s side effects: the
      user's bucket exists, and it holds the quarantined object under the
      hashed name when that object exists. */
  function Promoted(buckets: map<string, map<string, Bytes>>, quarantine: string, userid: string, filename: string,
                    hashedFilename: string)
    : (after: map<string, map<string, Bytes>>)
    ensures userid in after
    ensures forall b :: b in buckets ==> b in after
  {
    var withBucket := if userid in buckets then buckets else buckets[userid := map[]];
    var src := QuarantineKey(userid, filename);
    if quarantine in withBucket && src in withBucket[quarantine] then
      withBucket[userid := withBucket[userid][hashedFilename := withBucket[quarantine][src]]]
    else withBucket
  }

  /** The indices, in order, of the first `n` items whose seen flag is
      falsy: the items a checking step submits. */
  function Unseen(n: nat, seen: seq<SeenStatus>): (indices: seq<nat>)
    requires n <= |seen|
    ensures |indices| <= n
    ensures forall k :: 0 <= k < |indices| ==> indices[k] < n
  {
    if n == 0 then []
    else Unseen(n - 1, seen) + (if seen[n - 1].Truthy() then [] else [n - 1])
  }

  /** Exactly the unseen items are submitted: every index listed is unseen,
      and every unseen index is listed. */
  lemma {:induction false} UnseenMembers(n: nat, seen: seq<SeenStatus>)
    requires n <= |seen|
    ensures forall k :: 0 <= k < |Unseen(n, seen)| ==> !seen[Unseen(n, seen)[k]].Truthy()
    ensures forall j :: 0 <= j < n && !seen[j].Truthy() ==> j in Unseen(n, seen)
  {
    if n > 0 {
      UnseenMembers(n - 1, seen);
    }
  }

  /** Nothing is submitted exactly when every one of the first `n` items
      has been seen. */
  lemma {:induction false} UnseenEmpty(n: nat, seen: seq<SeenStatus>)
    requires n <= |seen|
    ensures Unseen(n, seen) == [] <==> forall i :: 0 <= i < n ==> seen[i].Truthy()
  {
    if n > 0 {
      UnseenEmpty(n - 1, seen);
    }
  }

  /** The submitting loop of a checking step: the unseen items, in order. */
  method SubmitUnseen(n: nat, seen: seq<SeenStatus>) returns (submitted: seq<nat>)
    requires n <= |seen|
    ensures submitted == Unseen(n, seen)
  {
    submitted := [];
    var i := 0;
    while i < n
      invariant 0 <= i <= n
      invariant submitted == Unseen(i, seen)
    {
      if !seen[i].Truthy() {
        submitted := submitted + [i];
      }
      i := i + 1;
    }
  }

  /** The worker pool of a checking step: the first `n` items whose seen
      flag is falsy are submitted, and the step passes exactly when every
      submitted item passes. */
  method CheckUnseen(n: nat, seen: seq<SeenStatus>, passes: nat -> bool) returns (ok: bool)
    requires n <= |seen|
    ensures ok <==> forall i :: 0 <= i < n && !seen[i].Truthy() ==> passes(i)
  {
    var submitted := SubmitUnseen(n, seen);
    UnseenMembers(n, seen);
    var fails := (m: nat) => m < |submitted| && !passes(submitted[m]);
    var answers := seq(|submitted|, _ => true);
    var gathered := GatherWorkers(answers, fails);
    ok := gathered.Some?;
    if !ok {
      var m :| 0 <= m < |submitted| && !passes(submitted[m]);
      assert submitted[m] < n && !seen[submitted[m]].Truthy();
    } else {
      forall i | 0 <= i < n && !seen[i].Truthy()
        ensures passes(i)
      {
        var m :| 0 <= m < |submitted| && submitted[m] == i;
        assert !fails(m);
      }
    }
  }

  /** Collecting the workers' answers in submission order: an item whose
      worker times out or raises contributes `None`, and a `None` anywhere
      fails the batch; otherwise the batch is every answer, in order. */
  method GatherWorkers<T(==)>(answers: seq<T>, fails: nat -> bool) returns (r: Option<seq<T>>)
    ensures r.Some? <==> forall i :: 0 <= i < |answers| ==> !fails(i)
    ensures r.Some? ==> r.value == answers
  {
    var results: seq<Option<T>> := [];
    var i := 0;
    while i < |answers|
      invariant 0 <= i <= |answers|
      invariant |results| == i
      invariant forall j :: 0 <= j < i ==> results[j] == if fails(j) then None else Some(answers[j])
    {
      if fails(i) {
        results := results + [None];
      } else {
        results := results + [Some(answers[i])];
      }
      i := i + 1;
    }
    if None in results {
      var k :| 0 <= k < |answers| && results[k] == None;
      assert fails(k);
      return None;
    }
    forall j | 0 <= j < |answers|
      ensures !fails(j)
    {
      assert results[j] != None;
    }
    r := Some(seq(|answers|, j requires 0 <= j < |answers| => results[j].value));
  }

  /** Promotion never removes the quarantined object. */
  lemma PromotionKeepsQuarantinedObject(buckets: map<string, map<string, Bytes>>, quarantine: string,
                                        userid: string, filename: string, hashedFilename: string)
    requires quarantine in buckets && QuarantineKey(userid, filename) in buckets[quarantine]
    ensures var after := Promoted(buckets, quarantine, userid, filename, hashedFilename);
      var b, k := quarantine, QuarantineKey(userid, filename);
      && b in after && userid in after && hashedFilename in after[userid]
      && after[userid][hashedFilename] == buckets[b][k]
      && (userid != b || hashedFilename != k ==> k in after[b] && after[b][k] == buckets[b][k])
  {
  }

  // ---------------------------------------------------------------------
  // The service and its batch steps
  // ---------------------------------------------------------------------

  class QuarantineFileCheckService {
    const query: string
    const urls: seq<string>
    const filenames: seq<string>
    const userid: string
    /** The configured quarantine bucket, as read from the environment. */
    const bucketName: string
    /** The bucket name as `move`/`delete` normalise it. */
    const quarantine: string
    /** The configured table of expected MIME types. */
    const mimeTypes: map<string, string>

    var fileSizes: Option<seq<nat>>
    var fileContents: Option<seq<Bytes>>
    var hashedFilenames: Option<seq<string>>
    var seenStatus: Option<seq<SeenStatus>>

    constructor(query: string, urls: seq<string>, filenames: seq<string>, userid: string, bucketName: string)
      ensures this.query == query && this.urls == urls && this.filenames == filenames && this.userid == userid
      ensures this.bucketName == bucketName && quarantine == NormalizeBucket(bucketName)
      ensures mimeTypes == Settings.AllowedMimeTypes
      ensures fileSizes.None? && fileContents.None? && hashedFilenames.None? && seenStatus.None?
    {
      this.query := query;
      this.urls := urls;
      this.filenames := filenames;
      this.userid := userid;
      this.bucketName := bucketName;
      quarantine := NormalizeBucket(bucketName);
      mimeTypes := Settings.AllowedMimeTypes;
      fileSizes := None;
      fileContents := None;
      hashedFilenames := None;
      seenStatus := None;
    }

    /** `process_download_file`: downloads every (url, filename) pair and
        stores the contents in URL order only when every download gave
        bytes; otherwise raises and stores nothing. */
    method ProcessDownloadFile(fetch: (string, string) -> Fetch) returns (r: Result<bool, Error>)
      modifies this
      ensures r.Ok? <==> AllFetched(fetch, urls, filenames)
      ensures r.Ok? ==> r.value && fileContents == Some(Downloads(fetch, urls, filenames))
      ensures r.Err? ==> r.error == DownloadFailed && fileContents == old(fileContents)
      ensures fileSizes == old(fileSizes) && hashedFilenames == old(hashedFilenames) && seenStatus == old(seenStatus)
    {
      var n := Min(|urls|, |filenames|);
      var results: seq<Fetch> := [];
      var i := 0;
      while i < n
        invariant 0 <= i <= n
        invariant |results| == i
        invariant forall j :: 0 <= j < i ==> results[j] == fetch(urls[j], filenames[j])
      {
        results := results + [fetch(urls[i], filenames[i])];
        i := i + 1;
      }
      i := 0;
      while i < n
        invariant 0 <= i <= n
        invariant forall j :: 0 <= j < i ==> results[j].Fetched?
      {
        if results[i].FetchFailed? {
          return Err(DownloadFailed);
        }
        i := i + 1;
      }
      var contents := seq(n, j requires 0 <= j < n => results[j].content);
      assert contents == Downloads(fetch, urls, filenames);
      fileContents := Some(contents);
      return Ok(true);
    }

    /** `process_get_file_size`: one rounded size per stored content; raises
        when there are no contents. */
    method ProcessGetFileSize() returns (r: Result<bool, Error>)
      modifies this
      ensures NonEmpty(old(fileContents)) ==> r == Ok(true) && fileSizes == Some(Sizes(old(fileContents).value))
      ensures !NonEmpty(old(fileContents)) ==> r == Err(NoFileContents) && fileSizes == old(fileSizes)
      ensures fileContents == old(fileContents) && hashedFilenames == old(hashedFilenames)
      ensures seenStatus == old(seenStatus)
    {
      if fileContents.Some? && |fileContents.value| > 0 {
        fileSizes := Some(Sizes(fileContents.value));
        return Ok(true);
      }
      return Err(NoFileContents);
    }

    /** `process_file_hashing`: nothing happens without contents; otherwise
        one hashed name per (content, filename) pair, and a single item that
        times out fails the step and stores nothing. */
    method ProcessFileHashing(sha256: Bytes -> HexDigest, timesOut: nat -> bool) returns (r: Result<(), Error>)
      modifies this
      ensures !NonEmpty(old(fileContents)) ==> r.Ok? && hashedFilenames == old(hashedFilenames)
      ensures NonEmpty(old(fileContents)) ==>
        (r.Ok? <==> forall i :: 0 <= i < Min(|old(fileContents).value|, |filenames|) ==> !timesOut(i))
      ensures NonEmpty(old(fileContents)) && r.Ok? ==>
        hashedFilenames == Some(HashedNames(sha256, old(fileContents).value, filenames))
      ensures r.Err? ==> r.error == HashingFailed && hashedFilenames == old(hashedFilenames)
      ensures fileContents == old(fileContents) && fileSizes == old(fileSizes) && seenStatus == old(seenStatus)
    {
      if !(fileContents.Some? && |fileContents.value| > 0) {
        return Ok(());
      }
      var names := GatherWorkers(HashedNames(sha256, fileContents.value, filenames), timesOut);
      if names.None? {
        return Err(HashingFailed);
      }
      hashedFilenames := names;
      return Ok(());
    }

    /** `process_check_file_in_redis` as written: each lookup passes the user
        id as an extra argument, so any lookup raises `TypeError`; only an
        empty batch gets through (with an empty status list). */
    method ProcessCheckFileInRedis() returns (r: Result<(), Error>)
      modifies this
      ensures hashedFilenames.None? ==> r == Err(PythonTypeError("'NoneType' object is not iterable"))
      ensures hashedFilenames == Some([]) ==> r.Ok? && seenStatus == Some([])
      ensures hashedFilenames.Some? && |hashedFilenames.value| > 0 ==>
        r == Err(PythonTypeError("check_file_in_redis() takes 2 positional arguments but 3 were given"))
      ensures r.Err? ==> seenStatus == old(seenStatus)
      ensures fileContents == old(fileContents) && fileSizes == old(fileSizes) && hashedFilenames == old(hashedFilenames)
    {
      if hashedFilenames.None? {
        return Err(PythonTypeError("'NoneType' object is not iterable"));
      }
      if |hashedFilenames.value| > 0 {
        return Err(PythonTypeError("check_file_in_redis() takes 2 positional arguments but 3 were given"));
      }
      seenStatus := Some([]);
      return Ok(());
    }

    /** `process_verify_magic_number`: checks only the unseen items; one
        failure or timeout fails the whole step. */
    method ProcessVerifyMagicNumber(detectMime: Bytes -> string, timesOut: nat -> bool) returns (r: Result<Option<bool>, Error>)
      ensures r == MagicNumberStep(mimeTypes, fileContents, filenames, seenStatus, detectMime, timesOut)
    {
      if !(fileContents.Some? && |fileContents.value| > 0) {
        return Ok(None);
      }
      if seenStatus.None? {
        return Err(MagicNumberCheckFailed);
      }
      var contents, seen := fileContents.value, seenStatus.value;
      var ok := CheckUnseen(Min(Min(|contents|, |filenames|), |seen|), seen,
                            (i: nat) => MagicItemPasses(mimeTypes, contents, filenames, detectMime, timesOut, i));
      if !ok {
        return Err(MagicNumberCheckFailed);
      }
      return Ok(Some(true));
    }

    /** `process_scan_for_malware`: scans only the unseen items; the first
        scan that raises fails the step. */
    method ProcessScanForMalware(vt: string -> VtReply) returns (r: Result<bool, Error>)
      ensures r == MalwareStep(hashedFilenames, seenStatus, vt)
    {
      if hashedFilenames.None? || seenStatus.None? {
        return Err(PythonTypeError("'NoneType' object is not iterable"));
      }
      var hashed, seen := hashedFilenames.value, seenStatus.value;
      var n := Min(|hashed|, |seen|);
      var i := 0;
      while i < n
        invariant 0 <= i <= n
        invariant MalwareStepFrom(hashed, seen, vt, 0) == MalwareStepFrom(hashed, seen, vt, i)
      {
        if !seen[i].Truthy() {
          var outcome := ScanForMalware(vt, hashed[i]);
          if outcome.Err? {
            return Err(outcome.error);
          }
        }
        i := i + 1;
      }
      return Ok(true);
    }

    /** `move_file_from_quarantine` as written: creates the user's bucket
        when missing and copies the quarantined object to it under the
        hashed name, then fails on the undefined name `userid` while
        presigning, so it always raises. */
    method MoveFileFromQuarantine(store: Store, filename: string, hashedFilename: string) returns (r: Result<Url, Error>)
      modifies store
      ensures r == Err(CopyToUserBucketFailed)
      ensures store.buckets == Promoted(old(store.buckets), quarantine, userid, filename, hashedFilename)
    {
      if !store.BucketExists(userid) {
        store.MakeBucket(userid);
      }
      var copied := store.CopyObject(userid, hashedFilename, quarantine, QuarantineKey(userid, filename));
      // presigning names `userid`, which is not defined in this scope
      return Err(CopyToUserBucketFailed);
    }

    /** `move_file_from_quarantine` with the presign addressed to the user's
        bucket: succeeds exactly when the quarantined object exists and
        links the copy. */
    method MoveFileFromQuarantineIntended(store: Store, filename: string, hashedFilename: string) returns (r: Result<Url, Error>)
      modifies store
      ensures r.Ok? <==> old(store.HasObject(quarantine, QuarantineKey(userid, filename)))
      ensures r.Ok? ==> r.value == PresignedGet(userid, hashedFilename)
      ensures r.Err? ==> r.error == CopyToUserBucketFailed
      ensures store.buckets == Promoted(old(store.buckets), quarantine, userid, filename, hashedFilename)
    {
      if !store.BucketExists(userid) {
        store.MakeBucket(userid);
      }
      var copied := store.CopyObject(userid, hashedFilename, quarantine, QuarantineKey(userid, filename));
      if !copied {
        return Err(CopyToUserBucketFailed);
      }
      return Ok(PresignedGet(userid, hashedFilename));
    }

    /** `delete_file_from_quarantine`: removes the quarantined object; raises
        only when the quarantine bucket is missing. */
    method DeleteFileFromQuarantine(store: Store, filename: string) returns (r: Result<bool, Error>)
      modifies store
      ensures r.Ok? <==> quarantine in old(store.buckets)
      ensures r.Ok? ==>
        r.value && store.buckets == old(store.buckets)[quarantine := old(store.buckets[quarantine]) - {QuarantineKey(userid, filename)}]
      ensures r.Err? ==> r.error == DeleteFromQuarantineFailed && store.buckets == old(store.buckets)
    {
      var removed := store.RemoveObject(quarantine, QuarantineKey(userid, filename));
      if !removed {
        return Err(DeleteFromQuarantineFailed);
      }
      return Ok(true);
    }
  }
}

=== FILE: service_factory.dfy ===
/** Batch classification and dispatch: every filename's suffix is looked up
    in the four category lists, a batch with an unsupported suffix or with
    two categories is rejected, and the service is chosen from the first
    file's category. */
module ServiceFactory {
  import opened Wrappers
  import opened Errors
  import opened Text
  import Settings

  datatype Category = ImageFiles | PdfFiles | SourceCodeFiles | TabularFiles

  /** The suffix the classifier examines: the lower-cased text after the
      last dot, or the whole lower-cased name when there is no dot. */
  function FileType(filename: string): (t: string)
    ensures |t| <= |filename|
  {
    Lower(AfterLastDot(filename))
  }

  /** The file type holds no dot. */
  lemma FileTypeHasNoDot(filename: string)
    ensures '.' !in FileType(filename)
  {
    var s := AfterLastDot(filename);
    AfterLastDotHasNoDot(filename);
    forall i | 0 <= i < |s|
      ensures FileType(filename)[i] != '.'
    {
      assert s[i] != '.';
    }
  }

  /** The first category list (in the classifier's test order) holding the
      file type, or None when no list holds it. */
  function CategoryOf(filetype: string): (c: Option<Category>)
    ensures c.None? <==>
      (!Member(filetype, Settings.ImageExtensions) && !Member(filetype, Settings.PdfExtensions)
       && !Member(filetype, Settings.SourceCodeExtensions) && !Member(filetype, Settings.TabularExtensions))
  {
    if Member(filetype, Settings.ImageExtensions) then Some(ImageFiles)
    else if Member(filetype, Settings.PdfExtensions) then Some(PdfFiles)
    else if Member(filetype, Settings.SourceCodeExtensions) then Some(SourceCodeFiles)
    else if Member(filetype, Settings.TabularExtensions) then Some(TabularFiles)
    else None
  }

  function CategoryOfFile(filename: string): Option<Category> {
    CategoryOf(FileType(filename))
  }

  /** The dictionary `extract_attachments` returns. */
  datatype Attachments =
    | Unsupported
    | Mixed
    | Accepted(isImage: bool, isPdf: bool, isSourceCode: bool, isTabular: bool)
  {
    /** The "others" entry: True, None or False. */
    function Others(): Option<bool> {
      match this
      case Unsupported => Some(true)
      case Mixed => None
      case Accepted(_, _, _, _) => Some(false)
    }

    /** The "validate_lists" entry: None, False or True. */
    function ValidateLists(): Option<bool> {
      match this
      case Unsupported => None
      case Mixed => Some(false)
      case Accepted(_, _, _, _) => Some(true)
    }
  }

  /** Python truthiness of an optional flag. */
  predicate Truthy(b: Option<bool>) {
    b == Some(true)
  }

  /** The four flags, each tested on its own list against the first file. */
  function AcceptedFor(filetype: string): Attachments {
    Accepted(Member(filetype, Settings.ImageExtensions), Member(filetype, Settings.PdfExtensions),
             Member(filetype, Settings.SourceCodeExtensions), Member(filetype, Settings.TabularExtensions))
  }

  /** Each file's category, in batch order. */
  function Categories(filenames: seq<string>): seq<Option<Category>> {
    seq(|filenames|, j requires 0 <= j < |filenames| => CategoryOfFile(filenames[j]))
  }

  /** What the classifier loop decides from index `i` on, once the files
      before `i` all had category `first`: None if it runs to the end. */
  function ScanFrom(cats: seq<Option<Category>>, i: nat, first: Category): (r: Option<Attachments>)
    requires i <= |cats|
    ensures r.Some? ==> !r.value.Accepted?
    decreases |cats| - i
  {
    if i == |cats| then None
    else match cats[i]
      case None => Some(Unsupported)
      case Some(c) => if c != first then Some(Mixed) else ScanFrom(cats, i + 1, first)
  }

  /** The outcome of the classifier loop resumed at index `i >= 1`, with
      `accepted` the dictionary it builds when it runs to the end. */
  function ResumeAt(cats: seq<Option<Category>>, i: nat, first: Category, accepted: Attachments): Attachments
    requires 1 <= i <= |cats|
  {
    match ScanFrom(cats, i, first)
    case Some(rejection) => rejection
    case None => accepted
  }

  /** The classifier's verdict on a non-empty batch whose files have
      categories `cats`. */
  function Verdict(cats: seq<Option<Category>>, accepted: Attachments): Attachments
    requires |cats| > 0
  {
    match cats[0]
    case None => Unsupported
    case Some(c) => ResumeAt(cats, 1, c, accepted)
  }

  /** Specification of `extract_attachments`. An empty list fails when the
      first filename is indexed, and the error is wrapped. */
  function Classify(filenames: seq<string>): (r: Result<Attachments, Error>)
    ensures r.Err? <==> |filenames| == 0
    ensures r.Err? ==> r.error == ExtractAttachmentsFailed
  {
    if |filenames| == 0 then Err(ExtractAttachmentsFailed)
    else Ok(Verdict(Categories(filenames), AcceptedFor(FileType(filenames[0]))))
  }

  /** `extract_attachments`: the loop appends each file's category and stops
      at the first unsupported suffix or as soon as two categories occur. */
  method ExtractAttachments(filenames: seq<string>) returns (r: Result<Attachments, Error>)
    ensures r == Classify(filenames)
  {
    var validateList: seq<Category> := [];
    var i := 0;
    while i < |filenames|
      invariant 0 <= i <= |filenames|
      invariant |validateList| == i
      invariant i > 0 ==> CategoryOfFile(filenames[0]) == Some(validateList[0])
      invariant forall j :: 0 <= j < i ==> validateList[j] == validateList[0]
      invariant i > 0 ==>
        Classify(filenames) == Ok(ResumeAt(Categories(filenames), i, validateList[0], AcceptedFor(FileType(filenames[0]))))
    {
      var filetype := FileType(filenames[i]);
      var category := CategoryOf(filetype);
      assert category == Categories(filenames)[i];
      if category.None? {
        return Ok(Unsupported);
      }
      var kind := category.value;
      DistinctKindsAfterAppend(validateList, kind);
      validateList := validateList + [kind];
      if |set k | k in validateList| > 1 {
        return Ok(Mixed);
      }
      i := i + 1;
    }
    if |filenames| == 0 {
      return Err(ExtractAttachmentsFailed);
    }
    var first := FileType(filenames[0]);
    return Ok(Accepted(Member(first, Settings.ImageExtensions), Member(first, Settings.PdfExtensions),
                       Member(first, Settings.SourceCodeExtensions), Member(first, Settings.TabularExtensions)));
  }

  /** `len(set(validate_list)) > 1` after an append to a list whose entries
      are all equal holds exactly when the new entry differs from them. */
  lemma DistinctKindsAfterAppend(list: seq<Category>, kind: Category)
    requires forall j :: 0 <= j < |list| ==> list[j] == list[0]
    ensures |set k | k in list + [kind]| > 1 <==> (list != [] && kind != list[0])
  {
    var kinds := set k | k in list + [kind];
    if list == [] {
      assert kinds == {kind};
    } else {
      assert kinds == {list[0], kind};
    }
  }

  /** The loop runs to the end from `i` exactly when every remaining file
      has the first file's category. */
  lemma {:induction false} ScanFromCompletes(cats: seq<Option<Category>>, i: nat, first: Category)
    requires i <= |cats|
    ensures ScanFrom(cats, i, first).None? <==> forall j :: i <= j < |cats| ==> cats[j] == Some(first)
    decreases |cats| - i
  {
    if i < |cats| {
      ScanFromCompletes(cats, i + 1, first);
    }
  }

  /** The loop stops at the first index from `i` on whose file is
      unsupported (Unsupported) or of another category (Mixed). */
  lemma {:induction false} ScanFromStopsAt(cats: seq<Option<Category>>, i: nat, first: Category, k: nat)
    requires i <= k < |cats|
    requires forall j :: i <= j < k ==> cats[j] == Some(first)
    requires cats[k] != Some(first)
    ensures ScanFrom(cats, i, first) == Some(if cats[k].None? then Unsupported else Mixed)
    decreases k - i
  {
    if i < k {
      ScanFromStopsAt(cats, i + 1, first, k);
    }
  }

  /** Entry `k` is a defect when its suffix is unsupported or its category
      differs from the first entry's. */
  predicate Defect(cats: seq<Option<Category>>, k: nat)
    requires k < |cats|
  {
    cats[k].None? || cats[k] != cats[0]
  }

  /** A verdict is an acceptance exactly when every entry is supported and
      of the first entry's category. */
  lemma VerdictAccepts(cats: seq<Option<Category>>, accepted: Attachments)
    requires |cats| > 0 && accepted.Accepted?
    ensures Verdict(cats, accepted).Accepted? <==> forall j :: 0 <= j < |cats| ==> !Defect(cats, j)
    ensures Verdict(cats, accepted).Accepted? ==> Verdict(cats, accepted) == accepted
  {
    if cats[0].Some? {
      ScanFromCompletes(cats, 1, cats[0].value);
      if Verdict(cats, accepted).Accepted? {
        forall j | 0 <= j < |cats|
          ensures !Defect(cats, j)
        {
        }
      } else {
        var j :| 1 <= j < |cats| && cats[j] != Some(cats[0].value);
        assert Defect(cats, j);
      }
    } else {
      assert Defect(cats, 0);
    }
  }

  /** The earliest defect decides the kind of rejection: an unsupported
      entry gives Unsupported, a second category gives Mixed, whatever
      follows. */
  lemma VerdictRejectsAtFirstDefect(cats: seq<Option<Category>>, accepted: Attachments, k: nat)
    requires k < |cats| && Defect(cats, k)
    requires forall j :: 0 <= j < k ==> !Defect(cats, j)
    ensures Verdict(cats, accepted) == if cats[k].None? then Unsupported else Mixed
  {
    if k > 0 {
      assert !Defect(cats, 0);
      forall j | 1 <= j < k
        ensures cats[j] == Some(cats[0].value)
      {
        assert !Defect(cats, j);
      }
      ScanFromStopsAt(cats, 1, cats[0].value, k);
    }
  }

  /** A supported file type sets exactly the flag of its own category. */
  lemma AcceptedForFlagsCategory(filetype: string)
    requires CategoryOf(filetype).Some?
    ensures var a, c := AcceptedFor(filetype), CategoryOf(filetype).value;
      && a.isImage == (c == ImageFiles)
      && a.isPdf == (c == PdfFiles)
      && a.isSourceCode == (c == SourceCodeFiles)
      && a.isTabular == (c == TabularFiles)
  {
    Settings.CategoriesDisjoint();
    MemberIsIn(filetype, Settings.ImageExtensions);
    MemberIsIn(filetype, Settings.PdfExtensions);
    MemberIsIn(filetype, Settings.SourceCodeExtensions);
    MemberIsIn(filetype, Settings.TabularExtensions);
  }

  /** A non-empty batch is accepted exactly when every file is supported and
      of the first file's category; the accepted dictionary then sets only
      the flag of that shared category. */
  lemma ClassifyAccepts(filenames: seq<string>)
    ensures var cats := Categories(filenames);
      (Classify(filenames).Ok? && Classify(filenames).value.Accepted?) <==>
      (|cats| > 0 && forall j :: 0 <= j < |cats| ==> !Defect(cats, j))
    ensures var cats := Categories(filenames);
      Classify(filenames).Ok? && Classify(filenames).value.Accepted? ==>
      var a := Classify(filenames).value;
      && a.isImage == (cats[0] == Some(ImageFiles))
      && a.isPdf == (cats[0] == Some(PdfFiles))
      && a.isSourceCode == (cats[0] == Some(SourceCodeFiles))
      && a.isTabular == (cats[0] == Some(TabularFiles))
  {
    if |filenames| > 0 {
      var cats := Categories(filenames);
      var accepted := AcceptedFor(FileType(filenames[0]));
      VerdictAccepts(cats, accepted);
      if cats[0].Some? {
        AcceptedForFlagsCategory(FileType(filenames[0]));
      }
    }
  }

  /** The earliest defective file decides the kind of rejection. */
  lemma ClassifyRejectsAtFirstDefect(filenames: seq<string>, k: nat)
    requires k < |filenames| && Defect(Categories(filenames), k)
    requires forall j :: 0 <= j < k ==> !Defect(Categories(filenames), j)
    ensures Classify(filenames) == Ok(if Categories(filenames)[k].None? then Unsupported else Mixed)
  {
    VerdictRejectsAtFirstDefect(Categories(filenames), AcceptedFor(FileType(filenames[0])), k);
  }

  /** The concrete check service `create_service` builds. */
  datatype ServiceKind = ImageQuarantineCheckService | PdfQuarantineCheckService

  /** `create_service`: raises on an unsupported or mixed batch (and on the
      wrapped error of an empty one), builds the image or PDF service, and
      otherwise falls through to `None`. */
  function CreateService(filenames: seq<string>): Result<Option<ServiceKind>, Error> {
    var attachments :- Classify(filenames);
    ServiceFor(attachments)
  }

  /** The branch of `create_service` taken on a classifier dictionary. */
  function ServiceFor(attachments: Attachments): Result<Option<ServiceKind>, Error> {
    if Truthy(attachments.Others()) || !Truthy(attachments.ValidateLists()) then
      Err(InvalidOrMixedFileType)
    else if attachments.isImage then Ok(Some(ImageQuarantineCheckService))
    else if attachments.isPdf then Ok(Some(PdfQuarantineCheckService))
    else Ok(None)
  }

  /** Every file of the batch is of category `c`. */
  predicate AllOf(cats: seq<Option<Category>>, c: Category) {
    forall j :: 0 <= j < |cats| ==> cats[j] == Some(c)
  }

  /** Dispatch: image batches get the image service, PDF batches the PDF
      service, source-code and tabular batches no service (and no error);
      empty, unsupported and mixed batches raise. */
  lemma CreateServiceDispatch(filenames: seq<string>)
    ensures var cats := Categories(filenames);
      CreateService(filenames) == Ok(Some(ImageQuarantineCheckService)) <==>
      (|cats| > 0 && AllOf(cats, ImageFiles))
    ensures var cats := Categories(filenames);
      CreateService(filenames) == Ok(Some(PdfQuarantineCheckService)) <==>
      (|cats| > 0 && AllOf(cats, PdfFiles))
    ensures var cats := Categories(filenames);
      CreateService(filenames) == Ok(None) <==>
      (|cats| > 0 && (AllOf(cats, SourceCodeFiles) || AllOf(cats, TabularFiles)))
    ensures var cats := Categories(filenames);
      CreateService(filenames).Err? <==>
      (|cats| == 0 || exists j :: 0 <= j < |cats| && Defect(cats, j))
    ensures CreateService(filenames).Err? ==>
      CreateService(filenames).error == if |filenames| == 0 then ExtractAttachmentsFailed else InvalidOrMixedFileType
  {
    if |filenames| > 0 {
      ClassifyAccepts(filenames);
      ServiceForVerdict(Categories(filenames), Classify(filenames).value);
    }
  }

  /** `ServiceFor` on the verdict over categories `cats`. */
  lemma ServiceForVerdict(cats: seq<Option<Category>>, a: Attachments)
    requires |cats| > 0
    requires a.Accepted? <==> forall j :: 0 <= j < |cats| ==> !Defect(cats, j)
    requires a.Accepted? ==>
      && a.isImage == (cats[0] == Some(ImageFiles))
      && a.isPdf == (cats[0] == Some(PdfFiles))
      && a.isSourceCode == (cats[0] == Some(SourceCodeFiles))
      && a.isTabular == (cats[0] == Some(TabularFiles))
    ensures ServiceFor(a) == Ok(Some(ImageQuarantineCheckService)) <==> AllOf(cats, ImageFiles)
    ensures ServiceFor(a) == Ok(Some(PdfQuarantineCheckService)) <==> AllOf(cats, PdfFiles)
    ensures ServiceFor(a) == Ok(None) <==> (AllOf(cats, SourceCodeFiles) || AllOf(cats, TabularFiles))
    ensures ServiceFor(a).Err? <==> exists j :: 0 <= j < |cats| && Defect(cats, j)
    ensures ServiceFor(a).Err? ==> ServiceFor(a).error == InvalidOrMixedFileType
  {
    AllOfMeansNoDefect(cats, ImageFiles);
    AllOfMeansNoDefect(cats, PdfFiles);
    AllOfMeansNoDefect(cats, SourceCodeFiles);
    AllOfMeansNoDefect(cats, TabularFiles);
    if a.Accepted? {
      assert !Defect(cats, 0);
      assert cats[0] == Some(cats[0].value);
      match cats[0].value
      case ImageFiles => assert a.isImage;
      case PdfFiles => assert a.isPdf;
      case SourceCodeFiles => assert a.isSourceCode;
      case TabularFiles => assert a.isTabular;
    }
  }

  lemma AllOfMeansNoDefect(cats: seq<Option<Category>>, c: Category)
    requires |cats| > 0
    ensures AllOf(cats, c) <==> cats[0] == Some(c) && forall j :: 0 <= j < |cats| ==> !Defect(cats, j)
  {
    if cats[0] == Some(c) && forall j :: 0 <= j < |cats| ==> !Defect(cats, j) {
      forall j | 0 <= j < |cats|
        ensures cats[j] == Some(c)
      {
        assert !Defect(cats, j);
      }
    }
  }
}

=== FILE: settings.dfy ===
/** The configuration constants the quarantine checks run against, with
    the facts about them that the checks rely on. The deployment can override
    the bucket name through the environment; the model uses the default.

    The long source-code list is written as the concatenation of consecutive
    parts of the configured list (same entries, same order). The MIME table
    holds the configured entries regrouped by category into parts that are
    merged; its keys are distinct, so the grouping changes no lookup. Both
    splits keep the proofs about them small. */
module Settings {

  const ImageMaxWidth: nat := 5000
  const ImageMaxHeight: nat := 5000
  const MaxMegapixels: nat := 25
  /** Minimum encoded bytes per decoded pixel. */
  const BytesPerPixel: real := 0.05

  /** Caps on one file and on a whole batch, in MB. */
  const MaxUploadSize: nat := 15
  const MaxFileSize: nat := 15

  const ImageExtensions: seq<string> := ["jpg", "jpeg", "png"]
  const PdfExtensions: seq<string> := ["pdf"]
  /** As configured, "h" is listed twice. */
  const SourceCodeExtensions: seq<string> :=
    SourceCodeExtensions1 + SourceCodeExtensions2 + SourceCodeExtensions3 + SourceCodeExtensions4
  const TabularExtensions: seq<string> := ["csv", "xlsx", "xls", "parquet"]

  const SourceCodeExtensions1: seq<string> := [
    "cpp", "cc", "cxx", "h", "go", "java", "kt",
    "kts", "js", "mjs", "cjs", "ts", "tsx", "php"
  ]
  const SourceCodeExtensions2: seq<string> := [
    "phtml", "php3", "php4", "php5", "phps", "proto", "py",
    "pyw", "rst", "rb", "rhtml", "rs", "scala", "swift"
  ]
  const SourceCodeExtensions3: seq<string> := [
    "md", "markdown", "tex", "ltx", "cls", "sty", "html",
    "htm", "xhtml", "sol", "cs", "cob", "cbl", "cpy"
  ]
  const SourceCodeExtensions4: seq<string> := [
    "c", "h", "lua", "pl", "pm", "t", "hs",
    "lhs", "ex", "exs", "ps1", "psm1", "psd1", "txt"
  ]

  /** Expected MIME type per undotted, lower-case extension. The keys are
      all distinct, so the order in which the parts are merged does not
      matter; the image and PDF entries come last so that looking them up
      needs no other part. */
  const AllowedMimeTypes: map<string, string> :=
    SourceCodeMimeTypes1 + SourceCodeMimeTypes2 + SourceCodeMimeTypes3 + SourceCodeMimeTypes4
    + TabularMimeTypes + ImageAndPdfMimeTypes

  const ImageAndPdfMimeTypes: map<string, string> := map[
    "jpg" := "image/jpeg",
    "jpeg" := "image/jpeg",
    "png" := "image/png",
    "pdf" := "application/pdf"
  ]
  const SourceCodeMimeTypes1: map<string, string> := map[
    "cpp" := "text/x-c++src",
    "cc" := "text/x-c++src",
    "cxx" := "text/x-c++src",
    "h" := "text/x-c",
    "go" := "text/x-go",
    "java" := "text/x-java",
    "kt" := "text/x-kotlin",
    "kts" := "text/x-kotlin",
    "js" := "text/javascript",
    "mjs" := "text/javascript",
    "cjs" := "text/javascript",
    "ts" := "text/typescript",
    "tsx" := "text/typescript-jsx",
    "php" := "application/x-php"
  ]
  const SourceCodeMimeTypes2: map<string, string> := map[
    "phtml" := "application/x-php",
    "php3" := "application/x-php",
    "php4" := "application/x-php",
    "php5" := "application/x-php",
    "phps" := "application/x-php",
    "proto" := "text/plain",
    "py" := "text/x-python",
    "pyw" := "text/x-python",
    "rst" := "text/x-rst",
    "rb" := "text/x-ruby",
    "rhtml" := "text/x-ruby",
    "rs" := "text/x-rust",
    "scala" := "text/x-scala",
    "swift" := "text/x-swift"
  ]
  const SourceCodeMimeTypes3: map<string, string> := map[
    "md" := "text/markdown",
    "markdown" := "text/markdown",
    "tex" := "application/x-tex",
    "ltx" := "application/x-tex",
    "cls" := "application/x-tex",
    "sty" := "application/x-tex",
    "html" := "text/html",
    "htm" := "text/html",
    "xhtml" := "application/xhtml+xml",
    "sol" := "text/plain",
    "cs" := "text/x-csharp",
    "cob" := "text/x-cobol",
    "cbl" := "text/x-cobol",
    "cpy" := "text/x-cobol"
  ]
  const SourceCodeMimeTypes4: map<string, string> := map[
    "c" := "text/x-c",
    "lua" := "text/x-lua",
    "pl" := "text/x-perl",
    "pm" := "text/x-perl",
    "t" := "text/x-perl",
    "hs" := "text/x-haskell",
    "lhs" := "text/x-haskell",
    "ex" := "text/x-elixir",
    "exs" := "text/x-elixir",
    "ps1" := "application/x-powershell",
    "psm1" := "application/x-powershell",
    "psd1" := "application/x-powershell",
    "txt" := "text/plain"
  ]
  const TabularMimeTypes: map<string, string> := map[
    "csv" := "text/csv",
    "xlsx" := "application/vnd.openxmlformats-officedocument.spreadsheetml.sheet",
    "xls" := "application/vnd.ms-excel",
    "parquet" := "application/vnd.apache.parquet"
  ]

  const MinioQuarantineBucket: string := "praveen-allam-quarantine-files"

  /** Every entry of `list` is a key of `m`. */
  predicate Covers(list: seq<string>, m: map<string, string>) {
    forall e :: e in list ==> e in m
  }

  /** Every extension of the four category lists has an expected MIME type. */
  lemma CategoryExtensionsHaveMimeTypes()
    ensures Covers(ImageExtensions, AllowedMimeTypes) && Covers(PdfExtensions, AllowedMimeTypes)
    ensures Covers(SourceCodeExtensions, AllowedMimeTypes) && Covers(TabularExtensions, AllowedMimeTypes)
  {
    ListsHaveOwnMimeTypes();
    MergeKeepsKeys(ImageExtensions, SourceCodeMimeTypes1, SourceCodeMimeTypes2, SourceCodeMimeTypes3,
                   SourceCodeMimeTypes4, TabularMimeTypes, ImageAndPdfMimeTypes,
                   ImageAndPdfMimeTypes);
    MergeKeepsKeys(PdfExtensions, SourceCodeMimeTypes1, SourceCodeMimeTypes2, SourceCodeMimeTypes3,
                   SourceCodeMimeTypes4, TabularMimeTypes, ImageAndPdfMimeTypes,
                   ImageAndPdfMimeTypes);
    MergeKeepsKeys(TabularExtensions, SourceCodeMimeTypes1, SourceCodeMimeTypes2, SourceCodeMimeTypes3,
                   SourceCodeMimeTypes4, TabularMimeTypes, ImageAndPdfMimeTypes,
                   TabularMimeTypes);
    SourceCodeExtensionsHaveMimeTypes();
  }

  lemma SourceCodeExtensionsHaveMimeTypes()
    ensures Covers(SourceCodeExtensions, AllowedMimeTypes)
  {
    SourceCodePartsHaveMimeTypes12();
    SourceCodePartsHaveMimeTypes34();
    CoveredByConcatenation(SourceCodeExtensions1, SourceCodeExtensions2, SourceCodeExtensions3,
                           SourceCodeExtensions4, AllowedMimeTypes);
  }

  lemma SourceCodePartsHaveMimeTypes12()
    ensures Covers(SourceCodeExtensions1, AllowedMimeTypes) && Covers(SourceCodeExtensions2, AllowedMimeTypes)
  {
    OwnMimeTypes1();
    OwnMimeTypes2();
    MergeKeepsKeys(SourceCodeExtensions1, SourceCodeMimeTypes1, SourceCodeMimeTypes2, SourceCodeMimeTypes3,
                   SourceCodeMimeTypes4, TabularMimeTypes, ImageAndPdfMimeTypes,
                   SourceCodeMimeTypes1);
    MergeKeepsKeys(SourceCodeExtensions2, SourceCodeMimeTypes1, SourceCodeMimeTypes2, SourceCodeMimeTypes3,
                   SourceCodeMimeTypes4, TabularMimeTypes, ImageAndPdfMimeTypes,
                   SourceCodeMimeTypes2);
  }

  lemma SourceCodePartsHaveMimeTypes34()
    ensures Covers(SourceCodeExtensions3, AllowedMimeTypes) && Covers(SourceCodeExtensions4, AllowedMimeTypes)
  {
    OwnMimeTypes3();
    OwnMimeTypes4();
    MergeKeepsKeys(SourceCodeExtensions3, SourceCodeMimeTypes1, SourceCodeMimeTypes2, SourceCodeMimeTypes3,
                   SourceCodeMimeTypes4, TabularMimeTypes, ImageAndPdfMimeTypes,
                   SourceCodeMimeTypes3);
    MergeKeepsEitherKeys(SourceCodeExtensions4, SourceCodeMimeTypes1, SourceCodeMimeTypes2, SourceCodeMimeTypes3,
                   SourceCodeMimeTypes4, TabularMimeTypes, ImageAndPdfMimeTypes,
                   SourceCodeMimeTypes4, SourceCodeMimeTypes1);
  }

  /** The validated and tabular lists against the MIME entries written for
      them. */
  lemma ListsHaveOwnMimeTypes()
    ensures Covers(ImageExtensions, ImageAndPdfMimeTypes) && Covers(PdfExtensions, ImageAndPdfMimeTypes)
    ensures Covers(TabularExtensions, TabularMimeTypes)
  {
  }

  /** The source-code lists, part by part; "h" is repeated in the last part
      and its entry sits with the first. */
  lemma OwnMimeTypes1()
    ensures Covers(SourceCodeExtensions1, SourceCodeMimeTypes1)
  {
  }

  lemma OwnMimeTypes2()
    ensures Covers(SourceCodeExtensions2, SourceCodeMimeTypes2)
  {
  }

  lemma OwnMimeTypes3()
    ensures Covers(SourceCodeExtensions3, SourceCodeMimeTypes3)
  {
  }

  lemma OwnMimeTypes4()
    ensures CoversEither(SourceCodeExtensions4, SourceCodeMimeTypes4, SourceCodeMimeTypes1)
  {
  }

  /** Every entry of `list` is a key of `a` or of `b`. */
  predicate CoversEither(list: seq<string>, a: map<string, string>, b: map<string, string>) {
    forall e :: e in list ==> e in a || e in b
  }

  /** Merging maps keeps the keys of each of them. */
  lemma MergeKeepsKeys(list: seq<string>, m1: map<string, string>, m2: map<string, string>,
                       m3: map<string, string>, m4: map<string, string>, m5: map<string, string>,
                       m6: map<string, string>, mine: map<string, string>)
    requires Covers(list, mine)
    requires mine == m1 || mine == m2 || mine == m3 || mine == m4 || mine == m5 || mine == m6
    ensures Covers(list, m1 + m2 + m3 + m4 + m5 + m6)
  {
  }

  /** The same, for a list whose keys are spread over two of the merged maps. */
  lemma MergeKeepsEitherKeys(list: seq<string>, m1: map<string, string>, m2: map<string, string>,
                             m3: map<string, string>, m4: map<string, string>, m5: map<string, string>,
                             m6: map<string, string>, a: map<string, string>, b: map<string, string>)
    requires CoversEither(list, a, b)
    requires a == m1 || a == m2 || a == m3 || a == m4 || a == m5 || a == m6
    requires b == m1 || b == m2 || b == m3 || b == m4 || b == m5 || b == m6
    ensures Covers(list, m1 + m2 + m3 + m4 + m5 + m6)
  {
  }

  lemma CoveredByConcatenation(a: seq<string>, b: seq<string>, c: seq<string>, d: seq<string>,
                               m: map<string, string>)
    requires Covers(a, m) && Covers(b, m) && Covers(c, m) && Covers(d, m)
    ensures Covers(a + b + c + d, m)
  {
  }

  /** The four category lists are pairwise disjoint, so a supported
      extension belongs to exactly one category. */
  lemma CategoriesDisjoint()
    ensures forall e :: e in ImageExtensions ==> e !in PdfExtensions && e !in SourceCodeExtensions && e !in TabularExtensions
    ensures forall e :: e in PdfExtensions ==> e !in SourceCodeExtensions && e !in TabularExtensions
    ensures forall e :: e in SourceCodeExtensions ==> e !in TabularExtensions
  {
    SourceCodePartDisjoint1();
    SourceCodePartDisjoint2();
    SourceCodePartDisjoint3();
    SourceCodePartDisjoint4();
  }

  /** No other category lists a source-code extension of the given part. */
  predicate OnlySourceCode(part: seq<string>) {
    forall e :: e in part ==> e !in ImageExtensions && e !in PdfExtensions && e !in TabularExtensions
  }

  lemma SourceCodePartDisjoint1()
    ensures OnlySourceCode(SourceCodeExtensions1)
  {
  }

  lemma SourceCodePartDisjoint2()
    ensures OnlySourceCode(SourceCodeExtensions2)
  {
  }

  lemma SourceCodePartDisjoint3()
    ensures OnlySourceCode(SourceCodeExtensions3)
  {
  }

  lemma SourceCodePartDisjoint4()
    ensures OnlySourceCode(SourceCodeExtensions4)
  {
  }

  /** The dimension ceiling spans exactly the megapixel ceiling. */
  lemma DimensionCeilingMatchesMegapixels()
    ensures ImageMaxWidth * ImageMaxHeight == MaxMegapixels * 1_000_000
  {
  }

  /** One file may use the whole batch allowance, and no more. */
  lemma FileCapWithinUploadCap()
    ensures MaxFileSize <= MaxUploadSize
    ensures MaxFileSize == 15 && MaxUploadSize == 15
  {
  }

  /** The MIME type of the `jpg` extension of the image category. */
  lemma KnownJpgMimeType()
    ensures "jpg" in AllowedMimeTypes && AllowedMimeTypes["jpg"] == "image/jpeg"
  {
    // the keys differ at these positions, which the lookups below rely on
    assert |"jpg"| != |"jpeg"| && "jpg"[0] != "png"[0] && "jpg"[0] != "pdf"[0];
    assert "jpg" != "jpeg" && "jpg" != "png" && "jpg" != "pdf";
    assert ImageAndPdfMimeTypes["jpg"] == "image/jpeg";
    ImageAndPdfEntriesKept("jpg");
  }

  /** The MIME type of the `jpeg` extension of the image category. */
  lemma KnownJpegMimeType()
    ensures "jpeg" in AllowedMimeTypes && AllowedMimeTypes["jpeg"] == "image/jpeg"
  {
    assert |"jpeg"| != |"jpg"| && "jpeg"[0] != "png"[0] && "jpeg"[0] != "pdf"[0];
    assert ImageAndPdfMimeTypes["jpeg"] == "image/jpeg";
    ImageAndPdfEntriesKept("jpeg");
  }

  /** The MIME type of the PNG extension of the image category. */
  lemma KnownPngMimeType()
    ensures "png" in AllowedMimeTypes && AllowedMimeTypes["png"] == "image/png"
  {
    assert "png"[0] != "jpg"[0] && "png"[1] != "pdf"[1];
    assert ImageAndPdfMimeTypes["png"] == "image/png";
    ImageAndPdfEntriesKept("png");
  }

  /** The MIME type of the PDF category. */
  lemma KnownPdfMimeType()
    ensures "pdf" in AllowedMimeTypes && AllowedMimeTypes["pdf"] == "application/pdf"
  {
    ImageAndPdfEntriesKept("pdf");
  }

  /** The image and PDF entries, merged last, survive the merge unchanged. */
  lemma ImageAndPdfEntriesKept(k: string)
    requires k in ImageAndPdfMimeTypes
    ensures k in AllowedMimeTypes && AllowedMimeTypes[k] == ImageAndPdfMimeTypes[k]
  {
    LastMergedWins(SourceCodeMimeTypes1, SourceCodeMimeTypes2, SourceCodeMimeTypes3,
                   SourceCodeMimeTypes4, TabularMimeTypes, ImageAndPdfMimeTypes, k);
  }

  /** In a merge the right-most map decides its own keys. */
  lemma LastMergedWins(m1: map<string, string>, m2: map<string, string>, m3: map<string, string>,
                       m4: map<string, string>, m5: map<string, string>, m6: map<string, string>, k: string)
    requires k in m6
    ensures k in m1 + m2 + m3 + m4 + m5 + m6 && (m1 + m2 + m3 + m4 + m5 + m6)[k] == m6[k]
  {
  }

  predicate Undotted(list: seq<string>) {
    forall e :: e in list ==> e != "" && e[0] != '.'
  }

  /** The category lists are written without a leading dot and hold no
      empty entry, so no dotted or empty suffix is ever a member. */
  lemma ExtensionsUndotted()
    ensures Undotted(TabularExtensions) && Undotted(ImageExtensions) && Undotted(PdfExtensions)
    ensures Undotted(SourceCodeExtensions)
  {
    SourceCodePartsUndotted12();
    SourceCodePartsUndotted34();
  }

  lemma SourceCodePartsUndotted12()
    ensures Undotted(SourceCodeExtensions1) && Undotted(SourceCodeExtensions2)
  {
  }

  lemma SourceCodePartsUndotted34()
    ensures Undotted(SourceCodeExtensions3) && Undotted(SourceCodeExtensions4)
  {
  }
}

=== FILE: sums.dfy ===
/** Python's `sum`, `max` and truthiness filters over lists of counts, as
    the batch summaries use them. */
module Sums {

  /** `sum(xs)` */
  function Sum(xs: seq<nat>): nat {
    if xs == [] then 0 else Sum(xs[..|xs| - 1]) + xs[|xs| - 1]
  }

  /** Summing is additive over concatenation. */
  lemma {:induction false} SumAppend(xs: seq<nat>, ys: seq<nat>)
    ensures Sum(xs + ys) == Sum(xs) + Sum(ys)
    decreases |ys|
  {
    if ys == [] {
      assert xs + ys == xs;
    } else {
      var init := ys[..|ys| - 1];
      assert (xs + ys)[..|xs + ys| - 1] == xs + init;
      SumAppend(xs, init);
    }
  }

  /** No element exceeds the sum. */
  lemma {:induction false} SumBoundsElements(xs: seq<nat>)
    ensures forall i :: 0 <= i < |xs| ==> xs[i] <= Sum(xs)
  {
    if xs != [] {
      SumBoundsElements(xs[..|xs| - 1]);
    }
  }

  /** `[x for x in xs if x]`: the non-zero entries, in order. */
  function NonZero(xs: seq<nat>): (r: seq<nat>)
    ensures |r| <= |xs|
  {
    if xs == [] then []
    else if xs[|xs| - 1] == 0 then NonZero(xs[..|xs| - 1])
    else NonZero(xs[..|xs| - 1]) + [xs[|xs| - 1]]
  }

  /** The filter keeps exactly the non-zero entries. */
  lemma {:induction false} NonZeroKeeps(xs: seq<nat>)
    ensures forall x :: x in NonZero(xs) <==> x in xs && x != 0
  {
    if xs != [] {
      NonZeroKeeps(xs[..|xs| - 1]);
      assert xs == xs[..|xs| - 1] + [xs[|xs| - 1]];
    }
  }

  /** Dropping zeros does not change the sum. */
  lemma {:induction false} NonZeroSum(xs: seq<nat>)
    ensures Sum(NonZero(xs)) == Sum(xs)
  {
    if xs != [] {
      NonZeroSum(xs[..|xs| - 1]);
      if xs[|xs| - 1] != 0 {
        var init := NonZero(xs[..|xs| - 1]);
        assert (init + [xs[|xs| - 1]])[..|init|] == init;
      }
    }
  }

  /** `max(xs)`, defined only for a non-empty list. */
  function Max(xs: seq<nat>): (m: nat)
    requires |xs| > 0
    ensures m in xs
    ensures forall i :: 0 <= i < |xs| ==> xs[i] <= m
  {
    if |xs| == 1 then xs[0]
    else
      var m := Max(xs[..|xs| - 1]);
      assert forall i :: 0 <= i < |xs| - 1 ==> xs[i] == xs[..|xs| - 1][i];
      if xs[|xs| - 1] > m then xs[|xs| - 1] else m
  }
}

=== FILE: text.dfy ===
/** The few Python string operations the quarantine code relies on:
    `str.lower` (ASCII letters only), `str.split('.')`, `str.lstrip('.')`, `str.replace`,
    `os.path.splitext` (POSIX flavour), `bytes.startswith`, `in` on bytes,
    and decimal formatting of a count. */
module Text {

  /** ASCII case folding; letters outside A-Z are left as they are. */
  function LowerChar(c: char): (r: char)
    ensures ('A' <= c <= 'Z') == (r != c)
    ensures r == '.' <==> c == '.'
    ensures r == '/' <==> c == '/'
  {
    if 'A' <= c <= 'Z' then (c as int + 32) as char else c
  }

  /** `s.lower()` restricted to ASCII: each character goes through
      `LowerChar`, so only A-Z are folded; Python's Unicode folding of other
      letters is not modelled. */
  function Lower(s: string): string {
    seq(|s|, i requires 0 <= i < |s| => LowerChar(s[i]))
  }

  /** `s.rfind(c)`: the last index holding `c`, or -1. */
  function RFind(s: string, c: char): (r: int)
    ensures -1 <= r < |s|
    ensures r >= 0 ==> s[r] == c
  {
    if s == [] then -1
    else if s[|s| - 1] == c then |s| - 1
    else RFind(s[..|s| - 1], c)
  }

  /** No occurrence of `c` follows the one `RFind` reports. */
  lemma {:induction false} RFindIsLast(s: string, c: char)
    ensures forall j :: RFind(s, c) < j < |s| ==> s[j] != c
  {
    if s != [] && s[|s| - 1] != c {
      RFindIsLast(s[..|s| - 1], c);
    }
  }

  /** `s.find(c)`: the first index holding `c`, or -1 when there is none. */
  function Find(s: string, c: char): (r: int)
    ensures -1 <= r < |s|
    ensures r >= 0 ==> s[r] == c
  {
    if s == [] then -1
    else if s[0] == c then 0
    else var k := Find(s[1..], c); if k == -1 then -1 else k + 1
  }

  /** No occurrence of `c` precedes the one `Find` reports, and -1 means
      there is none at all. */
  lemma {:induction false} FindIsFirst(s: string, c: char)
    ensures forall j :: 0 <= j < |s| && (Find(s, c) == -1 || j < Find(s, c)) ==> s[j] != c
  {
    if s != [] && s[0] != c {
      FindIsFirst(s[1..], c);
      assert forall j :: 1 <= j < |s| ==> s[j] == s[1..][j - 1];
    }
  }

  /** `s.split('.')[-1]`: the text after the last dot, or all of `s`. */
  function AfterLastDot(s: string): (r: string)
    ensures |r| <= |s| && r == s[|s| - |r|..]
    ensures |r| < |s| ==> s[|s| - |r| - 1] == '.'
  {
    s[RFind(s, '.') + 1..]
  }

  lemma AfterLastDotHasNoDot(s: string)
    ensures '.' !in AfterLastDot(s)
  {
    RFindIsLast(s, '.');
    var r := AfterLastDot(s);
    forall i | 0 <= i < |r|
      ensures r[i] != '.'
    {
      assert r[i] == s[RFind(s, '.') + 1 + i];
    }
  }

  /** `s.split('.')[0]`: the text before the first dot, or all of `s`. */
  function BeforeFirstDot(s: string): (r: string)
    ensures r <= s
    ensures |r| < |s| ==> s[|r|] == '.'
  {
    var k := Find(s, '.');
    if k == -1 then s else s[..k]
  }

  lemma BeforeFirstDotHasNoDot(s: string)
    ensures '.' !in BeforeFirstDot(s)
  {
    FindIsFirst(s, '.');
    var r := BeforeFirstDot(s);
    forall i | 0 <= i < |r|
      ensures r[i] != '.'
    {
      assert r[i] == s[i];
    }
  }

  /** The extension part of `os.path.splitext(p)` with `/` as separator:
      from the last dot of the last path component, provided that component
      has a character other than a dot before it; otherwise empty. */
  function SplitExt(p: string): (ext: string)
    ensures ext == "" || ext[0] == '.'
    ensures |ext| <= |p|
  {
    var sepIndex := RFind(p, '/');
    var dotIndex := RFind(p, '.');
    if dotIndex > sepIndex && HasNonDot(p, sepIndex + 1, dotIndex)
    then p[dotIndex..]
    else ""
  }

  /** Some character of `p[lo..hi]` is not a dot. */
  predicate HasNonDot(p: string, lo: int, hi: int)
    requires 0 <= lo && hi <= |p|
    decreases hi - lo
  {
    lo < hi && (p[lo] != '.' || HasNonDot(p, lo + 1, hi))
  }

  /** The extension is a suffix of the path holding one dot, at its head,
      and no separator. */
  lemma SplitExtShape(p: string)
    ensures var ext := SplitExt(p);
      ext == p[|p| - |ext|..] && (ext == "" || '.' !in ext[1..]) && '/' !in ext
  {
    RFindIsLast(p, '/');
    RFindIsLast(p, '.');
    var ext := SplitExt(p);
    forall i | 0 <= i < |ext|
      ensures ext[i] != '/' && (i > 0 ==> ext[i] != '.')
    {
      assert ext[i] == p[|p| - |ext| + i];
    }
  }

  /** `s.lstrip('.')` */
  function LStripDots(s: string): (r: string)
    ensures |r| <= |s|
    decreases |s|
  {
    if s != [] && s[0] == '.' then LStripDots(s[1..]) else s
  }

  /** Only leading dots are stripped: what remains is a suffix that does
      not start with a dot, and everything before it is a dot. */
  lemma {:induction false} LStripDotsStripsDots(s: string)
    ensures var r := LStripDots(s);
      && r == s[|s| - |r|..]
      && (r == [] || r[0] != '.')
      && forall i :: 0 <= i < |s| - |r| ==> s[i] == '.'
  {
    if s != [] && s[0] == '.' {
      LStripDotsStripsDots(s[1..]);
      assert forall i :: 1 <= i < |s| ==> s[i] == s[1..][i - 1];
    }
  }

  /** `s.replace(a, b)` for single characters. */
  function ReplaceChar(s: string, a: char, b: char): (r: string)
    ensures |r| == |s|
  {
    if s == [] then [] else [if s[0] == a then b else s[0]] + ReplaceChar(s[1..], a, b)
  }

  /** Every occurrence of `a`, and nothing else, is replaced. */
  lemma {:induction false} ReplaceCharEach(s: string, a: char, b: char)
    ensures forall i :: 0 <= i < |s| ==> ReplaceChar(s, a, b)[i] == (if s[i] == a then b else s[i])
  {
    if s != [] {
      ReplaceCharEach(s[1..], a, b);
    }
  }

  function DigitChar(d: nat): (c: char)
    requires d < 10
    ensures '0' <= c <= '9'
  {
    ('0' as int + d) as char
  }

  /** `str(n)` for a count. */
  function NatToString(n: nat): (r: string)
    ensures |r| > 0
    decreases n
  {
    if n < 10 then [DigitChar(n)] else NatToString(n / 10) + [DigitChar(n % 10)]
  }

  /** The rendering holds only decimal digits. */
  lemma {:induction false} NatToStringDigits(n: nat)
    ensures forall i :: 0 <= i < |NatToString(n)| ==> '0' <= NatToString(n)[i] <= '9'
    decreases n
  {
    if n >= 10 {
      NatToStringDigits(n / 10);
    }
  }

  /** Python's `x in list`, walking the list from the front. */
  function Member<T(==)>(x: T, list: seq<T>): bool {
    if list == [] then false else list[0] == x || Member(x, list[1..])
  }

  lemma {:induction false} MemberIsIn<T>(x: T, list: seq<T>)
    ensures Member(x, list) <==> x in list
  {
    if list != [] {
      MemberIsIn(x, list[1..]);
      assert list == [list[0]] + list[1..];
    }
  }

  /** `s.startswith(prefix)` */
  predicate StartsWith<T(==)>(s: seq<T>, prefix: seq<T>) {
    prefix <= s
  }

  /** `part in s` for byte strings: `part` occurs at some offset. */
  predicate Contains<T(==)>(s: seq<T>, part: seq<T>) {
    exists i :: 0 <= i <= |s| - |part| && OccursAt(s, part, i)
  }

  predicate OccursAt<T(==)>(s: seq<T>, part: seq<T>, i: int)
    requires 0 <= i <= |s| - |part|
  {
    s[i..i + |part|] == part
  }
}

=== FILE: variants.dfy ===
/** The two readings of the code the model carries side by side. */
module Variants {

  /** The code as written, or as evidently intended: the image summary not
      awaited; a PDF summary that raises the check exception listing the
      flagged reasons instead of `TypeError` or `ValueError`; a zip-bomb
      total over the sizes every archive member declares; and promotion
      through the service's own move and delete with the presign addressed
      to the user's bucket. */
  datatype Variant = AsWritten | Intended
}

=== FILE: wrappers.dfy ===
/** Option and Result values used wherever the Python code returns `None`,
    a value, or raises. */
module Wrappers {

  datatype Option<+T> = None | Some(value: T)

  datatype Result<+T, +E> = Ok(value: T) | Err(error: E) {
    predicate IsFailure() { Err? }

    function PropagateFailure<U>(): Result<U, E>
      requires Err?
    {
      Err(error)
    }

    function Extract(): T
      requires Ok?
    {
      value
    }
  }
}
